=== FILE: README.md ===
# FastIron driver core in Dafny

A model of the text-processing core of the NAPALM driver for Brocade/Ruckus
FastIron switches (`FastIronDriver` in `napalm_fastiron/FastIron.py`). The
driver sends CLI commands over SSH and turns the text the switch answers
with into NAPALM's dictionaries. Everything between the two is pure string
and list processing, and that is what is modelled here:

- **Text segmentation and token location** (`Locate`, `Segment`):
  - cutting command output into lines;
  - finding tokens at a fixed offset from an anchor word;
  - looking several anchor words up at once;
  - the row, padding and whitespace helpers.
- **Fact extractors** (`Facts`, `Environment`):
  - uptime, model, hostname, OS version, serial number;
  - the speed table;
  - user privilege levels;
  - TurboIron MAC port ranges;
  - temperature, fans, memory and CPU load.
- **Interface names** (`IfName`, `Ranges`):
  - the rewriting chain of `__standardize_interface_name`, with the port map passed in as a parameter;
  - the range notation of `interfaces_to_list` (`ethe 2/1 to 2/4`, `lag 3 to 5`);
  - `interface_list_conversion`.
- **Configuration blocks and diff** (`ConfigBlocks`, `ConfigDiff`):
  - how a configuration is cut into `!`-separated blocks;
  - how two configurations are compared block by block;
  - how the difference is rendered.
- **Candidate configuration** (`CandidateConfig`): the load, discard, compare and commit steps. The running configuration is passed in, and the commands for the device are returned.
- **VLAN post-processing** (`Vlans`): the native-VLAN correction of `get_vlans`.

Python's exceptions are values of `Outcomes.Result`:

| exception | raised by |
|---|---|
| `IndexError` | an index outside the list |
| `ValueError` | `int()` or `float()` of a non-number; unpacking the wrong number of pieces |
| `KeyError` | a port number missing from the port map |
| `UnboundLocal` | reading a local variable that was never assigned |
| `UnknownSpeed` | the driver's `PortSpeedException` |

The Python built-ins the code relies on are modelled with their exact semantics (`PyStr`):

- `str.split()` and `str.strip()` with Python's whitespace set;
- `str.split(sep)`, `str.find`, `str.rfind`, `str.replace`, `in`;
- `int()` (sign, surrounding whitespace, digit groups with `_`) and `str()` of an integer;
- `max` over strings (lexicographic order);
- `list.index`, which finds the first occurrence;
- negative list indices, which count from the end.

Every source location below is in `napalm_fastiron/FastIron.py`.

## Model

| member | source | states |
|---|---|---|
| Locate.PositionsComplete | napalm_fastiron/FastIron.py:161-166 | the positions where the anchor word occurs are strictly ascending and include every position at which it occurs |
| Locate.PositionsFirst | napalm_fastiron/FastIron.py:161-166 | some anchor position exists exactly when the word occurs, and the first one is where `list.index` finds it |
| Locate.RetrieveAllLocations | napalm_fastiron/FastIron.py:157-167 | one value per occurrence of the anchor, left to right, each the token at anchor index + 1 + pos (Python's negative indices count from the end); IndexError exactly when one such index is outside the token list |
| Locate.RetrieveInBounds | napalm_fastiron/FastIron.py:157-167 | when every anchor index + 1 + pos lies inside the token list, the call succeeds and each value is the token at that position |
| Locate.FirstLocation | napalm_fastiron/FastIron.py:157-167 | `[0]` of the retrieved values: fails when the anchor is absent or an offset is out of range, otherwise the value read from the first occurrence |
| Facts.RetrieveTokens | napalm_fastiron/FastIron.py:157-167 | for offsets of -1 or more, the call succeeds exactly when every occurrence has a token that far after it; the result is non-empty exactly when the word occurs, and its first value is read from the first occurrence |
| Facts.FirstLocationTokens | napalm_fastiron/FastIron.py:157-167 | for offsets of -1 or more, the first value exists exactly when the word occurs and every occurrence has a token that far after it, and it is the token at first occurrence + 1 + pos |
| Locate.FindLoop | napalm_fastiron/FastIron.py:182-187 | the popping loop fails exactly when some present word's offset reaches outside the sentence |
| Locate.FindLoopContents | napalm_fastiron/FastIron.py:182-187 | the dictionary's keys are the given ones plus the listed words present in the text; a word listed more than once keeps the value of its first pair, because the lists are popped from the end; other keys are untouched |
| Locate.FindWords | napalm_fastiron/FastIron.py:169-189 | `None` when the word and offset lists differ in length or are empty; otherwise the keys are exactly the listed words that occur in the text, each mapped to the token at its first occurrence + its offset |
| Locate.FindWordsDistinct | napalm_fastiron/FastIron.py:169-189 | for distinct words, a word is a key exactly when it occurs in the text, with the value read at its own offset |
| Segment.LinesMatchReference | napalm_fastiron/FastIron.py:191-206 | the character loop agrees with an independent definition built on `split("\n")`: the non-empty pieces before the last newline, then the last piece without its final character |
| Segment.LinesHaveNoNewline | napalm_fastiron/FastIron.py:191-206 | no line contains a newline |
| Segment.LinesCollapseBlankLines | napalm_fastiron/FastIron.py:198-199 | a newline met with an empty buffer adds no line: doubled newlines and a leading newline change nothing |
| Segment.LinesContent | napalm_fastiron/FastIron.py:196-204 | the lines put together are the input without its last character and without newlines, so a final character that is not a newline is lost |
| Segment.DeleteIfContains | napalm_fastiron/FastIron.py:208-216 | at most one row per line; with no line containing the word every line is kept, split into tokens, in order; with every line containing it nothing is kept |
| Segment.DeleteIfContainsRows | napalm_fastiron/FastIron.py:208-216 | every row is the token list of some input line that does not contain the word |
| Segment.DeleteIfContainsAppend | napalm_fastiron/FastIron.py:208-216 | the lines are filtered one at a time: the rows of a concatenation are the rows of each part |
| Segment.TokenRows | napalm_fastiron/FastIron.py:436-441 | every row is the non-empty token list of some line; at most one row per line; when no line is blank, row k is exactly the tokens of line k |
| Segment.TokenRowsOne | napalm_fastiron/FastIron.py:437-441 | one line gives its token row, or no row when it holds no token |
| Segment.TokenRowsAppend | napalm_fastiron/FastIron.py:436-441 | the rows of two stretches of lines one after the other are the rows of each, in the same order |
| Segment.MatrixFormat | napalm_fastiron/FastIron.py:432-443 | every row is a non-empty list of whitespace-free tokens, and there are no more rows than lines; when no line is blank, row k is exactly the tokens of line k |
| Segment.UniteStrings | napalm_fastiron/FastIron.py:385-399 | the result has no newline and keeps a first character that is neither space nor newline |
| Segment.UniteKeepsVisibleText | napalm_fastiron/FastIron.py:390-397 | only spaces and newlines are changed: with both removed, input and output read the same |
| Segment.UniteSingleSpaces | napalm_fastiron/FastIron.py:390-397 | on newline-free input, no two spaces are adjacent in the result and it does not end with a space |
| Segment.UniteAppend | napalm_fastiron/FastIron.py:390-397 | text not ending in a space is united independently of what follows it |
| Segment.UniteGap | napalm_fastiron/FastIron.py:390-397 | between text not ending in a space and text starting with a non-space, a run of one or more spaces becomes exactly one space |
| Segment.UniteTrailingSpaces | napalm_fastiron/FastIron.py:393-397 | a run of spaces at the end of the text contributes nothing |
| Segment.UniteNewline | napalm_fastiron/FastIron.py:390-397 | a newline not preceded by a space is dropped and the two sides are joined directly |
| Segment.SpaceBeforeNewline | napalm_fastiron/FastIron.py:393-397 | a single space before a newline is kept as one space, since only a following space suppresses it |
| Segment.MapPortNames | napalm_fastiron/FastIron.py:405-409 | one name per line, in order: empty for an unnamed port, else the line without the `Port name is` label |
| Segment.GetInterfaceName | napalm_fastiron/FastIron.py:401-414 | as many names as the larger of `size` and the number of lines; the line names first, then empty names |
| Segment.GetInterfacesSpeed | napalm_fastiron/FastIron.py:422-430 | exactly `size` cells (none when size is not positive): the given speeds first, then the placeholder `0` |
| Facts.FactsUptime | napalm_fastiron/FastIron.py:218-236 | 86400·days + 3600·hours + 60·minutes + seconds, each count being the token in front of the unit word's first occurrence and 0 when the unit is absent; ValueError exactly when a present count is no integer |
| Facts.UptimeLookup | napalm_fastiron/FastIron.py:220-224 | the lookup always succeeds, has a key for exactly the unit words present, and each value is the token in front of the unit |
| Facts.SumUnitsTotal | napalm_fastiron/FastIron.py:226-235 | the loop over the dictionary succeeds exactly when the direct count over the token list does, with the same total |
| Facts.UptimeTotal | napalm_fastiron/FastIron.py:226-235 | the direct count is defined exactly when all four counts are integers, and then equals the weighted sum |
| Facts.FactsModel | napalm_fastiron/FastIron.py:238-241 | the token after the first `Stackable`; IndexError when there is none |
| Facts.FactsHostname | napalm_fastiron/FastIron.py:243-249 | `None` when the text does not contain `hostname`; otherwise the token after the first `hostname` token, and IndexError when there is no such token |
| Facts.FactsOsVersion | napalm_fastiron/FastIron.py:251-254 | the second token after the first `SW:`; IndexError when it is missing |
| Facts.FactsSerial | napalm_fastiron/FastIron.py:256-262 | the token after the first `Serial`, or the one after that when the next is `#:`, with every `#:` removed; IndexError when the token read is missing |
| Facts.SerialAfterMarker | napalm_fastiron/FastIron.py:258-261 | on `Serial #: X` the offset-0 lookup yields `#:`, and the serial is `X` without `#:` |
| Facts.InterfaceSpeedTable | napalm_fastiron/FastIron.py:360-383 | a speed is found exactly for the ten table spellings, with the table's value as a float; any other word raises the speed exception naming it |
| Facts.PrivilegeLevel | napalm_fastiron/FastIron.py:1549-1554 | privilege 0 gives level 15, privilege 4 gives 8, every other integer gives 3; ValueError when it is no integer |
| Facts.UserOf | napalm_fastiron/FastIron.py:1547-1556 | a line is read exactly when it has six fields and an integer privilege; it yields the user, the password, no SSH keys and the mapped level |
| Facts.GetUsers | napalm_fastiron/FastIron.py:1540-1557 | succeeds exactly when every line after the last `=` is read; the keys are the user names, and a name seen twice keeps its last line |
| Facts.MacPorts | napalm_fastiron/FastIron.py:1505-1510 | a port without `-` is itself; `a-b` is every number from a to b, and ValueError when it splits into more than two pieces or a bound is no integer |
| Facts.MacRange | napalm_fastiron/FastIron.py:1505-1510 | any range `a-b` of non-negative numbers expands to the numbers a to b |
| Facts.MacTurboIronRange | napalm_fastiron/FastIron.py:1505-1508 | `12-13` gives the ports `12` and `13` |
| Facts.MacInterfaces | napalm_fastiron/FastIron.py:1505-1516 | the interfaces of an entry are its ports in order, each standardized, failing exactly when one of them fails |
| Environment.IsGreaterInclusive | napalm_fastiron/FastIron.py:416-420 | the comparison is `>=` on the parsed numbers: equal readings compare true, and of two readings one is always at least the other |
| Environment.IsGreater | napalm_fastiron/FastIron.py:416-420 | ValueError exactly when either argument is no decimal number |
| Environment.SensorReading | napalm_fastiron/FastIron.py:451-455 | the temperature as a number; critical exactly when it is at least the first shutdown threshold, alert exactly when at least the first warning threshold; IndexError when a threshold list is empty |
| Environment.SensorKeyInjective | napalm_fastiron/FastIron.py:455 | different sensors get different `sensor N` keys, so no reading overwrites another |
| Environment.SensorTable | napalm_fastiron/FastIron.py:451-456 | the keys are `sensor 1` to `sensor n`, the k-th holding the k-th reading |
| Environment.Temperature | napalm_fastiron/FastIron.py:445-458 | one entry per `(Sensor` anchor, keyed `sensor k+1`, holding its reading against the first thresholds; it fails exactly when a lookup or a reading fails |
| Environment.NoSensorsNoThresholds | napalm_fastiron/FastIron.py:451-458 | without sensors the table is empty and the thresholds are never read |
| Environment.FanLoopContents | napalm_fastiron/FastIron.py:492-496 | the recorded fans are exactly those whose status word is `ok,` or `failed`, named `fan` + unit, each true for `ok,`; a repeated name keeps its last status |
| Environment.Fan | napalm_fastiron/FastIron.py:483-498 | fails exactly when some `Fan` is followed by fewer than two tokens; `Fanless` anywhere gives the fanless report; otherwise the fan loop over the status and unit tokens |
| Environment.Memory | napalm_fastiron/FastIron.py:500-506 | total and used memory are the integers 2 and 5 tokens after the first `Dynamic`; it fails when they are missing or not integers |
| Environment.PercentLoads | napalm_fastiron/FastIron.py:462 | the token directly before each `percent` can always be read, and there is one exactly when `percent` occurs |
| Environment.CpuUsage | napalm_fastiron/FastIron.py:460-464 | as written: the load reported is a maximal token under string order, defined exactly when `percent` occurs |
| Environment.CpuUsagePercent | napalm_fastiron/FastIron.py:460-464 | as intended: the largest load as a number, one of the loads and at least every other one |
| Environment.MaxFloat | napalm_fastiron/FastIron.py:462 | `max` over the loads read as numbers: ValueError when there is no load or one is not a number, otherwise a value read from some load and no smaller than any |
| Environment.CpuLexicographic | napalm_fastiron/FastIron.py:462 | on `9 percent 10 percent` the code reports `9` while the highest load is 10 |
| IfName.Standardize | napalm_fastiron/FastIron.py:302-328 | the stripped, rewritten name; a bare number of digits, `/` and `|` is looked up in the port map, and KeyError exactly when it is missing there |
| IfName.StandardizeAll | napalm_fastiron/FastIron.py:302-328 | a list is standardized element by element, failing exactly when one element fails |
| IfName.CanonicalSpellings | napalm_fastiron/FastIron.py:307-320 | `lbN`, `Loopback N` and `loopbackN` become `LoopbackN`; `tnN` becomes `TunnelN`; `Ve N` and `veN` become `VeN`; `lgN` becomes `lagN` |
| IfName.RuleSpelling | napalm_fastiron/FastIron.py:307-320 | every rewrite rule's input form followed by a number ends as that rule's output form |
| IfName.EarlierRuleMisses | napalm_fastiron/FastIron.py:307-320 | no earlier rule matches a later rule's input form, so the rules cannot interfere |
| IfName.MgmtSpellings | napalm_fastiron/FastIron.py:321-323 | the four management aliases become `Ethernetmgmt1` |
| IfName.CanonicalNamesStay | napalm_fastiron/FastIron.py:306-323 | `LoopbackN`, `TunnelN`, `VeN`, `lagN` and `Ethernetmgmt1` are returned unchanged |
| IfName.ChainSettles | napalm_fastiron/FastIron.py:307-323 | the rewriting chain either leaves a name alone or produces one no rule changes again |
| IfName.StandardizeIdempotent | napalm_fastiron/FastIron.py:302-328 | when the port map's values are interface names (they contain `ethernet`, do not contain `mgmt`, and carry no surrounding white space), standardizing a standardized name changes nothing |
| IfName.PortNumberLookup | napalm_fastiron/FastIron.py:324-326 | a bare port number is looked up as it is: the mapped name, or KeyError |
| IfName.PortNumbersLookup | napalm_fastiron/FastIron.py:324-326 | a list of bare port numbers succeeds exactly when all are in the map, and maps each |
| Ranges.ExpandRange | napalm_fastiron/FastIron.py:653-656 | the counting loop yields max(0, b−a+1) names, the k-th being the prefix and a+k; nothing when b < a |
| Ranges.ExpandRangeNumbers | napalm_fastiron/FastIron.py:653-656 | each name is the prefix followed by the text `int()` reads back as a+k |
| Ranges.Bounds | napalm_fastiron/FastIron.py:645 | a section unpacks into start and end exactly when `" to "` splits it into two pieces; ValueError otherwise |
| Ranges.RangeBounds | napalm_fastiron/FastIron.py:644-645 | `x to y` with space-free bounds is a range section with bounds x and y |
| Ranges.SlotOf | napalm_fastiron/FastIron.py:648-649 | the slot is everything before the last `/` and the number is what follows it |
| Ranges.NumberPart | napalm_fastiron/FastIron.py:648-651 | `S/n` reads back as slot S and number n, both as start and as end |
| Ranges.StrippedSection | napalm_fastiron/FastIron.py:666-668 | a section without `to` is one standardized port |
| Ranges.SlashRangeSection | napalm_fastiron/FastIron.py:646-656 | `S/a to S/b` gives S/a ... S/b, ascending, all with the start's slot, each standardized |
| Ranges.SlashBounds | napalm_fastiron/FastIron.py:646-656 | only the start's slot counts: any end whose last component is b gives the range on the start's slot |
| Ranges.BareRangeSection | napalm_fastiron/FastIron.py:657-664 | `a to b` gives the numbers a ... b, each standardized |
| Ranges.RangeLookup | napalm_fastiron/FastIron.py:657-664 | a bare range of non-negative numbers succeeds exactly when every number is in the port map, and maps each |
| Ranges.StrippedLag | napalm_fastiron/FastIron.py:681-682 | a lag section without `to` is the one name `lag` + section |
| Ranges.LagRangeSection | napalm_fastiron/FastIron.py:673-680 | `lag a to b` gives lag a ... lag b, each standardized |
| Ranges.LagRangeNames | napalm_fastiron/FastIron.py:677-680 | the standardized names of a lag range are `laga` ... `lagb` themselves |
| Ranges.LagName | napalm_fastiron/FastIron.py:682 | `lagN` standardizes to itself |
| Ranges.LagSplit | napalm_fastiron/FastIron.py:624-627 | without `lag` the whole text is the ethernet part; with it, the ethernet part and lag sections are the pieces of the split on `lag`, in order |
| Ranges.SplitWord | napalm_fastiron/FastIron.py:629-634 | the split keyword is never empty and is `ethernet` whenever that occurs |
| Ranges.RemoveFirst | napalm_fastiron/FastIron.py:638-639 | removing `""` drops exactly one empty section when there is one, namely the first: the result is the list with that one position cut out; with none, the list is unchanged |
| Ranges.InterfacesToList | napalm_fastiron/FastIron.py:619-684 | all ethernet names, section by section, then all lag names; it fails exactly when some section fails |
| Ranges.InterfaceListConversion | napalm_fastiron/FastIron.py:686-694 | `Ve` + ve first (when given), then the tagged ports, then the untagged ports |
| ConfigBlocks.RunEnd | napalm_fastiron/FastIron.py:542-544 | the copy loop stops at the first `!` or at the last position, having copied no `!` |
| ConfigBlocks.SpanAt | napalm_fastiron/FastIron.py:539-544 | a line produces a block exactly when the first occurrence of its text follows a `!` and copying does not stop at once; the block is that run |
| ConfigBlocks.BlockShape | napalm_fastiron/FastIron.py:533-550 | every block is a non-empty contiguous run of the input with no `!` line; it starts right after a `!` at the first occurrence of its first line and never covers the last position |
| ConfigBlocks.BlockStarts | napalm_fastiron/FastIron.py:538-548 | blocks begin only at block starts (after a `!`, not a `!`, first occurrence, not the last position), and every block start's run is among the blocks |
| ConfigBlocks.InterfaceBlock | napalm_fastiron/FastIron.py:533-550 | `! / interface eth1 / description x / ! / vlan 10` has the single block `interface eth1 / description x`; the trailing line is dropped |
| ConfigBlocks.OneBlock | napalm_fastiron/FastIron.py:538-548 | the same for any distinct lines `! h d ! v` |
| ConfigBlocks.RepeatedHeader | napalm_fastiron/FastIron.py:539 | a header seen twice yields its first block twice, since `list.index` finds its first occurrence |
| ConfigDiff.BlockDiff | napalm_fastiron/FastIron.py:558-562 | the header line, then `symbol line` for exactly the lines missing from the right block; nothing else |
| ConfigDiff.MatchBlocks | napalm_fastiron/FastIron.py:555-563 | IndexError exactly when a right block is empty; a match exactly when some right block has the header; nothing collected otherwise |
| ConfigDiff.SingleMatch | napalm_fastiron/FastIron.py:555-563 | with one right block under the header, the entry is that block's difference |
| ConfigDiff.CompareBlocksAsWritten | napalm_fastiron/FastIron.py:552-563 | as written: succeeds exactly when some right block has the header; otherwise `stat` is unbound |
| ConfigDiff.ComparingLoop | napalm_fastiron/FastIron.py:571-584 | as written: no more entries than left blocks, each longer than one line; each entry is either the `temp_list` carried in from before the loop or the intended entry of a left block the right side lacks verbatim, because a block found verbatim re-reads the previous `temp_list` instead of producing one of its own |
| ConfigDiff.ComparingLoopOutcome | napalm_fastiron/FastIron.py:552-584 | as written, for any blocks: the loop fails exactly when some changed block's header heads no right block, or the first block is found verbatim with no earlier `temp_list`; the error is UnboundLocalError for `temp_list` in the second case and for `stat` otherwise |
| ConfigDiff.ComparingListAsWritten | napalm_fastiron/FastIron.py:565-586 | as written: fails, with UnboundLocalError for `temp_list` or `stat`, exactly when the first block of the first configuration is in the second verbatim or a changed block's header heads no block of the second; otherwise every entry has more than one line and is the intended entry of a changed block, possibly repeated |
| ConfigDiff.SelfDiffAsWritten | napalm_fastiron/FastIron.py:571-577 | as written, comparing a configuration that has blocks with itself raises UnboundLocalError for `temp_list` |
| ConfigDiff.NewHeaderAsWritten | napalm_fastiron/FastIron.py:574-577 | as written, a changed first block whose header is not on the right raises UnboundLocalError for `stat` |
| ConfigDiff.RepeatedEntryAsWritten | napalm_fastiron/FastIron.py:574-584 | as written, a changed block followed by an unchanged one emits the changed block's entry twice |
| ConfigDiff.AsWrittenAgrees | napalm_fastiron/FastIron.py:571-586 | when every left block is changed and its header is on the right, the code as written and the corrected comparison agree |
| ConfigDiff.MarkAll | napalm_fastiron/FastIron.py:579-581 | every line of the block, marked with the symbol |
| ConfigDiff.IntendedEntry | napalm_fastiron/FastIron.py:552-584 | as intended: no entry for a verbatim block; the whole block marked when its header is new; otherwise an entry starting with the header, and when exactly one right block has the header, the header followed by the marked left lines that block lacks |
| ConfigDiff.FirstIsHeader | napalm_fastiron/FastIron.py:558-560 | a matched block's entry starts with its header |
| ConfigDiff.DiffEntries | napalm_fastiron/FastIron.py:583-584 | at most one entry per left block, each with more than one line, and the intended entry of every left block that is longer than one line is among them |
| ConfigDiff.DiffEntriesOne | napalm_fastiron/FastIron.py:571-584 | a single left block contributes its intended entry when that is longer than one line, and nothing otherwise |
| ConfigDiff.DiffEntriesAppend | napalm_fastiron/FastIron.py:571-586 | the entries of two runs of left blocks are the entries of each, in order |
| ConfigDiff.DiffEntriesOnce | napalm_fastiron/FastIron.py:571-586 | a left block between any two runs of blocks contributes its entry exactly once, at its own position |
| ConfigDiff.EntriesFromChangedBlocks | napalm_fastiron/FastIron.py:571-586 | every entry comes from a left block that is not on the right, and is that block's intended entry |
| ConfigDiff.UnchangedBlocksNoEntries | napalm_fastiron/FastIron.py:574 | when every left block occurs on the right there are no entries |
| ConfigDiff.ComparingList | napalm_fastiron/FastIron.py:565-586 | the corrected comparison of two configurations: every entry has more than one line, and every left block whose intended entry is longer than one line has that entry in the result |
| ConfigDiff.SelfDiff | napalm_fastiron/FastIron.py:565-586 | a configuration compared with itself has no entries |
| ConfigDiff.AwayEntry | napalm_fastiron/FastIron.py:593-599 | an entry is rendered with its header first and its own lines last |
| ConfigDiff.RelatedUnmentioned | napalm_fastiron/FastIron.py:594-597 | a header no `-` entry mentions brings no `-` lines |
| ConfigDiff.RelatedSingle | napalm_fastiron/FastIron.py:594-597 | a header mentioned by exactly one `-` entry brings that entry's lines, without its header |
| ConfigDiff.AwayPairsEntries | napalm_fastiron/FastIron.py:592-599 | a block changed on both sides renders as header, `-` lines, `+` lines |
| ConfigDiff.AwayAloneEntry | napalm_fastiron/FastIron.py:592-599 | a `+` entry no `-` entry mentions renders as itself |
| ConfigDiff.AwayLines | napalm_fastiron/FastIron.py:588-601 | with no `-` entries, the `+` entries are rendered as they are, one after another |
| ConfigDiff.ViceLines | napalm_fastiron/FastIron.py:603-617 | with no `+` entries, every `-` entry is rendered; when every `-` header is mentioned by a `+` entry, nothing is |
| ConfigDiff.ViceKeepsUnmentioned | napalm_fastiron/FastIron.py:607-615 | a `-` entry whose header no `+` entry mentions is rendered in full, in place |
| ConfigDiff.UnlinesAppend | napalm_fastiron/FastIron.py:800-803 | the two renderings written one after the other are the lines of both |
| CandidateConfig.LoadReplace | napalm_fastiron/FastIron.py:712-729 | no configuration leaves the state alone; otherwise its lines become the replace candidate and the replace flag is raised; the merge side is untouched; a raised flag always has its lines |
| CandidateConfig.LoadMerge | napalm_fastiron/FastIron.py:752-769 | the same on the merge side; the replace flag is not lowered |
| CandidateConfig.Discard | napalm_fastiron/FastIron.py:838-845 | both flags lowered and both candidates dropped |
| CandidateConfig.Stored | napalm_fastiron/FastIron.py:790-795 | the replace candidate when its flag is raised, else the merge candidate |
| CandidateConfig.RenderEntries | napalm_fastiron/FastIron.py:800-803 | the rendered difference is the lines of the away part and then the vice part, each followed by a newline |
| CandidateConfig.CompareConfig | napalm_fastiron/FastIron.py:776-803 | as written: `-1` exactly when neither flag is raised; UnboundLocalError (`temp_list` or `stat`) exactly when one of the two comparisons fails as written; otherwise the rendering of the two as-written diffs against the preferred candidate |
| CandidateConfig.CompareUnchangedAsWritten | napalm_fastiron/FastIron.py:797-798 | as written, comparing a running configuration that has a block with itself raises UnboundLocalError for `temp_list` |
| CandidateConfig.RenderIntended | napalm_fastiron/FastIron.py:797-803 | as intended: the text is the intended difference's lines, each followed by a newline |
| CandidateConfig.CompareConfigIntended | napalm_fastiron/FastIron.py:776-803 | as intended: `-1` exactly when neither flag is raised, otherwise the intended difference against the preferred candidate |
| CandidateConfig.CompareAgrees | napalm_fastiron/FastIron.py:776-803 | when every block is changed and its header heads a block on the other side, `compare_config` as written gives the intended difference |
| CandidateConfig.NoChangeNoDiff | napalm_fastiron/FastIron.py:797-803 | as intended, a candidate equal to the running configuration renders as the empty text |
| CandidateConfig.TranslateLine | napalm_fastiron/FastIron.py:819-825 | `-x` becomes `x`, `+x` becomes `nox`, any other line is sent verbatim; IndexError exactly on an empty line |
| CandidateConfig.TranslateMarked | napalm_fastiron/FastIron.py:821-824 | `+ cmd` becomes `no cmd`, and `- cmd` becomes ` cmd` |
| CandidateConfig.Commit | napalm_fastiron/FastIron.py:805-836 | as written: `-1` exactly when neither flag is raised; with the replace flag, the exception of `compare_config` when it raises, else the translations of its lines; with only the merge flag, the merge candidate as it is |
| CandidateConfig.CommitIntended | napalm_fastiron/FastIron.py:805-836 | as intended: the same, on the intended comparison, which never raises |
| CandidateConfig.CommitUnchangedAsWritten | napalm_fastiron/FastIron.py:813-817 | as written, replacing with the running configuration itself raises UnboundLocalError for `temp_list` when it has a block, and nothing is sent |
| CandidateConfig.LinesOfUnlines | napalm_fastiron/FastIron.py:817 | rendered text of non-empty, newline-free lines is cut back into exactly those lines |
| CandidateConfig.CommitTranslatesEachLine | napalm_fastiron/FastIron.py:816-825 | when `compare_config` renders non-empty, newline-free lines, committing sends one command per line, each that line's translation, in order |
| CandidateConfig.CommitIntendedTranslatesEachLine | napalm_fastiron/FastIron.py:816-825 | the same for the intended difference's lines |
| CandidateConfig.ReplaceThenMerge | napalm_fastiron/FastIron.py:790-793 | after loading replace and then merge, both flags are raised and comparing uses the replace candidate |
| CandidateConfig.DiscardThenCommit | napalm_fastiron/FastIron.py:809-811 | after discarding, compare and commit both return `-1` |
| CandidateConfig.CommitUnchanged | napalm_fastiron/FastIron.py:813-828 | as intended, replacing with the running configuration itself sends no command |
| Vlans.SetNative | napalm_fastiron/FastIron.py:1085-1089 | a port with tagged VLANs and an access VLAN moves the access VLAN to native; no port keeps both; the tagged VLANs and every other port stay as they were |
| Vlans.SetNativeIdempotent | napalm_fastiron/FastIron.py:1085-1089 | correcting a second time changes nothing |
| Vlans.SetNativeKeepsVlans | napalm_fastiron/FastIron.py:1085-1089 | no VLAN is lost: the access and native VLANs together hold the original access VLAN |
| Vlans.SetNativeAll | napalm_fastiron/FastIron.py:1086-1089 | every port is corrected on its own: none added or removed, each port's value is its `SetNative` correction (access moved to native on a port with tagged VLANs, any other port unchanged), so no port keeps tagged VLANs with an access VLAN |

## Left out

- SSH sessions, netmiko, sending commands and reading files are not modelled. Each command's output is a parameter, and the commands a commit would send are returned.
- The port map that `_get_interface_map` builds with a TextFSM template (lines 279-300) is a parameter. The other TextFSM getters are left out, except the native-VLAN step of `get_vlans` and the range and privilege handling of `get_mac_address_table` and `get_users`.
- The `"pytest" in sys.modules` cache re-reads are left out.
- Only the `config=` path of `load_replace_candidate` and `load_merge_candidate` is modelled. The `filename=` path reads a file, and `rollback` is left out for the same reason.
- `__environment_power` (lines 466-481) divides floating-point readings by 1000 and is left out. So are `get_ntp_stats`, the netmask conversion, and the `find`-offset slicing in `__output_parser`, `get_arp_table` and the LLDP getters.
- `__facts_interface_list`, `__port_time` and `__physical_interface_list` (lines 264-358) are not part of this model. They feed the TextFSM getters.
- `float()` is modelled for decimal numbers with an optional sign, fraction and surrounding whitespace. Exponents, `inf`, `nan`, `_` digit separators and non-ASCII digits are not modelled; a reading in any of those forms is a ValueError here.
- Readings are exact reals, not binary floating-point values. A comparison of two readings that rounding would decide differently is not modelled.
- `int()` and the `\d` of the interface rules accept ASCII digits only. Python also accepts other Unicode decimal digits.
- The dictionaries the extractors return are records and maps here. The `{"fan": {None}}` report is the `Fanless` constructor.
- The VLAN assignment loop of `get_vlans` (lines 1072-1083) depends on TextFSM records and is left out. Only the native-VLAN correction after it is modelled.
- Of a MAC table entry only the port handling is modelled. The address, VLAN and status fields of the entry are left out.
- ConfigDiff.AwayLines: requires every `+` entry to be non-empty. The IndexError Python would raise on an empty entry is not modelled, because every entry the comparison emits has at least two lines.
- ConfigDiff.ViceLines: requires every `-` entry to be non-empty, for the same reason.
- CandidateConfig.CompareConfig: requires that a raised flag comes with its loaded lines. Every sequence of load and discard steps keeps this, as LoadReplace, LoadMerge and Discard state.
- CandidateConfig.Commit: the same requirement as CompareConfig.
- CandidateConfig.CompareConfigIntended, CandidateConfig.CommitIntended, CandidateConfig.RenderIntended, CandidateConfig.NoChangeNoDiff, CandidateConfig.CommitUnchanged and CandidateConfig.CommitIntendedTranslatesEachLine describe the corrected comparison, not the program: as written, `compare_config` and `commit_config` raise UnboundLocalError wherever `CompareConfig` does.

## Findings

| source | as written | input that shows it | evidently intended | confidence | as-written member | corrected member |
|---|---|---|---|---|---|---|
| napalm_fastiron/FastIron.py:460-464 | `max` over the load tokens compares them as strings | loads `9` and `10` (`9 percent 10 percent`): the code reports `9` | the highest load as a number, 10 | not executed | Environment.CpuLexicographic | Environment.CpuUsagePercent |
| napalm_fastiron/FastIron.py:571-584 | a left block found verbatim on the right does not assign `temp_list`: on the first iteration reading it raises UnboundLocalError, later the previous entry is appended again | the configuration `! / interface eth1 / description x / ! / vlan 10` compared with itself | a verbatim block contributes no entry, and a configuration compared with itself has no difference | not executed | ConfigDiff.SelfDiffAsWritten | ConfigDiff.SelfDiff |
| napalm_fastiron/FastIron.py:552-563 | `stat` is assigned only when a right block has the header, so returning it raises UnboundLocalError for a block whose header is new | a first block `interface eth2 / description y` compared with a configuration without `interface eth2` | the whole new block marked with the symbol, as the dead `is_found == 0` branch at line 579 does | not executed | ConfigDiff.NewHeaderAsWritten | ConfigDiff.IntendedEntry |
| napalm_fastiron/FastIron.py:797-817 | `compare_config` calls `__comparing_list` as written, so it and `commit_config` raise UnboundLocalError for `temp_list` whenever the running configuration has a block and is compared with itself | replacing the configuration `! / interface eth1 / description x / ! / vlan 10` with itself | no difference and no command sent | not executed | CandidateConfig.CommitUnchangedAsWritten | CandidateConfig.CommitUnchanged |
| napalm_fastiron/FastIron.py:574-584 | after a changed block, a verbatim block appends the changed block's entry a second time | a changed block followed by an unchanged one | each changed block contributes its entry once | not executed | ConfigDiff.RepeatedEntryAsWritten | ConfigDiff.DiffEntriesOnce |

The unreachable `is_found == 0` branch at lines 579-581 shows the intent: a block whose header is new is marked line by line. The code instead raises at line 563. The as-written members follow the code: `CandidateConfig.CompareConfig` and `CandidateConfig.Commit` use `__comparing_list` as written and raise where the program does. The corrected comparison, `ConfigDiff.ComparingList`, follows the intended behaviour, and the `Intended` members of `CandidateConfig` are built on it.

=== FILE: candidate.dfy ===
/** The candidate configuration of the driver and what happens to it:
    `load_replace_candidate`, `load_merge_candidate`, `discard_config`,
    `compare_config` and `commit_config` (napalm_fastiron/FastIron.py),
    with the device's running configuration passed in as its list of lines
    and the commands sent to the device returned instead of sent.

    `compare_config` and `commit_config` are modelled as written, on
    `__comparing_list` as written, and as intended, on the corrected
    comparison `ComparingList`. */
module CandidateConfig {
  import opened Outcomes
  import opened Segment
  import opened ConfigBlocks
  import opened ConfigDiff

  /** The four candidate attributes of the driver: the replace and merge
      flags and the lines loaded for each. */
  datatype Candidate = Candidate(
    replaceFlag: bool,
    mergeFlag: bool,
    configReplace: Option<seq<string>>,
    configMerge: Option<seq<string>>)

  /** A raised flag always comes with its loaded lines. */
  predicate Valid(c: Candidate)
  {
    (c.replaceFlag ==> c.configReplace.Some?) && (c.mergeFlag ==> c.configMerge.Some?)
  }

  /** The state after `__init__` and after `discard_config`: nothing loaded. */
  const Empty := Candidate(false, false, None, None)

  // ---------------------------------------------------------------------
  // Loading and discarding

  /** `load_replace_candidate(config=config)`: with no configuration nothing
      changes; otherwise its lines become the replace candidate and the
      replace flag is raised. The merge side is left as it was. */
  function LoadReplace(c: Candidate, config: Option<string>): (r: Candidate)
    ensures Valid(c) ==> Valid(r)
    ensures r.mergeFlag == c.mergeFlag && r.configMerge == c.configMerge
    ensures config.None? ==> r == c
    ensures config.Some? ==> r.replaceFlag && r.configReplace == Some(CreatesListOfNLines(config.value))
  {
    if config.None? then c
    else c.(replaceFlag := true, configReplace := Some(CreatesListOfNLines(config.value)))
  }

  /** `load_merge_candidate(config=config)`: the same on the merge side;
      the replace flag is NOT lowered, so both flags can be raised. */
  function LoadMerge(c: Candidate, config: Option<string>): (r: Candidate)
    ensures Valid(c) ==> Valid(r)
    ensures r.replaceFlag == c.replaceFlag && r.configReplace == c.configReplace
    ensures config.None? ==> r == c
    ensures config.Some? ==> r.mergeFlag && r.configMerge == Some(CreatesListOfNLines(config.value))
  {
    if config.None? then c
    else c.(mergeFlag := true, configMerge := Some(CreatesListOfNLines(config.value)))
  }

  /** `discard_config()`: both candidates dropped, both flags lowered. */
  function Discard(c: Candidate): (r: Candidate)
    ensures Valid(r) && !r.replaceFlag && !r.mergeFlag
    ensures r.configReplace.None? && r.configMerge.None?
  {
    Empty
  }

  // ---------------------------------------------------------------------
  // Comparing

  /** What `compare_config` returns: `-1` when nothing was loaded, else the
      rendered difference. */
  datatype CompareOutcome = NotLoaded | Diff(text: string)

  /** The candidate `compare_config` compares: the replace candidate when
      its flag is raised, else the merge candidate. */
  function Stored(c: Candidate): (s: seq<string>)
    requires Valid(c) && (c.replaceFlag || c.mergeFlag)
    ensures c.replaceFlag ==> s == c.configReplace.value
    ensures !c.replaceFlag ==> s == c.configMerge.value
  {
    if c.replaceFlag then c.configReplace.value else c.configMerge.value
  }

  /** The text `compare_config` renders from the two diffs:
      `__compare_away(diff_1, diff_2)` followed by
      `__compare_vice(diff_2, diff_1)`, which is the away lines and then
      the vice lines, each followed by a newline. */
  function RenderEntries(d1: seq<seq<string>>, d2: seq<seq<string>>): (s: string)
    requires AllNonEmpty(d1) && AllNonEmpty(d2)
    ensures s == Unlines(AwayLines(d1, d2) + ViceLines(d2, d1))
  {
    UnlinesAppend(AwayLines(d1, d2), ViceLines(d2, d1));
    CompareAway(d1, d2) + CompareVice(d2, d1)
  }

  /** Both comparisons `compare_config` makes get through as written. */
  predicate BothCompare(running: seq<string>, stored: seq<string>)
  {
    && ComparesCleanly(CreatesConfigBlock(running), CreatesConfigBlock(stored))
    && ComparesCleanly(CreatesConfigBlock(stored), CreatesConfigBlock(running))
  }

  /** `compare_config()` as written, against the running configuration
      `running`: `__comparing_list` as written raises UnboundLocalError on
      ordinary configurations, and so does this. */
  function CompareConfig(c: Candidate, running: seq<string>): (r: Result<CompareOutcome>)
    requires Valid(c)
    ensures r == Ok(NotLoaded) <==> !c.replaceFlag && !c.mergeFlag
    ensures (c.replaceFlag || c.mergeFlag) ==> (r.Ok? <==> BothCompare(running, Stored(c)))
    ensures r.Err? ==> r.error == UnboundLocal("temp_list") || r.error == UnboundLocal("stat")
    ensures (c.replaceFlag || c.mergeFlag) && r.Ok? ==>
      var d1 := ComparingListAsWritten(running, Stored(c), "+").value;
      var d2 := ComparingListAsWritten(Stored(c), running, "-").value;
      r.value == Diff(Unlines(AwayLines(d1, d2) + ViceLines(d2, d1)))
  {
    if !c.replaceFlag && !c.mergeFlag then Ok(NotLoaded)
    else
      var d1 :- ComparingListAsWritten(running, Stored(c), "+");
      var d2 :- ComparingListAsWritten(Stored(c), running, "-");
      Ok(Diff(RenderEntries(d1, d2)))
  }

  /** A candidate equal to a running configuration that has a block makes
      `compare_config` as written raise UnboundLocalError for
      `temp_list`. */
  lemma CompareUnchangedAsWritten(c: Candidate, running: seq<string>)
    requires Valid(c) && c.replaceFlag && c.configReplace == Some(running)
    requires CreatesConfigBlock(running) != []
    ensures CompareConfig(c, running) == Err(UnboundLocal("temp_list"))
  {
    SelfDiffAsWritten(running, "+");
  }

  /** The lines of the difference as `compare_config` evidently intends it
      (`ConfigDiff.ComparingList`): running lines the candidate lacks are
      marked `+`, candidate lines the running configuration lacks `-`. */
  function IntendedDiffLines(running: seq<string>, stored: seq<string>): seq<string>
  {
    var d1 := ComparingList(running, stored, "+");
    var d2 := ComparingList(stored, running, "-");
    AwayLines(d1, d2) + ViceLines(d2, d1)
  }

  /** The text of the intended difference. */
  function RenderIntended(running: seq<string>, stored: seq<string>): (s: string)
    ensures s == Unlines(IntendedDiffLines(running, stored))
  {
    RenderEntries(ComparingList(running, stored, "+"), ComparingList(stored, running, "-"))
  }

  /** `compare_config()` as intended: it never fails. */
  function CompareConfigIntended(c: Candidate, running: seq<string>): (r: CompareOutcome)
    requires Valid(c)
    ensures r.NotLoaded? <==> !c.replaceFlag && !c.mergeFlag
    ensures r.Diff? ==> r.text == Unlines(IntendedDiffLines(running, Stored(c)))
  {
    if !c.replaceFlag && !c.mergeFlag then NotLoaded
    else Diff(RenderIntended(running, Stored(c)))
  }

  /** Where `compare_config` as written gets through because every block is
      changed and its header matched on the other side, it gives the
      intended difference. */
  lemma CompareAgrees(c: Candidate, running: seq<string>)
    requires Valid(c) && (c.replaceFlag || c.mergeFlag)
    requires var b1, b2 := CreatesConfigBlock(running), CreatesConfigBlock(Stored(c));
      && (forall j :: 0 <= j < |b1| ==> b1[j] !in b2) && HeadersFound(b1, b2)
      && (forall j :: 0 <= j < |b2| ==> b2[j] !in b1) && HeadersFound(b2, b1)
    ensures CompareConfig(c, running) == Ok(CompareConfigIntended(c, running))
  {
    var stored := Stored(c);
    var b1, b2 := CreatesConfigBlock(running), CreatesConfigBlock(stored);
    BlockShape(running);
    BlockShape(stored);
    AsWrittenAgrees(b1, b2, "+", None);
    AsWrittenAgrees(b2, b1, "-", None);
  }

  /** A candidate equal to the running configuration shows no intended
      difference. */
  lemma NoChangeNoDiff(running: seq<string>)
    ensures RenderIntended(running, running) == ""
  {
    SelfDiff(running, "+");
    SelfDiff(running, "-");
  }

  // ---------------------------------------------------------------------
  // Committing

  /** One line of the rendered difference turned into a command: a leading
      `-` is dropped, a leading `+` becomes `no`, anything else is sent as
      it is. Reading the first character of an empty line raises
      IndexError. */
  function TranslateLine(line: string): (r: Result<string>)
    ensures r.Ok? <==> line != []
    ensures r.Ok? && line[0] != '-' && line[0] != '+' ==> r.value == line
    ensures forall rest :: line == "-" + rest ==> r == Ok(rest)
    ensures forall rest :: line == "+" + rest ==> r == Ok("no" + rest)
  {
    if line == [] then Err(IndexError)
    else if line[0] == '-' then Ok(line[1..])
    else if line[0] == '+' then Ok("no" + line[1..])
    else Ok(line)
  }

  /** A running line the candidate lacks, `+ cmd`, is undone with
      `no cmd`; a candidate line the running configuration lacks, `- cmd`,
      is sent as ` cmd`. */
  lemma TranslateMarked(cmd: string)
    ensures TranslateLine(Marked("+", cmd)) == Ok("no " + cmd)
    ensures TranslateLine(Marked("-", cmd)) == Ok(" " + cmd)
  {
    assert Marked("+", cmd) == "+" + (" " + cmd);
    assert Marked("-", cmd) == "-" + (" " + cmd);
    assert "no" + (" " + cmd) == "no " + cmd;
  }

  /** What `commit_config` returns: `-1` when nothing was loaded, else the
      commands it sends to the device. */
  datatype CommitOutcome = Refused | Sent(commands: seq<string>)

  /** The commands for a rendered difference: it is cut into lines and each
      is translated. */
  function Translate(text: string): Result<seq<string>>
  {
    MapResult(TranslateLine, CreatesListOfNLines(text))
  }

  /** `commit_config()` as written: with the replace flag raised, the
      difference `compare_config` renders is cut into lines and each is
      translated, and an exception of `compare_config` propagates; with only
      the merge flag raised, the merge candidate is sent as it is. */
  function Commit(c: Candidate, running: seq<string>): (r: Result<CommitOutcome>)
    requires Valid(c)
    ensures r == Ok(Refused) <==> !c.replaceFlag && !c.mergeFlag
    ensures !c.replaceFlag && c.mergeFlag ==> r == Ok(Sent(c.configMerge.value))
    ensures c.replaceFlag && CompareConfig(c, running).Err? ==> r == Err(CompareConfig(c, running).error)
    ensures c.replaceFlag && CompareConfig(c, running).Ok? ==>
      var t := Translate(CompareConfig(c, running).value.text);
      && (r.Ok? <==> t.Ok?)
      && (r.Ok? ==> r.value == Sent(t.value))
  {
    if !c.replaceFlag && !c.mergeFlag then Ok(Refused)
    else if c.replaceFlag then
      var cmp :- CompareConfig(c, running);
      var cmds :- Translate(cmp.text);
      Ok(Sent(cmds))
    else Ok(Sent(c.configMerge.value))
  }

  /** `commit_config()` as intended, on the intended comparison. */
  function CommitIntended(c: Candidate, running: seq<string>): (r: Result<CommitOutcome>)
    requires Valid(c)
    ensures r == Ok(Refused) <==> !c.replaceFlag && !c.mergeFlag
    ensures !c.replaceFlag && c.mergeFlag ==> r == Ok(Sent(c.configMerge.value))
    ensures c.replaceFlag ==> var t := Translate(CompareConfigIntended(c, running).text);
      && (r.Ok? <==> t.Ok?)
      && (r.Ok? ==> r.value == Sent(t.value))
  {
    if !c.replaceFlag && !c.mergeFlag then Ok(Refused)
    else if c.replaceFlag then
      var cmds :- Translate(CompareConfigIntended(c, running).text);
      Ok(Sent(cmds))
    else Ok(Sent(c.configMerge.value))
  }

  /** Committing a replace candidate equal to a running configuration that
      has a block raises, as `compare_config` does, and sends nothing. */
  lemma CommitUnchangedAsWritten(c: Candidate, running: seq<string>)
    requires Valid(c) && c.replaceFlag && c.configReplace == Some(running)
    requires CreatesConfigBlock(running) != []
    ensures Commit(c, running) == Err(UnboundLocal("temp_list"))
  {
    CompareUnchangedAsWritten(c, running);
  }

  /** Cutting rendered lines back apart: a text of non-empty, newline-free
      lines, each followed by a newline, splits into exactly those lines. */
  lemma {:induction false} LinesOfUnlines(lines: seq<string>)
    requires forall k :: 0 <= k < |lines| ==> lines[k] != [] && '\n' !in lines[k]
    ensures CreatesListOfNLines(Unlines(lines)) == lines
    decreases |lines|
  {
    if lines != [] {
      LinesOfUnlines(lines[1..]);
      LineThenRest(lines[0], Unlines(lines[1..]), []);
      assert [] + lines[0] == lines[0];
      assert Unlines(lines) == lines[0] + "\n" + Unlines(lines[1..]);
      assert [lines[0]] + lines[1..] == lines;
    } else {
      assert Unlines(lines) == [];
    }
  }

  /** The splitter, holding `buf`, reads a newline-free `x` then a newline:
      it emits `buf + x` and carries on with an empty buffer. */
  lemma {:induction false} LineThenRest(x: string, rest: string, buf: string)
    requires '\n' !in x && buf + x != []
    ensures LinesLoop(x + "\n" + rest, buf) == [buf + x] + LinesLoop(rest, [])
    decreases |x|
  {
    if x == [] {
      assert x + "\n" + rest == "\n" + rest;
      assert buf + x == buf;
      assert ("\n" + rest)[1..] == rest;
    } else {
      var s := x + "\n" + rest;
      assert s[0] == x[0] && |s| >= 2;
      assert s[1..] == x[1..] + "\n" + rest;
      LineThenRest(x[1..], rest, buf + [x[0]]);
      assert buf + [x[0]] + x[1..] == buf + x;
    }
  }

  /** Commit sends one command per line of the difference: when
      `compare_config` renders non-empty, newline-free lines `ls`, the
      commands are exactly the translations of those lines, in order. */
  lemma CommitTranslatesEachLine(c: Candidate, running: seq<string>, ls: seq<string>)
    requires Valid(c) && c.replaceFlag
    requires CompareConfig(c, running) == Ok(Diff(Unlines(ls)))
    requires forall k :: 0 <= k < |ls| ==> ls[k] != [] && '\n' !in ls[k]
    ensures && Commit(c, running).Ok?
            && Commit(c, running).value.Sent?
            && |Commit(c, running).value.commands| == |ls|
            && forall k :: 0 <= k < |ls| ==> Commit(c, running).value.commands[k] == TranslateLine(ls[k]).value
  {
    LinesOfUnlines(ls);
  }

  /** The same for the intended comparison, whose lines are
      `IntendedDiffLines`. */
  lemma CommitIntendedTranslatesEachLine(c: Candidate, running: seq<string>)
    requires Valid(c) && c.replaceFlag
    requires var ls := IntendedDiffLines(running, Stored(c));
      forall k :: 0 <= k < |ls| ==> ls[k] != [] && '\n' !in ls[k]
    ensures var ls := IntendedDiffLines(running, Stored(c));
      && CommitIntended(c, running).Ok?
      && CommitIntended(c, running).value.Sent?
      && |CommitIntended(c, running).value.commands| == |ls|
      && forall k :: 0 <= k < |ls| ==> CommitIntended(c, running).value.commands[k] == TranslateLine(ls[k]).value
  {
    LinesOfUnlines(IntendedDiffLines(running, Stored(c)));
  }

  // ---------------------------------------------------------------------
  // Sequences of operations

  /** Loading a merge candidate after a replace candidate leaves both flags
      raised, and comparing still uses the replace candidate. */
  lemma ReplaceThenMerge(c: Candidate, a: string, b: string, running: seq<string>)
    requires Valid(c)
    ensures var m := LoadMerge(LoadReplace(c, Some(a)), Some(b));
      && Valid(m) && m.replaceFlag && m.mergeFlag
      && Stored(m) == CreatesListOfNLines(a)
      && CompareConfig(m, running) == CompareConfig(LoadReplace(c, Some(a)), running)
  {
  }

  /** After discarding, there is nothing to compare and nothing to commit. */
  lemma DiscardThenCommit(c: Candidate, running: seq<string>)
    ensures CompareConfig(Discard(c), running) == Ok(NotLoaded)
    ensures Commit(Discard(c), running) == Ok(Refused)
  {
  }

  /** Committing, as intended, a replace candidate identical to the running
      configuration sends nothing. */
  lemma CommitUnchanged(c: Candidate, running: seq<string>)
    requires Valid(c) && c.replaceFlag && c.configReplace == Some(running)
    ensures CommitIntended(c, running) == Ok(Sent([]))
  {
    NoChangeNoDiff(running);
    assert CreatesListOfNLines("") == [];
  }
}

=== FILE: configblocks.dfy ===
/** Partitioning a configuration, given as its list of lines, into the
    blocks `__creates_config_block` finds: the runs of lines that follow a
    `!` separator (napalm_fastiron/FastIron.py). */
module ConfigBlocks {
  import opened Outcomes
  import opened PyStr

  /** Where the copy loop started at position `i` stops: at the first `!`
      from `i` on, or at the input's last position, whichever comes first.
      The line at the stopping position is never copied. */
  function RunEnd(lines: seq<string>, i: nat): (e: nat)
    requires i < |lines|
    ensures i <= e <= |lines| - 1
    ensures forall k :: i <= k < e ==> lines[k] != "!"
    ensures e == |lines| - 1 || lines[e] == "!"
    decreases |lines| - i
  {
    if lines[i] == "!" || i >= |lines| - 1 then i else RunEnd(lines, i + 1)
  }

  /** The block the loop builds on meeting the line at position `j`. The
      line is located with `list.index`, so the run starts at the FIRST
      occurrence of that line, and only when a `!` directly precedes it. */
  function BlockAt(lines: seq<string>, j: nat): seq<string>
    requires j < |lines|
  {
    var i := IndexOf(lines, lines[j]);
    if i != 0 && lines[i - 1] == "!" then lines[i..RunEnd(lines, i)] else []
  }

  /** The loop of `__creates_config_block` from position `j` on: every
      non-empty block, in the order the loop meets its line. */
  function BlocksFrom(lines: seq<string>, j: nat): seq<seq<string>>
    requires j <= |lines|
    decreases |lines| - j
  {
    if j == |lines| then []
    else
      var b := BlockAt(lines, j);
      (if b != [] then [b] else []) + BlocksFrom(lines, j + 1)
  }

  /** `__creates_config_block(lines)`. */
  function CreatesConfigBlock(lines: seq<string>): seq<seq<string>>
  {
    BlocksFrom(lines, 0)
  }

  // ---------------------------------------------------------------------
  // Shape of the blocks

  /** `[i, e)` is a run the partition can emit: it starts right after a
      `!` at the first occurrence of its header line, holds no `!`, is
      non-empty, ends at the next `!` or at the last position, and never
      covers the last position. */
  predicate IsBlockSpan(lines: seq<string>, i: int, e: int)
  {
    && 1 <= i < e <= |lines| - 1
    && lines[i - 1] == "!"
    && IndexOf(lines, lines[i]) == i
    && (forall k :: i <= k < e ==> lines[k] != "!")
    && (e == |lines| - 1 || lines[e] == "!")
  }

  /** The run the loop copies at position `j`, when it copies anything. */
  function SpanAt(lines: seq<string>, j: nat): (r: Option<(nat, nat)>)
    requires j < |lines|
    ensures r.Some? ==> IsBlockSpan(lines, r.value.0, r.value.1) && lines[r.value.0] == lines[j]
    ensures r.Some? <==> BlockAt(lines, j) != []
    ensures r.Some? ==> BlockAt(lines, j) == lines[r.value.0..r.value.1]
  {
    var i := IndexOf(lines, lines[j]);
    if i != 0 && lines[i - 1] == "!" && RunEnd(lines, i) > i then Some((i, RunEnd(lines, i))) else None
  }

  /** The runs the loop copies from position `j` on. */
  function SpansFrom(lines: seq<string>, j: nat): (r: seq<(nat, nat)>)
    requires j <= |lines|
    ensures forall k :: 0 <= k < |r| ==> IsBlockSpan(lines, r[k].0, r[k].1)
    decreases |lines| - j
  {
    if j == |lines| then []
    else (if SpanAt(lines, j).Some? then [SpanAt(lines, j).value] else []) + SpansFrom(lines, j + 1)
  }

  /** Each block is the slice of the input its run covers. */
  lemma {:induction false} BlocksAreSpans(lines: seq<string>, j: nat)
    requires j <= |lines|
    ensures var bs, sp := BlocksFrom(lines, j), SpansFrom(lines, j);
      |bs| == |sp| && forall k :: 0 <= k < |bs| ==> 0 <= sp[k].0 <= sp[k].1 <= |lines| && bs[k] == lines[sp[k].0..sp[k].1]
    decreases |lines| - j
  {
    if j < |lines| {
      BlocksAreSpans(lines, j + 1);
      SpanStep(lines, j, BlocksFrom(lines, j + 1), SpansFrom(lines, j + 1));
    }
  }

  /** One step of `BlocksAreSpans`: the block and run met at `j`, put in
      front of matching tails, still match. */
  lemma SpanStep(lines: seq<string>, j: nat, bs: seq<seq<string>>, sp: seq<(nat, nat)>)
    requires j < |lines|
    requires |bs| == |sp| && forall k :: 0 <= k < |bs| ==> 0 <= sp[k].0 <= sp[k].1 <= |lines| && bs[k] == lines[sp[k].0..sp[k].1]
    ensures var b, s := BlockAt(lines, j), SpanAt(lines, j);
      var bs', sp' := (if b != [] then [b] else []) + bs, (if s.Some? then [s.value] else []) + sp;
      |bs'| == |sp'| && forall k :: 0 <= k < |bs'| ==> 0 <= sp'[k].0 <= sp'[k].1 <= |lines| && bs'[k] == lines[sp'[k].0..sp'[k].1]
  {
    var b, s := BlockAt(lines, j), SpanAt(lines, j);
    if s.Some? {
      var bs', sp' := [b] + bs, [s.value] + sp;
      forall k | 0 <= k < |bs'| ensures 0 <= sp'[k].0 <= sp'[k].1 <= |lines| && bs'[k] == lines[sp'[k].0..sp'[k].1] {
        if k > 0 { assert bs'[k] == bs[k - 1] && sp'[k] == sp[k - 1]; }
      }
    }
  }

  /** Every block of `__creates_config_block` is a non-empty, contiguous
      run of the input that starts right after a `!` at the first
      occurrence of its first line, holds no `!` line, and stops before the
      next `!`; the input's last position belongs to no block. */
  lemma BlockShape(lines: seq<string>)
    ensures var bs, sp := CreatesConfigBlock(lines), SpansFrom(lines, 0);
      && |bs| == |sp|
      && forall k :: 0 <= k < |bs| ==>
           && IsBlockSpan(lines, sp[k].0, sp[k].1)
           && bs[k] == lines[sp[k].0..sp[k].1]
           && bs[k] != []
           && "!" !in bs[k]
  {
    var bs, sp := CreatesConfigBlock(lines), SpansFrom(lines, 0);
    BlocksAreSpans(lines, 0);
    forall k | 0 <= k < |bs| ensures "!" !in bs[k] {
      forall m | 0 <= m < |bs[k]| ensures bs[k][m] != "!" {
        assert bs[k][m] == lines[sp[k].0 + m];
      }
    }
  }

  /** A position starts a block exactly when its line follows a `!`, is no
      `!` itself, occurs there for the first time, and is not the last
      position. */
  predicate IsBlockStart(lines: seq<string>, i: int)
  {
    && 1 <= i < |lines| - 1
    && lines[i - 1] == "!"
    && lines[i] != "!"
    && IndexOf(lines, lines[i]) == i
  }

  /** The runs the loop meets from position `j` on include the run of every
      block start at or after `j`, and start only at block starts. */
  lemma {:induction false} SpansFromStarts(lines: seq<string>, j: nat)
    requires j <= |lines|
    ensures forall k :: 0 <= k < |SpansFrom(lines, j)| ==> IsBlockStart(lines, SpansFrom(lines, j)[k].0)
    ensures forall i :: j <= i < |lines| && IsBlockStart(lines, i) ==> (i, RunEnd(lines, i)) in SpansFrom(lines, j)
    decreases |lines| - j
  {
    if j < |lines| {
      SpansFromStarts(lines, j + 1);
      if IsBlockStart(lines, j) {
        assert SpanAt(lines, j) == Some((j, RunEnd(lines, j)));
      }
    }
  }

  /** The blocks, read against an independent description of where they
      start: a block begins at position `i` if and only if `i` is a block
      start, and the block found there runs to the next `!` or to the last
      position. */
  lemma BlockStarts(lines: seq<string>)
    ensures var bs, sp := CreatesConfigBlock(lines), SpansFrom(lines, 0);
      && (forall k :: 0 <= k < |sp| ==> IsBlockStart(lines, sp[k].0))
      && (forall i :: IsBlockStart(lines, i) ==> lines[i..RunEnd(lines, i)] in bs)
  {
    var bs, sp := CreatesConfigBlock(lines), SpansFrom(lines, 0);
    SpansFromStarts(lines, 0);
    BlocksAreSpans(lines, 0);
    forall i | IsBlockStart(lines, i) ensures lines[i..RunEnd(lines, i)] in bs {
      var k :| 0 <= k < |sp| && sp[k] == (i, RunEnd(lines, i));
      assert bs[k] == lines[i..RunEnd(lines, i)];
    }
  }

  // ---------------------------------------------------------------------
  // Small configurations

  /** `! h d ! v` with distinct lines: one block `h d`; the trailing `v`,
      at the last position, is dropped. */
  lemma OneBlock(h: string, d: string, v: string)
    requires h != "!" && d != "!" && v != "!"
    requires h != d && v != h && v != d
    ensures CreatesConfigBlock(["!", h, d, "!", v]) == [[h, d]]
  {
    var lines := ["!", h, d, "!", v];
    // The example evaluated by hand, since unfolding it whole is too costly
    // for the solver: where `list.index` finds each line, where each copy
    // run stops, the block met at each position, then the loop from the end.
    assert IndexOf(lines, "!") == 0;
    assert IndexOf(lines, h) == 1;
    assert IndexOf(lines, d) == 2;
    assert IndexOf(lines, v) == 4;
    assert RunEnd(lines, 3) == 3;
    assert RunEnd(lines, 2) == 3;
    assert RunEnd(lines, 1) == 3;
    assert RunEnd(lines, 4) == 4;
    assert BlockAt(lines, 0) == [] && BlockAt(lines, 2) == [];
    assert BlockAt(lines, 3) == [] && BlockAt(lines, 4) == [];
    assert BlockAt(lines, 1) == [h, d];
    assert BlocksFrom(lines, 5) == [];
    assert BlocksFrom(lines, 4) == [];
    assert BlocksFrom(lines, 3) == [];
    assert BlocksFrom(lines, 2) == [];
    assert BlocksFrom(lines, 1) == [[h, d]];
  }

  /** The configuration `! interface eth1 description x ! vlan 10` has the
      single block `interface eth1`, `description x`. */
  lemma InterfaceBlock()
    ensures CreatesConfigBlock(["!", "interface eth1", "description x", "!", "vlan 10"])
      == [["interface eth1", "description x"]]
  {
    OneBlock("interface eth1", "description x", "vlan 10");
  }

  /** A header line seen twice yields its first block twice: the second
      occurrence is located back at the first by `list.index`. */
  lemma RepeatedHeader(h: string, d: string)
    requires h != "!" && d != "!" && h != d
    ensures CreatesConfigBlock(["!", h, d, "!", h, "!"]) == [[h, d], [h, d]]
  {
    var lines := ["!", h, d, "!", h, "!"];
    // The example evaluated by hand, since unfolding it whole is too costly
    // for the solver: where `list.index` finds each line, where each copy
    // run stops, the block met at each position, then the loop from the end.
    assert IndexOf(lines, "!") == 0;
    assert IndexOf(lines, h) == 1;
    assert IndexOf(lines, d) == 2;
    assert RunEnd(lines, 3) == 3;
    assert RunEnd(lines, 2) == 3;
    assert RunEnd(lines, 1) == 3;
    assert BlockAt(lines, 0) == [] && BlockAt(lines, 2) == [];
    assert BlockAt(lines, 3) == [] && BlockAt(lines, 5) == [];
    assert BlockAt(lines, 1) == [h, d] && BlockAt(lines, 4) == [h, d];
    assert BlocksFrom(lines, 6) == [];
    assert BlocksFrom(lines, 5) == [];
    assert BlocksFrom(lines, 4) == [[h, d]];
    assert BlocksFrom(lines, 3) == [[h, d]];
    assert BlocksFrom(lines, 2) == [[h, d]];
    assert BlocksFrom(lines, 1) == [[h, d], [h, d]];
  }
}

=== FILE: configdiff.dfy ===
/** Comparing two configurations block by block and rendering the
    difference as text: `__compare_blocks`, `__comparing_list`,
    `__compare_away` and `__compare_vice` (napalm_fastiron/FastIron.py).

    `__comparing_list` as written fails on ordinary inputs (see the
    "as written" members below); `ComparingList` is the evidently intended
    comparison. */
module ConfigDiff {
  import opened Outcomes
  import opened ConfigBlocks

  /** A line marked with a diff symbol: `symbol + " " + line`. */
  function Marked(symbol: string, line: string): string
  {
    symbol + " " + line
  }

  predicate AllNonEmpty(blocks: seq<seq<string>>)
  {
    forall k :: 0 <= k < |blocks| ==> blocks[k] != []
  }

  /** Some block of `blocks` has `h` as its header (first line). */
  predicate HasHeader(blocks: seq<seq<string>>, h: string)
  {
    exists k :: 0 <= k < |blocks| && blocks[k] != [] && blocks[k][0] == h
  }

  // ---------------------------------------------------------------------
  // `__compare_blocks`

  /** What one right block with the same header contributes: walking the
      left block, the header line verbatim, and every other line the right
      block lacks, marked. */
  function BlockDiff(cb1: seq<string>, cb2: seq<string>, cmd: string, symbol: string): (r: seq<string>)
    ensures |r| <= |cb1|
    ensures forall x :: x in r ==> x == cmd || exists y :: y in cb1 && y != cmd && y !in cb2 && x == Marked(symbol, y)
    ensures forall y :: y in cb1 && y != cmd && y !in cb2 ==> Marked(symbol, y) in r
    ensures cmd in cb1 ==> cmd in r
    ensures cb1 != [] && cb1[0] == cmd ==> r != [] && r[0] == cmd
  {
    if cb1 == [] then []
    else
      var x := cb1[0];
      var rest := BlockDiff(cb1[1..], cb2, cmd, symbol);
      assert forall y :: y in cb1 ==> y == x || y in cb1[1..];
      (if x == cmd then [x] else if x !in cb2 then [Marked(symbol, x)] else []) + rest
  }

  /** The loop of `__compare_blocks` over the right blocks: the lines
      gathered from every right block whose header is `cmd`, and whether one
      was met. Reading the header of an empty right block raises
      IndexError. */
  function MatchBlocks(cb1: seq<string>, blocks2: seq<seq<string>>, cmd: string, symbol: string): (r: Result<(seq<string>, bool)>)
    ensures r.Ok? <==> AllNonEmpty(blocks2)
    ensures r.Err? ==> r.error == IndexError
    ensures r.Ok? ==> (r.value.1 <==> HasHeader(blocks2, cmd))
    ensures r.Ok? && !r.value.1 ==> r.value.0 == []
  {
    if blocks2 == [] then Ok(([], false))
    else
      var cb2 := blocks2[0];
      if cb2 == [] then Err(IndexError)
      else
        var (rest, found) :- MatchBlocks(cb1, blocks2[1..], cmd, symbol);
        assert forall k :: 1 <= k < |blocks2| ==> blocks2[1..][k - 1] == blocks2[k];
        if cb2[0] == cmd then Ok((BlockDiff(cb1, cb2, cmd, symbol) + rest, true))
        else Ok((rest, found))
  }

  /** With exactly one right block headed `cmd`, the comparison is that
      block's difference. */
  lemma {:induction false} SingleMatch(cb1: seq<string>, blocks2: seq<seq<string>>, cmd: string, symbol: string, m: nat)
    requires AllNonEmpty(blocks2) && m < |blocks2| && blocks2[m][0] == cmd
    requires forall k :: 0 <= k < |blocks2| && k != m ==> blocks2[k][0] != cmd
    ensures MatchBlocks(cb1, blocks2, cmd, symbol) == Ok((BlockDiff(cb1, blocks2[m], cmd, symbol), true))
    decreases |blocks2|
  {
    var tail := blocks2[1..];
    assert forall k :: 0 <= k < |tail| ==> tail[k] == blocks2[k + 1];
    if m == 0 {
      assert !HasHeader(tail, cmd) by {
        forall k | 0 <= k < |tail| ensures tail[k][0] != cmd {
          assert tail[k] == blocks2[k + 1];
        }
      }
      assert MatchBlocks(cb1, tail, cmd, symbol) == Ok(([], false));
      var d := BlockDiff(cb1, blocks2[0], cmd, symbol);
      assert d + [] == d;
    } else {
      SingleMatch(cb1, tail, cmd, symbol, m - 1);
    }
  }

  /** `__compare_blocks(cb_1, config_blocks_2, cmd, symbol)` as written:
      `stat` is only ever assigned `True`, inside the loop, so when no right
      block is headed `cmd` returning it raises UnboundLocalError. */
  function CompareBlocksAsWritten(cb1: seq<string>, blocks2: seq<seq<string>>, cmd: string, symbol: string): (r: Result<(seq<string>, bool)>)
    ensures r.Ok? <==> AllNonEmpty(blocks2) && HasHeader(blocks2, cmd)
    ensures r.Ok? ==> r.value.1 && r.value == MatchBlocks(cb1, blocks2, cmd, symbol).value
    ensures r.Err? && AllNonEmpty(blocks2) ==> r.error == UnboundLocal("stat")
  {
    var (t, found) :- MatchBlocks(cb1, blocks2, cmd, symbol);
    if found then Ok((t, true)) else Err(UnboundLocal("stat"))
  }

  // ---------------------------------------------------------------------
  // `__comparing_list` as written

  /** The loop of `__comparing_list` as written, with `temp_list` as the
      previous iteration left it (`None` before the first). A left block
      found verbatim on the right does not assign `temp_list`, so the
      previous block's entry is examined again, and on the first iteration
      reading it raises UnboundLocalError. */
  function ComparingLoop(blocks1: seq<seq<string>>, blocks2: seq<seq<string>>, symbol: string, temp: Option<seq<string>>): (r: Result<seq<seq<string>>>)
    ensures r.Ok? ==> |r.value| <= |blocks1|
    ensures r.Ok? ==> forall k :: 0 <= k < |r.value| ==> |r.value[k]| > 1
    ensures r.Ok? && AllNonEmpty(blocks2) ==> forall k :: 0 <= k < |r.value| ==>
      (temp.Some? && r.value[k] == temp.value) || FromChangedBlock(r.value[k], blocks1, blocks2, symbol)
    decreases |blocks1|
  {
    if blocks1 == [] then Ok([])
    else
      var cb1 := blocks1[0];
      var t :- if cb1 in blocks2 then
                 (if temp.Some? then Ok(temp.value) else Err(UnboundLocal("temp_list")))
               else if cb1 == [] then Err(IndexError)
               else
                 var (tl, _) :- CompareBlocksAsWritten(cb1, blocks2, cb1[0], symbol);
                 Ok(tl);
      var rest :- ComparingLoop(blocks1[1..], blocks2, symbol, Some(t));
      var r := (if |t| > 1 then [t] else []) + rest;
      LoopEntriesStep(blocks1, blocks2, symbol, temp, t, rest, r);
      Ok(r)
  }

  /** `e` is the intended entry of some left block the right side lacks
      verbatim. */
  predicate FromChangedBlock(e: seq<string>, blocks1: seq<seq<string>>, blocks2: seq<seq<string>>, symbol: string)
  {
    AllNonEmpty(blocks2) &&
    exists j :: 0 <= j < |blocks1| && blocks1[j] != [] && blocks1[j] !in blocks2 && e == IntendedEntry(blocks1[j], blocks2, symbol)
  }

  /** One step of the loop as written: the entry `t` of the first block is
      the re-read `temp_list` or the first block's intended entry, and
      every entry after it is `t` again or comes from a later changed
      block. */
  lemma LoopEntriesStep(blocks1: seq<seq<string>>, blocks2: seq<seq<string>>, symbol: string, temp: Option<seq<string>>,
                        t: seq<string>, rest: seq<seq<string>>, r: seq<seq<string>>)
    requires blocks1 != []
    requires AllNonEmpty(blocks2) ==>
      (temp.Some? && t == temp.value) || (blocks1[0] != [] && blocks1[0] !in blocks2 && t == IntendedEntry(blocks1[0], blocks2, symbol))
    requires AllNonEmpty(blocks2) ==> forall k :: 0 <= k < |rest| ==> rest[k] == t || FromChangedBlock(rest[k], blocks1[1..], blocks2, symbol)
    requires r == (if |t| > 1 then [t] else []) + rest
    ensures AllNonEmpty(blocks2) ==> forall k :: 0 <= k < |r| ==>
      (temp.Some? && r[k] == temp.value) || FromChangedBlock(r[k], blocks1, blocks2, symbol)
  {
    if AllNonEmpty(blocks2) {
      var tail := blocks1[1..];
      var n := if |t| > 1 then 1 else 0;
      assert (temp.Some? && t == temp.value) || FromChangedBlock(t, blocks1, blocks2, symbol);
      forall k | 0 <= k < |r| ensures (temp.Some? && r[k] == temp.value) || FromChangedBlock(r[k], blocks1, blocks2, symbol) {
        if k >= n {
          assert r[k] == rest[k - n];
          if rest[k - n] != t {
            assert FromChangedBlock(rest[k - n], tail, blocks2, symbol);
            var j :| 0 <= j < |tail| && tail[j] != [] && tail[j] !in blocks2 && rest[k - n] == IntendedEntry(tail[j], blocks2, symbol);
            assert tail[j] == blocks1[j + 1];
          }
        }
      }
    }
  }

  /** Every changed left block (one the right side lacks verbatim) has
      its header heading some right block. */
  predicate HeadersFound(blocks1: seq<seq<string>>, blocks2: seq<seq<string>>)
  {
    forall j :: 0 <= j < |blocks1| && blocks1[j] != [] && blocks1[j] !in blocks2 ==> HasHeader(blocks2, blocks1[j][0])
  }

  /** When the loop as written gets through: every changed block's header
      heads some right block (else `stat` is read unassigned), and a first
      block found verbatim has a `temp_list` to re-read (else `temp_list`
      is read unassigned). The error names the variable read first. */
  predicate LoopSucceeds(blocks1: seq<seq<string>>, blocks2: seq<seq<string>>, temp: Option<seq<string>>)
  {
    HeadersFound(blocks1, blocks2) && (blocks1 != [] && blocks1[0] in blocks2 ==> temp.Some?)
  }

  /** The loop as written fails exactly when `LoopSucceeds` does not hold,
      raising UnboundLocalError for `temp_list` when the first block is
      verbatim with nothing before it, and for `stat` otherwise. */
  lemma {:induction false} ComparingLoopOutcome(blocks1: seq<seq<string>>, blocks2: seq<seq<string>>, symbol: string, temp: Option<seq<string>>)
    requires AllNonEmpty(blocks1) && AllNonEmpty(blocks2)
    ensures ComparingLoop(blocks1, blocks2, symbol, temp).Ok? <==> LoopSucceeds(blocks1, blocks2, temp)
    ensures ComparingLoop(blocks1, blocks2, symbol, temp).Err? && blocks1 != [] && blocks1[0] in blocks2 && temp.None? ==>
      ComparingLoop(blocks1, blocks2, symbol, temp).error == UnboundLocal("temp_list")
    ensures ComparingLoop(blocks1, blocks2, symbol, temp).Err? && !(blocks1 != [] && blocks1[0] in blocks2 && temp.None?) ==>
      ComparingLoop(blocks1, blocks2, symbol, temp).error == UnboundLocal("stat")
    decreases |blocks1|
  {
    if blocks1 != [] {
      var cb1, tail := blocks1[0], blocks1[1..];
      assert forall j :: 0 <= j < |tail| ==> tail[j] == blocks1[j + 1];
      if cb1 in blocks2 {
        if temp.Some? {
          ComparingLoopOutcome(tail, blocks2, symbol, Some(temp.value));
          LoopStep(blocks1, blocks2, temp, Some(temp.value));
        } else {
          assert !LoopSucceeds(blocks1, blocks2, temp);
        }
      } else if HasHeader(blocks2, cb1[0]) {
        var (tl, _) := CompareBlocksAsWritten(cb1, blocks2, cb1[0], symbol).value;
        ComparingLoopOutcome(tail, blocks2, symbol, Some(tl));
        LoopStep(blocks1, blocks2, temp, Some(tl));
      } else {
        assert !HeadersFound(blocks1, blocks2) by {
          assert blocks1[0] != [] && blocks1[0] !in blocks2;
        }
      }
    }
  }

  /** Once the first block gets through, the loop over the rest succeeds
      exactly when the whole loop does. */
  lemma LoopStep(blocks1: seq<seq<string>>, blocks2: seq<seq<string>>, temp: Option<seq<string>>, next: Option<seq<string>>)
    requires blocks1 != [] && next.Some?
    requires blocks1[0] in blocks2 ==> temp.Some?
    requires blocks1[0] != [] && blocks1[0] !in blocks2 ==> HasHeader(blocks2, blocks1[0][0])
    ensures LoopSucceeds(blocks1[1..], blocks2, next) <==> LoopSucceeds(blocks1, blocks2, temp)
  {
    var tail := blocks1[1..];
    assert forall j :: 0 <= j < |tail| ==> tail[j] == blocks1[j + 1];
    if HeadersFound(tail, blocks2) {
      forall j | 0 <= j < |blocks1| && blocks1[j] != [] && blocks1[j] !in blocks2 ensures HasHeader(blocks2, blocks1[j][0]) {
        if j > 0 { assert blocks1[j] == tail[j - 1]; }
      }
    }
  }

  /** Nothing left to re-read, and every changed block's header found. */
  predicate ComparesCleanly(blocks1: seq<seq<string>>, blocks2: seq<seq<string>>)
  {
    LoopSucceeds(blocks1, blocks2, None)
  }

  /** `__comparing_list(list_1, list_2, symbol)` as written: it fails
      exactly when a changed block has a header no right block has, or the
      first block is found verbatim; every entry has more than one line. */
  function ComparingListAsWritten(list1: seq<string>, list2: seq<string>, symbol: string): (r: Result<seq<seq<string>>>)
    ensures r.Ok? <==> ComparesCleanly(CreatesConfigBlock(list1), CreatesConfigBlock(list2))
    ensures r.Err? ==> r.error == UnboundLocal("temp_list") || r.error == UnboundLocal("stat")
    ensures r.Ok? ==> forall k :: 0 <= k < |r.value| ==> |r.value[k]| > 1
    ensures r.Ok? ==> forall k :: 0 <= k < |r.value| ==>
      FromChangedBlock(r.value[k], CreatesConfigBlock(list1), CreatesConfigBlock(list2), symbol)
  {
    var b1, b2 := CreatesConfigBlock(list1), CreatesConfigBlock(list2);
    BlockShape(list1);
    BlockShape(list2);
    ComparingLoopOutcome(b1, b2, symbol, None);
    ComparingLoop(b1, b2, symbol, None)
  }

  /** As written, comparing a configuration that has a block with itself
      raises UnboundLocalError: its first block is found verbatim, so
      `temp_list` is read before anything assigned it. */
  lemma SelfDiffAsWritten(lines: seq<string>, symbol: string)
    requires CreatesConfigBlock(lines) != []
    ensures ComparingListAsWritten(lines, lines, symbol) == Err(UnboundLocal("temp_list"))
  {
    var bs := CreatesConfigBlock(lines);
    assert bs[0] in bs;
  }

  /** As written, a changed first block whose header no right block has
      raises UnboundLocalError for `stat`. */
  lemma NewHeaderAsWritten(blocks1: seq<seq<string>>, blocks2: seq<seq<string>>, symbol: string)
    requires blocks1 != [] && blocks1[0] != [] && blocks1[0] !in blocks2
    requires AllNonEmpty(blocks2) && !HasHeader(blocks2, blocks1[0][0])
    ensures ComparingLoop(blocks1, blocks2, symbol, None) == Err(UnboundLocal("stat"))
  {
  }

  /** As written, a block found verbatim right after a changed block
      repeats the changed block's entry. */
  lemma RepeatedEntryAsWritten(a: seq<string>, b: seq<string>, blocks2: seq<seq<string>>, symbol: string)
    requires a != [] && a !in blocks2 && b in blocks2
    requires AllNonEmpty(blocks2) && HasHeader(blocks2, a[0])
    requires |MatchBlocks(a, blocks2, a[0], symbol).value.0| > 1
    ensures var t := MatchBlocks(a, blocks2, a[0], symbol).value.0;
      ComparingLoop([a, b], blocks2, symbol, None) == Ok([t, t])
  {
    var t := MatchBlocks(a, blocks2, a[0], symbol).value.0;
    assert CompareBlocksAsWritten(a, blocks2, a[0], symbol) == Ok((t, true));
    assert [a, b][1..] == [b];
    assert ComparingLoop([b], blocks2, symbol, Some(t)) == Ok([t]) by {
      assert [b][0] == b && [b][1..] == [];
      assert ComparingLoop([], blocks2, symbol, Some(t)) == Ok([]);
      assert [t] + [] == [t];
    }
    assert [t] + [t] == [t, t];
  }

  // ---------------------------------------------------------------------
  // `__comparing_list` as intended

  /** Every line of a block, marked. */
  function MarkAll(symbol: string, block: seq<string>): (r: seq<string>)
    ensures |r| == |block|
    ensures forall k :: 0 <= k < |r| ==> r[k] == Marked(symbol, block[k])
  {
    if block == [] then [] else [Marked(symbol, block[0])] + MarkAll(symbol, block[1..])
  }

  /** The entry of one left block as `__comparing_list` evidently intends
      it (`temp_list` fresh for every block, `stat` false until a right
      block with the same header is met): nothing for a block the right side
      has verbatim; the marked differences against the right blocks with the
      same header; otherwise every line marked, as the `is_found == 0`
      branch, unreachable as written, spells out. */
  function IntendedEntry(cb1: seq<string>, blocks2: seq<seq<string>>, symbol: string): (r: seq<string>)
    requires cb1 != [] && AllNonEmpty(blocks2)
    ensures cb1 in blocks2 ==> r == []
    ensures cb1 !in blocks2 && !HasHeader(blocks2, cb1[0]) ==> r == MarkAll(symbol, cb1)
    ensures cb1 !in blocks2 && HasHeader(blocks2, cb1[0]) ==> r != [] && r[0] == cb1[0]
    ensures cb1 !in blocks2 ==> forall m :: 0 <= m < |blocks2| && OnlyHeadedAt(blocks2, cb1[0], m) ==>
      r == BlockDiff(cb1, blocks2[m], cb1[0], symbol)
  {
    if cb1 in blocks2 then []
    else
      var (t, found) := MatchBlocks(cb1, blocks2, cb1[0], symbol).value;
      SingleMatches(cb1, blocks2, symbol);
      if found then
        FirstIsHeader(cb1, blocks2, symbol);
        t
      else MarkAll(symbol, cb1)
  }

  /** `blocks2[m]` is the one block headed `h`. */
  predicate OnlyHeadedAt(blocks2: seq<seq<string>>, h: string, m: int)
    requires AllNonEmpty(blocks2) && 0 <= m < |blocks2|
  {
    blocks2[m][0] == h && forall k :: 0 <= k < |blocks2| && k != m ==> blocks2[k][0] != h
  }

  /** `SingleMatch` for every position that is the only one with the
      header. */
  lemma SingleMatches(cb1: seq<string>, blocks2: seq<seq<string>>, symbol: string)
    requires cb1 != [] && AllNonEmpty(blocks2)
    ensures forall m :: 0 <= m < |blocks2| && OnlyHeadedAt(blocks2, cb1[0], m) ==>
      MatchBlocks(cb1, blocks2, cb1[0], symbol) == Ok((BlockDiff(cb1, blocks2[m], cb1[0], symbol), true))
  {
    forall m | 0 <= m < |blocks2| && OnlyHeadedAt(blocks2, cb1[0], m)
      ensures MatchBlocks(cb1, blocks2, cb1[0], symbol) == Ok((BlockDiff(cb1, blocks2[m], cb1[0], symbol), true))
    {
      SingleMatch(cb1, blocks2, cb1[0], symbol, m);
    }
  }

  /** With a right block headed by the left block's header, the gathered
      lines begin with that header. */
  lemma {:induction false} FirstIsHeader(cb1: seq<string>, blocks2: seq<seq<string>>, symbol: string)
    requires cb1 != [] && AllNonEmpty(blocks2) && HasHeader(blocks2, cb1[0])
    ensures var t := MatchBlocks(cb1, blocks2, cb1[0], symbol).value.0; t != [] && t[0] == cb1[0]
    decreases |blocks2|
  {
    var tail := blocks2[1..];
    assert forall k :: 0 <= k < |tail| ==> tail[k] == blocks2[k + 1];
    if blocks2[0][0] != cb1[0] {
      var k :| 0 <= k < |blocks2| && blocks2[k] != [] && blocks2[k][0] == cb1[0];
      assert tail[k - 1] == blocks2[k];
      FirstIsHeader(cb1, tail, symbol);
    }
  }

  /** The entries of the left blocks, keeping only those longer than one
      line. */
  function DiffEntries(blocks1: seq<seq<string>>, blocks2: seq<seq<string>>, symbol: string): (r: seq<seq<string>>)
    requires AllNonEmpty(blocks1) && AllNonEmpty(blocks2)
    ensures |r| <= |blocks1|
    ensures forall k :: 0 <= k < |r| ==> |r[k]| > 1
    ensures forall j :: 0 <= j < |blocks1| && |IntendedEntry(blocks1[j], blocks2, symbol)| > 1 ==>
      IntendedEntry(blocks1[j], blocks2, symbol) in r
    decreases |blocks1|
  {
    if blocks1 == [] then []
    else
      var t := IntendedEntry(blocks1[0], blocks2, symbol);
      var rest := DiffEntries(blocks1[1..], blocks2, symbol);
      assert forall j :: 1 <= j < |blocks1| ==> blocks1[j] == blocks1[1..][j - 1];
      (if |t| > 1 then [t] else []) + rest
  }

  /** The entries of a single block: its intended entry when that has more
      than one line, else none. */
  lemma DiffEntriesOne(cb: seq<string>, blocks2: seq<seq<string>>, symbol: string)
    requires cb != [] && AllNonEmpty(blocks2)
    ensures var t := IntendedEntry(cb, blocks2, symbol);
      DiffEntries([cb], blocks2, symbol) == if |t| > 1 then [t] else []
  {
    assert [cb][1..] == [];
  }

  /** One step of `DiffEntries`: the first block's entry, then the rest's. */
  lemma DiffEntriesCons(bs: seq<seq<string>>, blocks2: seq<seq<string>>, symbol: string)
    requires bs != [] && AllNonEmpty(bs) && AllNonEmpty(blocks2)
    ensures var t := IntendedEntry(bs[0], blocks2, symbol);
      DiffEntries(bs, blocks2, symbol) == (if |t| > 1 then [t] else []) + DiffEntries(bs[1..], blocks2, symbol)
  {
  }

  /** The blocks are compared one at a time: the entries of two runs of
      blocks are the entries of the first followed by those of the second. */
  lemma {:induction false} DiffEntriesAppend(a: seq<seq<string>>, b: seq<seq<string>>, blocks2: seq<seq<string>>, symbol: string)
    requires AllNonEmpty(a) && AllNonEmpty(b) && AllNonEmpty(blocks2)
    ensures AllNonEmpty(a + b)
    ensures DiffEntries(a + b, blocks2, symbol) == DiffEntries(a, blocks2, symbol) + DiffEntries(b, blocks2, symbol)
    decreases |a|
  {
    var ab := a + b;
    assert AllNonEmpty(ab);
    if a != [] {
      assert ab[0] == a[0];
      assert ab[1..] == a[1..] + b;
      assert AllNonEmpty(a[1..]);
      DiffEntriesAppend(a[1..], b, blocks2, symbol);
      DiffEntriesCons(ab, blocks2, symbol);
      DiffEntriesCons(a, blocks2, symbol);
      var t := IntendedEntry(a[0], blocks2, symbol);
      var h := if |t| > 1 then [t] else [];
      Reassoc(h, DiffEntries(a[1..], blocks2, symbol), DiffEntries(b, blocks2, symbol),
              DiffEntries(ab, blocks2, symbol), DiffEntries(a, blocks2, symbol), DiffEntries(a[1..] + b, blocks2, symbol));
    } else {
      assert ab == b;
    }
  }

  /** Each block contributes its own entry once, in its place: a block
      between two runs of blocks adds its intended entry, when that has more
      than one line, between their entries. */
  lemma DiffEntriesOnce(a: seq<seq<string>>, cb: seq<string>, b: seq<seq<string>>, blocks2: seq<seq<string>>, symbol: string)
    requires AllNonEmpty(a) && cb != [] && AllNonEmpty(b) && AllNonEmpty(blocks2)
    ensures AllNonEmpty(a + [cb] + b)
    ensures var t := IntendedEntry(cb, blocks2, symbol);
      DiffEntries(a + [cb] + b, blocks2, symbol)
        == DiffEntries(a, blocks2, symbol) + (if |t| > 1 then [t] else []) + DiffEntries(b, blocks2, symbol)
  {
    DiffEntriesAppend(a, [cb], blocks2, symbol);
    DiffEntriesAppend(a + [cb], b, blocks2, symbol);
    DiffEntriesOne(cb, blocks2, symbol);
  }

  /** `__comparing_list(list_1, list_2, symbol)` as intended. */
  function ComparingList(list1: seq<string>, list2: seq<string>, symbol: string): (r: seq<seq<string>>)
    ensures forall k :: 0 <= k < |r| ==> |r[k]| > 1
    ensures var b1, b2 := CreatesConfigBlock(list1), CreatesConfigBlock(list2);
      AllNonEmpty(b1) && AllNonEmpty(b2) && forall j :: 0 <= j < |b1| && |IntendedEntry(b1[j], b2, symbol)| > 1 ==> IntendedEntry(b1[j], b2, symbol) in r
  {
    BlockShape(list1);
    BlockShape(list2);
    DiffEntries(CreatesConfigBlock(list1), CreatesConfigBlock(list2), symbol)
  }

  /** Every entry comes from a left block the right side lacks verbatim. */
  lemma {:induction false} EntriesFromChangedBlocks(blocks1: seq<seq<string>>, blocks2: seq<seq<string>>, symbol: string)
    requires AllNonEmpty(blocks1) && AllNonEmpty(blocks2)
    ensures forall k :: 0 <= k < |DiffEntries(blocks1, blocks2, symbol)| ==>
      exists j :: 0 <= j < |blocks1| && blocks1[j] !in blocks2 &&
        DiffEntries(blocks1, blocks2, symbol)[k] == IntendedEntry(blocks1[j], blocks2, symbol)
    decreases |blocks1|
  {
    if blocks1 != [] {
      var tail := blocks1[1..];
      assert forall j :: 0 <= j < |tail| ==> tail[j] == blocks1[j + 1];
      EntriesFromChangedBlocks(tail, blocks2, symbol);
      var r := DiffEntries(blocks1, blocks2, symbol);
      var t := IntendedEntry(blocks1[0], blocks2, symbol);
      var rs := DiffEntries(tail, blocks2, symbol);
      var n := if |t| > 1 then 1 else 0;
      assert r == (if |t| > 1 then [t] else []) + rs;
      forall k | 0 <= k < |r|
        ensures exists j :: 0 <= j < |blocks1| && blocks1[j] !in blocks2 && r[k] == IntendedEntry(blocks1[j], blocks2, symbol)
      {
        if k < n {
          assert blocks1[0] !in blocks2 && r[k] == t;
          assert r[k] == IntendedEntry(blocks1[0], blocks2, symbol);
        } else {
          assert r[k] == rs[k - n];
          var j :| 0 <= j < |tail| && tail[j] !in blocks2 && rs[k - n] == IntendedEntry(tail[j], blocks2, symbol);
          assert blocks1[j + 1] == tail[j];
          assert blocks1[j + 1] !in blocks2 && r[k] == IntendedEntry(blocks1[j + 1], blocks2, symbol);
        }
      }
    } else {
      assert DiffEntries(blocks1, blocks2, symbol) == [];
    }
  }

  /** Blocks the right side has verbatim add nothing: when it has them all,
      there is no difference. */
  lemma {:induction false} UnchangedBlocksNoEntries(blocks1: seq<seq<string>>, blocks2: seq<seq<string>>, symbol: string)
    requires AllNonEmpty(blocks1) && AllNonEmpty(blocks2)
    requires forall j :: 0 <= j < |blocks1| ==> blocks1[j] in blocks2
    ensures DiffEntries(blocks1, blocks2, symbol) == []
    decreases |blocks1|
  {
    if blocks1 != [] {
      var tail := blocks1[1..];
      assert forall j :: 0 <= j < |tail| ==> tail[j] == blocks1[j + 1];
      UnchangedBlocksNoEntries(tail, blocks2, symbol);
    }
  }

  /** A configuration compared with itself has no difference. */
  lemma SelfDiff(lines: seq<string>, symbol: string)
    ensures ComparingList(lines, lines, symbol) == []
  {
    var bs := CreatesConfigBlock(lines);
    BlockShape(lines);
    assert forall j :: 0 <= j < |bs| ==> bs[j] in bs;
    UnchangedBlocksNoEntries(bs, bs, symbol);
  }

  /** Where the code as written does not fail, it agrees with the intended
      comparison: when no left block is on the right verbatim and every left
      header heads some right block, both give the same entries. */
  lemma {:induction false} AsWrittenAgrees(blocks1: seq<seq<string>>, blocks2: seq<seq<string>>, symbol: string, temp: Option<seq<string>>)
    requires AllNonEmpty(blocks1) && AllNonEmpty(blocks2)
    requires forall j :: 0 <= j < |blocks1| ==> blocks1[j] !in blocks2 && HasHeader(blocks2, blocks1[j][0])
    ensures ComparingLoop(blocks1, blocks2, symbol, temp) == Ok(DiffEntries(blocks1, blocks2, symbol))
    decreases |blocks1|
  {
    if blocks1 != [] {
      var tail := blocks1[1..];
      assert forall j :: 0 <= j < |tail| ==> tail[j] == blocks1[j + 1];
      var t := IntendedEntry(blocks1[0], blocks2, symbol);
      AsWrittenAgrees(tail, blocks2, symbol, Some(t));
    }
  }

  // ---------------------------------------------------------------------
  // Rendering: `__compare_away` and `__compare_vice`

  /** The lines one after another, each followed by a newline. */
  function Unlines(lines: seq<string>): (s: string)
    ensures |s| >= |lines|
  {
    if lines == [] then [] else lines[0] + "\n" + Unlines(lines[1..])
  }

  lemma {:induction false} UnlinesAppend(a: seq<string>, b: seq<string>)
    ensures Unlines(a + b) == Unlines(a) + Unlines(b)
    decreases |a|
  {
    if a != [] {
      assert (a + b)[1..] == a[1..] + b;
      UnlinesAppend(a[1..], b);
    } else {
      assert a + b == b;
    }
  }

  /** The lines every entry of `diff2` mentioning `header` adds after its
      own header line. */
  function Related(header: string, diff2: seq<seq<string>>): (r: seq<string>)
    ensures diff2 == [] ==> r == []
  {
    if diff2 == [] then []
    else
      var cb2 := diff2[0];
      (if header in cb2 then cb2[1..] else []) + Related(header, diff2[1..])
  }

  /** The lines `__compare_away` writes for one entry of the first diff:
      its header, the lines of every entry of the second diff that mentions
      the header, then the entry's own remaining lines. */
  function AwayEntry(cb1: seq<string>, diff2: seq<seq<string>>): (r: seq<string>)
    requires cb1 != []
    ensures |r| >= |cb1| && r[0] == cb1[0] && r[|r| - |cb1| + 1..] == cb1[1..]
  {
    [cb1[0]] + Related(cb1[0], diff2) + cb1[1..]
  }

  /** The lines of `__compare_away(diff_1, diff_2)`. */
  function AwayLines(diff1: seq<seq<string>>, diff2: seq<seq<string>>): (r: seq<string>)
    requires AllNonEmpty(diff1)
    ensures diff2 == [] ==> r == Concat(diff1)
  {
    if diff1 == [] then []
    else AwayEntry(diff1[0], diff2) + AwayLines(diff1[1..], diff2)
  }

  /** `__compare_away(diff_1, diff_2)`. */
  function CompareAway(diff1: seq<seq<string>>, diff2: seq<seq<string>>): string
    requires AllNonEmpty(diff1)
  {
    Unlines(AwayLines(diff1, diff2))
  }

  /** A header no entry of the second diff mentions brings no lines. */
  lemma {:induction false} RelatedUnmentioned(header: string, diff2: seq<seq<string>>)
    requires forall k :: 0 <= k < |diff2| ==> header !in diff2[k]
    ensures Related(header, diff2) == []
    decreases |diff2|
  {
    if diff2 != [] {
      assert forall k :: 0 <= k < |diff2| - 1 ==> diff2[1..][k] == diff2[k + 1];
      RelatedUnmentioned(header, diff2[1..]);
    }
  }

  /** A header exactly one entry of the second diff mentions brings that
      entry's lines after its own header. */
  lemma {:induction false} RelatedSingle(header: string, diff2: seq<seq<string>>, m: nat)
    requires m < |diff2| && header in diff2[m]
    requires forall k :: 0 <= k < |diff2| && k != m ==> header !in diff2[k]
    ensures Related(header, diff2) == diff2[m][1..]
    decreases m
  {
    var tail := diff2[1..];
    assert forall k :: 0 <= k < |tail| ==> tail[k] == diff2[k + 1];
    if m == 0 {
      RelatedUnmentioned(header, tail);
      assert diff2[m][1..] + [] == diff2[m][1..];
    } else {
      RelatedSingle(header, tail, m - 1);
      assert [] + tail[m - 1][1..] == diff2[m][1..];
    }
  }

  /** One block changed on both sides: the `+` entry `cb1` and the only `-`
      entry `diff2[m]` mentioning its header render as the header, the `-`
      lines, then the `+` lines. */
  lemma AwayPairsEntries(cb1: seq<string>, diff2: seq<seq<string>>, m: nat)
    requires cb1 != [] && m < |diff2| && cb1[0] in diff2[m]
    requires forall k :: 0 <= k < |diff2| && k != m ==> cb1[0] !in diff2[k]
    ensures AwayEntry(cb1, diff2) == [cb1[0]] + diff2[m][1..] + cb1[1..]
  {
    RelatedSingle(cb1[0], diff2, m);
  }

  /** A `+` entry whose header no `-` entry mentions renders as itself. */
  lemma AwayAloneEntry(cb1: seq<string>, diff2: seq<seq<string>>)
    requires cb1 != []
    requires forall k :: 0 <= k < |diff2| ==> cb1[0] !in diff2[k]
    ensures AwayEntry(cb1, diff2) == cb1
  {
    RelatedUnmentioned(cb1[0], diff2);
    assert [cb1[0]] + [] + cb1[1..] == cb1;
  }

  /** `__compare_vice(diff_2, diff_1)`: the entries of the second diff whose
      header no entry of the first diff mentions, line by line. */
  function ViceLines(diff2: seq<seq<string>>, diff1: seq<seq<string>>): (r: seq<string>)
    requires AllNonEmpty(diff2)
    ensures diff1 == [] ==> r == Concat(diff2)
    ensures (forall k :: 0 <= k < |diff2| ==> exists j :: 0 <= j < |diff1| && diff2[k][0] in diff1[j]) ==> r == []
  {
    if diff2 == [] then []
    else
      assert forall k :: 1 <= k < |diff2| ==> diff2[1..][k - 1] == diff2[k];
      ViceEntry(diff2[0], diff1) + ViceLines(diff2[1..], diff1)
  }

  /** What one block of the second diff contributes: nothing when some
      entry of the first mentions its header, else all of it. */
  function ViceEntry(cb2: seq<string>, diff1: seq<seq<string>>): seq<string>
    requires cb2 != []
  {
    var found := exists j :: 0 <= j < |diff1| && cb2[0] in diff1[j];
    if found then [] else cb2
  }

  /** The text of `__compare_vice(diff_2, diff_1)`. */
  function CompareVice(diff2: seq<seq<string>>, diff1: seq<seq<string>>): string
    requires AllNonEmpty(diff2)
  {
    Unlines(ViceLines(diff2, diff1))
  }

  /** An entry of the second diff is rendered in full exactly when no entry
      of the first mentions its header. */
  lemma ViceKeepsUnmentioned(diff2: seq<seq<string>>, diff1: seq<seq<string>>, k: nat)
    requires AllNonEmpty(diff2) && k < |diff2|
    ensures var cb := diff2[k];
      (forall j :: 0 <= j < |diff1| ==> cb[0] !in diff1[j]) ==>
        ViceLines(diff2, diff1) == ViceLines(diff2[..k], diff1) + cb + ViceLines(diff2[k + 1..], diff1)
  {
    if forall j :: 0 <= j < |diff1| ==> diff2[k][0] !in diff1[j] {
      ViceKeepsAt(diff2, diff1, k);
    }
  }

  /** `ViceKeepsUnmentioned` for an unmentioned block. */
  lemma {:induction false} ViceKeepsAt(diff2: seq<seq<string>>, diff1: seq<seq<string>>, k: nat)
    requires AllNonEmpty(diff2) && k < |diff2|
    requires forall j :: 0 <= j < |diff1| ==> diff2[k][0] !in diff1[j]
    ensures ViceLines(diff2, diff1) == ViceLines(diff2[..k], diff1) + diff2[k] + ViceLines(diff2[k + 1..], diff1)
    decreases k
  {
    if k > 0 {
      var tail := diff2[1..];
      assert tail[..k - 1] == diff2[1..k];
      assert tail[k - 1] == diff2[k] && tail[k..] == diff2[k + 1..];
      ViceKeepsAt(tail, diff1, k - 1);
      var front := diff2[..k];
      assert front[0] == diff2[0] && front[1..] == diff2[1..k];
      Regroup3(ViceEntry(diff2[0], diff1), ViceLines(diff2[1..k], diff1), diff2[k], ViceLines(diff2[k + 1..], diff1),
               ViceLines(diff2, diff1), ViceLines(tail, diff1), ViceLines(front, diff1));
    } else {
      assert diff2[1..] == diff2[k + 1..];
      assert diff2[..k] == [];
    }
  }

  /** `h + (a + c + b)` read as `(h + a) + c + b`. */
  lemma Regroup3<T>(h: seq<T>, a: seq<T>, c: seq<T>, b: seq<T>, x: seq<T>, t: seq<T>, f: seq<T>)
    requires x == h + t && t == a + c + b && f == h + a
    ensures x == f + c + b
  {
  }
}

=== FILE: dicts.dfy ===
/** Dictionaries built by a loop of `d[key] = value` (or `d.update(...)`)
    assignments, one per entry of a list: a later entry for a key replaces
    an earlier one. */
module Dicts {

  /** The dictionary `d` after assigning each entry of `es` in turn. */
  function Updates<K, V>(es: seq<(K, V)>, d: map<K, V>): map<K, V>
  {
    if es == [] then d else Updates(es[1..], d[es[0].0 := es[0].1])
  }

  /** The keys the entries assign. */
  function KeysOf<K, V>(es: seq<(K, V)>): set<K>
  {
    set k | 0 <= k < |es| :: es[k].0
  }

  /** The entry at `k` is the last one assigning its key. */
  predicate LastFor<K(==), V>(es: seq<(K, V)>, k: nat)
    requires k < |es|
  {
    forall j :: k < j < |es| ==> es[j].0 != es[k].0
  }

  lemma KeysOfCons<K, V>(es: seq<(K, V)>)
    requires es != []
    ensures KeysOf(es) == {es[0].0} + KeysOf(es[1..])
  {
    var rest := es[1..];
    forall u | u in KeysOf(es) ensures u in {es[0].0} + KeysOf(rest) {
      var k :| 0 <= k < |es| && es[k].0 == u;
      if k > 0 {
        assert rest[k - 1] == es[k];
      }
    }
    forall u | u in KeysOf(rest) ensures u in KeysOf(es) {
      var k :| 0 <= k < |rest| && rest[k].0 == u;
      assert rest[k] == es[k + 1];
    }
  }

  /** After the loop the dictionary has the keys it started with and every
      key assigned; an assigned key holds the value of the LAST entry
      assigning it, and a key no entry assigns keeps its old value. */
  lemma {:induction false} UpdatesContents<K, V>(es: seq<(K, V)>, d: map<K, V>)
    ensures Updates(es, d).Keys == d.Keys + KeysOf(es)
    ensures forall k :: 0 <= k < |es| && LastFor(es, k) ==> Updates(es, d)[es[k].0] == es[k].1
    ensures forall u :: u in d && u !in KeysOf(es) ==> Updates(es, d)[u] == d[u]
  {
    if es != [] {
      var rest := es[1..];
      var d' := d[es[0].0 := es[0].1];
      UpdatesContents(rest, d');
      KeysOfCons(es);
      forall k | 0 <= k < |es| && LastFor(es, k) ensures Updates(es, d)[es[k].0] == es[k].1 {
        if k == 0 {
          forall j | 0 <= j < |rest| ensures rest[j].0 != es[0].0 {
            assert rest[j] == es[j + 1];
          }
        } else {
          assert rest[k - 1] == es[k];
          assert LastFor(rest, k - 1) by {
            forall j | k - 1 < j < |rest| ensures rest[j].0 != rest[k - 1].0 {
              assert rest[j] == es[j + 1];
            }
          }
        }
      }
    }
  }

  /** With distinct keys every entry is the last for its key, so the
      dictionary maps each key to its own entry's value. */
  lemma DistinctUpdates<K, V>(es: seq<(K, V)>)
    requires forall i, j :: 0 <= i < j < |es| ==> es[i].0 != es[j].0
    ensures Updates(es, map[]).Keys == KeysOf(es)
    ensures forall k :: 0 <= k < |es| ==> Updates(es, map[])[es[k].0] == es[k].1
  {
    UpdatesContents(es, map[]);
    forall k | 0 <= k < |es| ensures LastFor(es, k) {
    }
  }
}

=== FILE: environment.dfy ===
/** The environment getters: temperature sensors against their warning and
    shutdown thresholds, fans, memory and CPU load, each read out of the
    token list of one command's output with the anchor lookups. */
module Environment {
  import opened Outcomes
  import opened PyStr
  import opened Locate
  import opened Dicts
  import Facts

  // ---------------------------------------------------------------------
  // `float()` of a decimal literal

  function Pow10(n: nat): (r: nat)
    ensures r >= 1
  {
    if n == 0 then 1 else 10 * Pow10(n - 1)
  }

  /** An unsigned decimal literal `ddd`, `ddd.ddd`, `ddd.` or `.ddd` with at
      least one digit, read as its exact value. */
  function ParseUnsigned(t: string): (r: Option<real>)
    ensures r.Some? ==> r.value >= 0.0
  {
    if '.' in t then
      var i := IndexOf(t, '.');
      var a, b := t[..i], t[i + 1..];
      if AllDigits(a) && AllDigits(b) && |a| + |b| > 0 then
        Some(DigitsValue(a) as real + DigitsValue(b) as real / Pow10(|b|) as real)
      else None
    else if t != [] && AllDigits(t) then Some(DigitsValue(t) as real)
    else None
  }

  /** `float(s)` on a decimal literal: surrounding white space, an optional
      sign, then an unsigned decimal; `None` where the model raises
      ValueError. */
  function ParseFloat(s: string): (r: Option<real>)
    ensures s != [] && AllDigits(s) ==> r == Some(DigitsValue(s) as real)
    ensures r.Some? ==> Strip(s) != []
  {
    PlainDigits(s);
    var t := Strip(s);
    if t != [] && (t[0] == '-' || t[0] == '+') then
      match ParseUnsigned(t[1..])
      case None => None
      case Some(v) => Some(if t[0] == '-' then -v else v)
    else ParseUnsigned(t)
  }

  /** A plain integer reads the same with `float()` as with `int()`. */
  lemma FloatOfDigits(s: string)
    requires s != [] && AllDigits(s)
    ensures ParseInt(s).Some? && ParseFloat(s) == Some(ParseInt(s).value as real)
  {
  }

  function Float(s: string): (r: Result<real>)
    ensures r.Ok? <==> ParseFloat(s).Some?
    ensures r.Ok? ==> r.value == ParseFloat(s).value
  {
    match ParseFloat(s)
    case None => Err(ValueError)
    case Some(v) => Ok(v)
  }

  /** `__is_greater(value, threshold)`: whether the reading has reached the
      threshold; the boundary itself counts. */
  function IsGreater(value: string, threshold: string): (r: Result<bool>)
    ensures r.Ok? <==> ParseFloat(value).Some? && ParseFloat(threshold).Some?
  {
    var v :- Float(value);
    var th :- Float(threshold);
    Ok(v >= th)
  }

  /** A reading exactly at the threshold has reached it, and of two
      readings at least one has reached the other. */
  lemma IsGreaterInclusive(a: string, b: string)
    requires ParseFloat(a).Some? && ParseFloat(b).Some?
    ensures ParseFloat(a) == ParseFloat(b) ==> IsGreater(a, b) == Ok(true)
    ensures IsGreater(a, b).value || IsGreater(b, a).value
    ensures IsGreater(a, b).value <==> ParseFloat(a).value >= ParseFloat(b).value
  {
  }

  // ---------------------------------------------------------------------
  // Temperature

  datatype Reading = Reading(temperature: real, isAlert: bool, isCritical: bool)

  /** One sensor of `__environment_temperature`: the critical flag against
      the first shutdown threshold is computed first, then the alert flag
      against the first warning threshold, then the reading itself. */
  function SensorReading(v: string, warning: seq<string>, shutdown: seq<string>): (r: Result<Reading>)
    ensures r.Ok? <==> && shutdown != [] && warning != [] && ParseFloat(v).Some?
                       && ParseFloat(shutdown[0]).Some? && ParseFloat(warning[0]).Some?
    ensures r.Ok? ==> && r.value.temperature == ParseFloat(v).value
                      && (r.value.isCritical <==> ParseFloat(v).value >= ParseFloat(shutdown[0]).value)
                      && (r.value.isAlert <==> ParseFloat(v).value >= ParseFloat(warning[0]).value)
    ensures shutdown == [] ==> r == Err(IndexError)
    ensures shutdown != [] && ParseFloat(v).Some? && ParseFloat(shutdown[0]).Some? && warning == [] ==> r == Err(IndexError)
  {
    var sd :- PyAt(shutdown, 0);
    var crit :- IsGreater(v, sd);
    var w :- PyAt(warning, 0);
    var alert :- IsGreater(v, w);
    // `float(temp[val])` cannot fail here: `__is_greater` has read it already.
    Ok(Reading(Float(v).value, alert, crit))
  }

  /** The dictionary key of the `k`-th sensor, counting from one. */
  function SensorKey(k: nat): string
  {
    "sensor " + IntToString(k + 1)
  }

  /** Different sensors get different keys. */
  lemma SensorKeyInjective(i: nat, j: nat)
    requires SensorKey(i) == SensorKey(j)
    ensures i == j
  {
    SameSuffix("sensor ", IntToString(i + 1), IntToString(j + 1));
    IntRoundTrip(i + 1);
    IntRoundTrip(j + 1);
  }

  lemma SameSuffix(p: string, a: string, b: string)
    requires p + a == p + b
    ensures a == b
  {
    assert a == (p + a)[|p|..];
    assert b == (p + b)[|p|..];
  }

  function SensorEntries(rs: seq<Reading>): (es: seq<(string, Reading)>)
    ensures |es| == |rs|
    ensures forall k :: 0 <= k < |rs| ==> es[k] == (SensorKey(k), rs[k])
  {
    seq(|rs|, k requires 0 <= k < |rs| => (SensorKey(k), rs[k]))
  }

  /** The sensor table built from the readings in order. */
  function SensorTable(rs: seq<Reading>): (d: map<string, Reading>)
    ensures d.Keys == set k | 0 <= k < |rs| :: SensorKey(k)
    ensures forall k :: 0 <= k < |rs| ==> d[SensorKey(k)] == rs[k]
  {
    var es := SensorEntries(rs);
    SensorEntriesDistinct(rs, es);
    SensorEntriesKeys(rs, es);
    DistinctUpdates(es);
    Updates(es, map[])
  }

  /** No two sensors share a key. */
  lemma SensorEntriesDistinct(rs: seq<Reading>, es: seq<(string, Reading)>)
    requires |es| == |rs| && forall k :: 0 <= k < |rs| ==> es[k] == (SensorKey(k), rs[k])
    ensures forall i, j :: 0 <= i < j < |es| ==> es[i].0 != es[j].0
  {
    forall i, j | 0 <= i < j < |es| ensures es[i].0 != es[j].0 {
      if es[i].0 == es[j].0 {
        SensorKeyInjective(i, j);
      }
    }
  }

  /** The keys assigned are the keys of the sensors. */
  lemma SensorEntriesKeys(rs: seq<Reading>, es: seq<(string, Reading)>)
    requires |es| == |rs| && forall k :: 0 <= k < |rs| ==> es[k] == (SensorKey(k), rs[k])
    ensures KeysOf(es) == set k | 0 <= k < |rs| :: SensorKey(k)
  {
    forall u | u in KeysOf(es) ensures u in set k | 0 <= k < |rs| :: SensorKey(k) {
      var k :| 0 <= k < |es| && es[k].0 == u;
    }
    forall k | 0 <= k < |rs| ensures SensorKey(k) in KeysOf(es) {
      assert es[k].0 == SensorKey(k);
    }
  }

  /** `__environment_temperature(s)`: the readings are the tokens two
      places before each `(Sensor`; the thresholds are the tokens two places
      after the first `Warning` and the first `Shutdown`. Sensor `k+1` gets
      the `k`-th reading with its alert and critical flags. */
  function Temperature(s: string): (r: Result<map<string, Reading>>)
    ensures var temp, warning, shutdown := RetrieveAllLocations(s, "(Sensor", -3),
                                           RetrieveAllLocations(s, "Warning", 1),
                                           RetrieveAllLocations(s, "Shutdown", 1);
      && (r.Ok? <==> temp.Ok? && warning.Ok? && shutdown.Ok? &&
                     forall k :: 0 <= k < |temp.value| ==> SensorReading(temp.value[k], warning.value, shutdown.value).Ok?)
      && (r.Ok? ==> r.value.Keys == set k | 0 <= k < |temp.value| :: SensorKey(k))
      && (r.Ok? ==> forall k :: 0 <= k < |temp.value| ==>
            r.value[SensorKey(k)] == SensorReading(temp.value[k], warning.value, shutdown.value).value)
  {
    var temp :- RetrieveAllLocations(s, "(Sensor", -3);
    var warning :- RetrieveAllLocations(s, "Warning", 1);
    var shutdown :- RetrieveAllLocations(s, "Shutdown", 1);
    var rs :- MapResult(v => SensorReading(v, warning, shutdown), temp);
    Ok(SensorTable(rs))
  }

  /** With no sensor lines the thresholds are never read: a table without
      `Shutdown` or `Warning` rows still gives an empty result. */
  lemma NoSensorsNoThresholds(s: string)
    requires "(Sensor" !in Split(s)
    requires RetrieveAllLocations(s, "Warning", 1).Ok? && RetrieveAllLocations(s, "Shutdown", 1).Ok?
    ensures Temperature(s) == Ok(map[])
  {
    Facts.RetrieveTokens(s, "(Sensor", -1);
    var t := Split(s);
    assert Positions(t, "(Sensor") == [] by {
      PositionsFirst(t, "(Sensor", |t|);
    }
    assert AllInRange(t, Positions(t, "(Sensor"), -3);
  }

  // ---------------------------------------------------------------------
  // Fans

  /** What `__environment_fan` reports: no fans at all for a fanless unit,
      otherwise the status of each fan by name. */
  datatype FanReport = Fanless | FanStates(fans: map<string, bool>)

  /** A fan status word: `ok,` is working, `failed` is broken, anything
      else is not recorded. */
  function FanStatus(word: string): Option<bool>
  {
    if word == "ok," then Some(true) else if word == "failed" then Some(false) else None
  }

  /** The fan loop over the first `n` fans: fan `k` is recorded as
      `"fan" + unit[k]` when its status word is known. */
  function FanLoop(fan: seq<string>, unit: seq<string>, n: nat): map<string, bool>
    requires n <= |fan| && |fan| == |unit|
  {
    if n == 0 then map[]
    else
      var d := FanLoop(fan, unit, n - 1);
      match FanStatus(fan[n - 1])
      case None => d
      case Some(b) => d["fan" + unit[n - 1] := b]
  }

  /** Fan `k` is the last of the first `n` recorded under its name. */
  predicate LastFan(fan: seq<string>, unit: seq<string>, n: nat, k: nat)
    requires k < n <= |fan| && |fan| == |unit|
  {
    forall j :: k < j < n && FanStatus(fan[j]).Some? ==> unit[j] != unit[k]
  }

  /** The loop records exactly the fans with a known status word, each
      name holding the status of the last fan recorded under it. */
  lemma {:induction false} FanLoopContents(fan: seq<string>, unit: seq<string>, n: nat)
    requires n <= |fan| && |fan| == |unit|
    ensures FanLoop(fan, unit, n).Keys == set k | 0 <= k < n && FanStatus(fan[k]).Some? :: "fan" + unit[k]
    ensures forall k :: 0 <= k < n && FanStatus(fan[k]).Some? && LastFan(fan, unit, n, k) ==>
      FanLoop(fan, unit, n)["fan" + unit[k]] == FanStatus(fan[k]).value
  {
    if n > 0 {
      FanLoopContents(fan, unit, n - 1);
      forall k | 0 <= k < n && FanStatus(fan[k]).Some? && LastFan(fan, unit, n, k)
        ensures FanLoop(fan, unit, n)["fan" + unit[k]] == FanStatus(fan[k]).value
      {
        if k < n - 1 {
          assert LastFan(fan, unit, n - 1, k);
          if FanStatus(fan[n - 1]).Some? {
            assert unit[n - 1] != unit[k];
            if "fan" + unit[n - 1] == "fan" + unit[k] {
              SameSuffix("fan", unit[n - 1], unit[k]);
            }
          }
        }
      }
    }
  }

  /** `__environment_fan(s)`: both lookups happen before the fanless check,
      so a malformed table fails even on a fanless unit. The status words
      are the tokens two places after each `Fan`, the names the tokens
      right after it. */
  function Fan(s: string): (r: Result<FanReport>)
    ensures var t := Split(s);
      && (r.Ok? <==> Facts.Followed(t, "Fan", 1))
      && (r.Ok? ==> (r.value == Fanless <==> Contains(s, "Fanless")))
      && (r.Ok? && !Contains(s, "Fanless") ==>
            var fan, unit := RetrieveAllLocations(s, "Fan", 1).value, RetrieveAllLocations(s, "Fan", 0).value;
            && |fan| == |unit|
            && r.value.fans == FanLoop(fan, unit, |fan|))
  {
    var t := Split(s);
    var fr, ur := RetrieveAllLocations(s, "Fan", 1), RetrieveAllLocations(s, "Fan", 0);
    assert RetrieveMeets(t, "Fan", 1, fr) && RetrieveMeets(t, "Fan", 0, ur);
    FanLookups(t, fr, ur);
    if fr.Err? then Err(fr.error)
    // The second lookup cannot fail once the first has succeeded.
    else if Contains(s, "Fanless") then Ok(Fanless)
    else Ok(FanStates(FanLoop(fr.value, ur.value, |fr.value|)))
  }

  /** The two lookups of `__environment_fan`: the first fails exactly when
      some `Fan` has fewer than two tokens after it, and when it succeeds
      the second does too, with as many values. */
  lemma FanLookups(t: seq<string>, fr: Result<seq<string>>, ur: Result<seq<string>>)
    requires RetrieveMeets(t, "Fan", 1, fr) && RetrieveMeets(t, "Fan", 0, ur)
    ensures fr.Ok? <==> Facts.Followed(t, "Fan", 1)
    ensures fr.Ok? ==> ur.Ok? && |fr.value| == |ur.value|
  {
    Facts.AnchorsFollowed(t, "Fan", 1);
    Facts.AnchorsFollowed(t, "Fan", 0);
    Facts.FollowedMono(t, "Fan", 0, 1);
  }

  // ---------------------------------------------------------------------
  // Memory

  datatype MemoryUse = MemoryUse(availableRam: int, usedRam: int)

  /** `__environment_memory(s)`: the integers two and five places after the
      first `Dynamic` (`Dynamic memory: T bytes total, U ...`). */
  function Memory(s: string): (r: Result<MemoryUse>)
    ensures MemoryRead(Split(s), r)
  {
    var t := Split(s);
    var tr, ur := RetrieveAllLocations(s, "Dynamic", 1), RetrieveAllLocations(s, "Dynamic", 4);
    assert RetrieveMeets(t, "Dynamic", 1, tr) && RetrieveMeets(t, "Dynamic", 4, ur);
    var r := MemoryOf(tr, ur);
    MemoryLookups(t, tr, ur, r);
    r
  }

  /** The memory figures of the token list `t`: there are some exactly when
      every `Dynamic` has five tokens after it, one occurs, and the second
      and fifth tokens after the first are integers; they are those
      integers. */
  predicate MemoryRead(t: seq<string>, r: Result<MemoryUse>)
  {
    && (r.Ok? <==> && Facts.Followed(t, "Dynamic", 4) && "Dynamic" in t
                   && ParseInt(t[IndexOf(t, "Dynamic") + 2]).Some?
                   && ParseInt(t[IndexOf(t, "Dynamic") + 5]).Some?)
    && (r.Ok? ==> r.value == MemoryUse(ParseInt(t[IndexOf(t, "Dynamic") + 2]).value,
                                       ParseInt(t[IndexOf(t, "Dynamic") + 5]).value))
  }

  /** The dictionary built from the two lookups: `int(mem_total[0])` and
      `int(mem_used[0])`. */
  function MemoryOf(tr: Result<seq<string>>, ur: Result<seq<string>>): Result<MemoryUse>
  {
    var total :- tr;
    var used :- ur;
    var t0 :- PyAt(total, 0);
    var avail :- Int(t0);
    var u0 :- PyAt(used, 0);
    var usedRam :- Int(u0);
    Ok(MemoryUse(avail, usedRam))
  }

  /** The two lookups of `__environment_memory`, read on the token list. */
  lemma MemoryLookups(t: seq<string>, tr: Result<seq<string>>, ur: Result<seq<string>>, r: Result<MemoryUse>)
    requires RetrieveMeets(t, "Dynamic", 1, tr) && RetrieveMeets(t, "Dynamic", 4, ur)
    requires r == MemoryOf(tr, ur)
    ensures MemoryRead(t, r)
  {
    Facts.RetrievedTokens(t, "Dynamic", 1, tr);
    Facts.RetrievedTokens(t, "Dynamic", 4, ur);
    Facts.FollowedMono(t, "Dynamic", 1, 4);
  }

  // ---------------------------------------------------------------------
  // CPU

  /** The loads `__environment_cpu` compares: the token before each
      `percent` (the last token when `percent` comes first). The lookup
      never fails, and finds nothing exactly when `percent` is absent. */
  lemma PercentLoads(s: string)
    ensures var t := Split(s); var r := RetrieveAllLocations(s, "percent", -2);
      r.Ok? && (r.value != [] <==> "percent" in t)
  {
    var t := Split(s);
    PositionsFirst(t, "percent", |t|);
  }

  /** `__environment_cpu(s)` as written: `max` over the load tokens, which
      compares them as strings. */
  function CpuUsage(s: string): (r: Result<string>)
    ensures var t := Split(s); var loads := RetrieveAllLocations(s, "percent", -2);
      && (r.Ok? <==> "percent" in t)
      && (r.Ok? ==> r.value in loads.value && forall k :: 0 <= k < |loads.value| ==> StrLe(loads.value[k], r.value))
  {
    PercentLoads(s);
    MaxStr(RetrieveAllLocations(s, "percent", -2).value)
  }

  /** `max` over numbers; ValueError on an empty list. */
  function MaxReal(xs: seq<real>): (r: Result<real>)
    ensures r.Err? <==> xs == []
    ensures r.Ok? ==> r.value in xs && forall k :: 0 <= k < |xs| ==> xs[k] <= r.value
  {
    if xs == [] then Err(ValueError)
    else if |xs| == 1 then Ok(xs[0])
    else
      var m := MaxReal(xs[1..]).value;
      assert forall k :: 1 <= k < |xs| ==> xs[k] == xs[1..][k - 1];
      Ok(if xs[0] >= m then xs[0] else m)
  }

  /** The CPU load as evidently intended: the largest load by value. */
  function CpuUsagePercent(s: string): (r: Result<real>)
    ensures var t := Split(s); var loads := RetrieveAllLocations(s, "percent", -2).value;
      && (r.Ok? <==> "percent" in t && forall k :: 0 <= k < |loads| ==> ParseFloat(loads[k]).Some?)
      && (r.Ok? ==> exists k :: 0 <= k < |loads| && ParseFloat(loads[k]) == Some(r.value))
      && (r.Ok? ==> forall k :: 0 <= k < |loads| ==> ParseFloat(loads[k]).value <= r.value)
  {
    PercentLoads(s);
    MaxFloat(RetrieveAllLocations(s, "percent", -2).value)
  }

  /** `max(float(x) for x in loads)`: ValueError for a token that is no
      number or for no tokens at all, else the largest value. */
  function MaxFloat(loads: seq<string>): (r: Result<real>)
    ensures r.Ok? <==> loads != [] && forall k :: 0 <= k < |loads| ==> ParseFloat(loads[k]).Some?
    ensures r.Ok? ==> exists k :: 0 <= k < |loads| && ParseFloat(loads[k]) == Some(r.value)
    ensures r.Ok? ==> forall k :: 0 <= k < |loads| ==> ParseFloat(loads[k]).value <= r.value
  {
    var nr := MapResult(Float, loads);
    FloatsParsed(loads, nr);
    var nums :- nr;
    var m :- MaxReal(nums);
    MaxParsed(loads, nums, m);
    Ok(m)
  }

  /** `[float(x) for x in loads]` read through `float()`'s parser: it
      succeeds exactly when every token parses, with the parsed values. */
  lemma FloatsParsed(loads: seq<string>, nr: Result<seq<real>>)
    requires nr.Ok? <==> forall k :: 0 <= k < |loads| ==> Float(loads[k]).Ok?
    requires nr.Ok? ==> |nr.value| == |loads|
    requires nr.Ok? ==> forall k :: 0 <= k < |loads| ==> nr.value[k] == Float(loads[k]).value
    ensures nr.Ok? <==> forall k :: 0 <= k < |loads| ==> ParseFloat(loads[k]).Some?
    ensures nr.Ok? ==> |nr.value| == |loads| && forall k :: 0 <= k < |loads| ==> ParseFloat(loads[k]) == Some(nr.value[k])
  {
    forall k | 0 <= k < |loads| ensures Float(loads[k]).Ok? <==> ParseFloat(loads[k]).Some? {
    }
    if nr.Ok? {
      forall k | 0 <= k < |loads| ensures ParseFloat(loads[k]) == Some(nr.value[k]) {
        assert Float(loads[k]).Ok?;
      }
    }
  }

  /** The largest of the values read from `loads` is read from one of them
      and no smaller than any. */
  lemma MaxParsed(loads: seq<string>, nums: seq<real>, m: real)
    requires |nums| == |loads| && forall k :: 0 <= k < |loads| ==> ParseFloat(loads[k]) == Some(nums[k])
    requires m in nums && forall k :: 0 <= k < |nums| ==> nums[k] <= m
    ensures exists k :: 0 <= k < |loads| && ParseFloat(loads[k]) == Some(m)
    ensures forall k :: 0 <= k < |loads| ==> ParseFloat(loads[k]).value <= m
  {
    var i :| 0 <= i < |nums| && nums[i] == m;
    assert ParseFloat(loads[i]) == Some(m);
  }

  /** Loads of 9 and 10 percent: comparing the tokens as strings reports 9,
      the largest load is 10. */
  lemma CpuLexicographic()
    ensures CpuUsage(NineTen) == Ok("9")
    ensures CpuUsagePercent(NineTen) == Ok(10.0)
  {
    NineTenTokens();
    NineTenLoads(NineTen);
    TwoLoads(NineTen);
  }

  const NineTen: string := "9 percent 10 percent"

  lemma NineTenTokens()
    ensures Split(NineTen) == ["9", "percent", "10", "percent"]
  {
    var toks := ["9", "percent", "10", "percent"];
    NineTenJoin();
    PercentToken();
    assert forall k :: 0 <= k < 4 ==> IsToken(toks[k]);
    SplitJoin(toks);
  }

  lemma NineTenJoin()
    ensures NineTen == Join(" ", ["9", "percent", "10", "percent"])
  {
    var toks := ["9", "percent", "10", "percent"];
    assert toks[1..][1..][1..] == ["percent"];
    assert Join(" ", toks[1..][1..]) == "10" + " " + "percent";
    assert Join(" ", toks[1..]) == "percent" + " " + "10 percent";
    assert Join(" ", toks) == "9" + " " + "percent 10 percent";
  }

  lemma PercentToken()
    ensures IsToken("percent")
  {
    forall j | 0 <= j < 7 ensures !IsSpace("percent"[j]) {
    }
  }

  lemma NineTenLoads(s: string)
    requires Split(s) == ["9", "percent", "10", "percent"]
    ensures RetrieveAllLocations(s, "percent", -2) == Ok(["9", "10"])
  {
    var t := Split(s);
    var r := RetrieveAllLocations(s, "percent", -2);
    assert RetrieveMeets(t, "percent", -2, r);
    NineTenAnchors(t, r);
  }

  /** The loads read two places before each `percent` of the tokens
      `9 percent 10 percent`. */
  lemma NineTenAnchors(t: seq<string>, r: Result<seq<string>>)
    requires t == ["9", "percent", "10", "percent"] && RetrieveMeets(t, "percent", -2, r)
    ensures r == Ok(["9", "10"])
  {
    assert PositionsUpTo(t, "percent", 1) == [];
    assert PositionsUpTo(t, "percent", 2) == [1];
    assert PositionsUpTo(t, "percent", 3) == [1];
    var p := Positions(t, "percent");
    assert p == [1, 3];
    assert AllInRange(t, p, -2);
    assert r.value[0] == PyAt(t, 0).value == "9";
    assert r.value[1] == PyAt(t, 2).value == "10";
    assert r.value == ["9", "10"];
  }

  /** Two loads, compared both ways. */
  lemma TwoLoads(s: string)
    requires RetrieveAllLocations(s, "percent", -2) == Ok(["9", "10"])
    ensures CpuUsage(s) == Ok("9")
    ensures CpuUsagePercent(s) == Ok(10.0)
  {
    MaxNineTen();
    FloatNineTen();
    assert MaxReal([9.0, 10.0]) == Ok(10.0);
  }

  lemma MaxNineTen()
    ensures MaxStr(["9", "10"]) == Ok("9")
  {
    assert !StrLe("9", "10");
  }

  lemma FloatNineTen()
    ensures MapResult(Float, ["9", "10"]) == Ok([9.0, 10.0])
  {
    NineFloat();
    TenFloat();
    MapPair(Float, "9", "10", 9.0, 10.0);
  }

  lemma NineFloat()
    ensures Float("9") == Ok(9.0)
  {
    DigitsFloat("9", 9);
  }

  lemma TenFloat()
    ensures Float("10") == Ok(10.0)
  {
    assert "10"[..1] == "1";
    DigitsFloat("10", 10);
  }

  lemma DigitsFloat(s: string, n: nat)
    requires s != [] && AllDigits(s) && DigitsValue(s) == n
    ensures Float(s) == Ok(n as real)
  {
  }
}

=== FILE: facts.dfy ===
/** Device facts read out of `show version`, `show running-config`,
    `show users` and the MAC table: uptime, model, hostname, OS version,
    serial number, port speeds, user privilege levels and the ports a MAC
    entry names. Each extractor is stated against the token list of the
    command's output, independently of the lookup helpers it is built on. */
module Facts {
  import opened Outcomes
  import opened PyStr
  import opened Locate
  import opened IfName
  import opened Dicts
  import Segment
  import Ranges

  /** Every occurrence of `w` among the tokens has at least `pos + 1`
      tokens after it. */
  predicate Followed(t: seq<string>, w: string, pos: int) {
    forall i :: 0 <= i < |t| && t[i] == w ==> i + 1 + pos < |t|
  }

  /** For a position at or after the anchor's own, "every target is a valid
      index" just says that no occurrence sits too close to the end. */
  lemma AnchorsFollowed(t: seq<string>, w: string, pos: int)
    requires pos >= -1
    ensures AllInRange(t, Positions(t, w), pos) <==> Followed(t, w, pos)
  {
    var p := Positions(t, w);
    PositionsComplete(t, w, |t|);
    if Followed(t, w, pos) {
      forall k | 0 <= k < |p| ensures -|t| <= p[k] + 1 + pos < |t| {
        assert t[p[k]] == w;
      }
    }
    if AllInRange(t, p, pos) {
      forall i | 0 <= i < |t| && t[i] == w ensures i + 1 + pos < |t| {
        assert i in p;
        var k :| 0 <= k < |p| && p[k] == i;
      }
    }
  }

  /** The token `pos + 1` places after the first `w`, as the extractors read
      it: it fails when `w` is absent or ANY occurrence of `w` is too close
      to the end, because all occurrences are collected first. */
  lemma FirstLocationTokens(s: string, w: string, pos: int)
    requires pos >= -1
    ensures FirstRead(Split(s), w, pos, FirstLocation(s, w, pos))
  {
    var t := Split(s);
    var r := FirstLocation(s, w, pos);
    assert FirstMeets(t, w, pos, r);
    FirstReadOf(t, w, pos, r);
  }

  /** The value `r` read after the first anchor `w` of the token list `t`:
      there is one exactly when `w` occurs and no occurrence is too close to
      the end, and it is the token `pos + 1` places after the first. */
  predicate FirstRead(t: seq<string>, w: string, pos: int, r: Result<string>)
  {
    && (r.Ok? <==> w in t && Followed(t, w, pos))
    && (r.Ok? ==> 0 <= IndexOf(t, w) + 1 + pos < |t| && r.value == t[IndexOf(t, w) + 1 + pos])
  }

  /** `FirstLocationTokens` for any value that meets the contract of the
      lookup on the token list `t`. */
  lemma FirstReadOf(t: seq<string>, w: string, pos: int, r: Result<string>)
    requires pos >= -1 && FirstMeets(t, w, pos, r)
    ensures FirstRead(t, w, pos, r)
  {
    AnchorsFollowed(t, w, pos);
    if w in t && Followed(t, w, pos) {
      assert t[IndexOf(t, w)] == w;
    }
  }

  /** The values `r` read after the anchor `w` of the token list `t`:
      IndexError when some occurrence is too close to the end; otherwise
      empty exactly when the anchor is absent, and starting with the token
      after its first occurrence. */
  predicate TokensRead(t: seq<string>, w: string, pos: int, r: Result<seq<string>>)
  {
    && (r.Ok? <==> Followed(t, w, pos))
    && (r.Ok? ==> (r.value != [] <==> w in t))
    && (r.Ok? && w in t ==> 0 <= IndexOf(t, w) + 1 + pos < |t| && r.value[0] == t[IndexOf(t, w) + 1 + pos])
  }

  /** All the tokens `pos + 1` places after an anchor, as the extractors
      that use more than the first read them: IndexError when some
      occurrence is too close to the end; otherwise empty exactly when the
      anchor is absent, and starting with the token after its first
      occurrence. */
  lemma RetrieveTokens(s: string, w: string, pos: int)
    requires pos >= -1
    ensures TokensRead(Split(s), w, pos, RetrieveAllLocations(s, w, pos))
  {
    var t := Split(s);
    var r := RetrieveAllLocations(s, w, pos);
    assert RetrieveMeets(t, w, pos, r);
    RetrievedTokens(t, w, pos, r);
  }

  /** `RetrieveTokens` for any result that meets the contract of the
      retrieval on the token list `t`. */
  lemma RetrievedTokens(t: seq<string>, w: string, pos: int, r: Result<seq<string>>)
    requires pos >= -1 && RetrieveMeets(t, w, pos, r)
    ensures TokensRead(t, w, pos, r)
  {
    AnchorsFollowed(t, w, pos);
    PositionsFirst(t, w, |t|);
    if r.Ok? && w in t {
      FirstRetrieved(t, w, pos, r.value);
    }
  }

  /** The values read after the anchors of a token list start with the one
      read after its first occurrence. */
  lemma FirstRetrieved(t: seq<string>, w: string, pos: int, vs: seq<string>)
    requires pos >= -1 && w in t && Followed(t, w, pos)
    requires var p := Positions(t, w);
      |vs| == |p| && forall k :: 0 <= k < |p| ==> vs[k] == PyAt(t, p[k] + 1 + pos).value
    ensures IndexOf(t, w) + 1 + pos < |t| && vs != [] && vs[0] == t[IndexOf(t, w) + 1 + pos]
  {
    var p := Positions(t, w);
    var i := IndexOf(t, w);
    PositionsFirst(t, w, |t|);
    assert p[0] == i && t[i] == w;
  }

  /** An anchor followed by `q + 1` tokens is followed by `p + 1` for any
      smaller `p`. */
  lemma FollowedMono(t: seq<string>, w: string, p: int, q: int)
    requires p <= q
    ensures Followed(t, w, q) ==> Followed(t, w, p)
  {
  }

  // ---------------------------------------------------------------------
  // Uptime

  /** The unit words `__facts_uptime` looks for, and the seconds in each. */
  const UptimeUnits: seq<string> := ["day(s)", "hour(s)", "minute(s)", "second(s)"]

  /** The units in the order the dictionary yields them (the last pair is
      popped first), each with the seconds it stands for. */
  const UnitSeconds: seq<(string, int)> :=
    [("second(s)", 1), ("minute(s)", 60), ("hour(s)", 3600), ("day(s)", 86400)]

  /** The count in front of the first occurrence of `unit` (the token at
      index -1 when the unit is the very first token), read with `int()`;
      zero when the unit is absent; `None` when the count is no integer. */
  function UnitCount(t: seq<string>, unit: string): Option<int>
  {
    if unit in t then
      var i := IndexOf(t, unit);
      ParseInt(if i == 0 then t[|t| - 1] else t[i - 1])
    else Some(0)
  }

  /** The loop over the dictionary `__find_words` built: each entry's count
      times the seconds its unit stands for. */
  function SumUnits(d: map<string, string>, units: seq<(string, int)>): Result<int>
  {
    if units == [] then Ok(0)
    else if units[0].0 in d then
      var v :- Int(d[units[0].0]);
      var rest :- SumUnits(d, units[1..]);
      Ok(v * units[0].1 + rest)
    else SumUnits(d, units[1..])
  }

  /** The token in front of the first `unit`, or `None` when it is absent. */
  function UnitToken(t: seq<string>, unit: string): Option<string>
  {
    if unit in t then
      var i := IndexOf(t, unit);
      Some(if i == 0 then t[|t| - 1] else t[i - 1])
    else None
  }

  /** The seconds the units stand for, read from the token list directly:
      `None` when some count is not an integer. */
  function Total(t: seq<string>, units: seq<(string, int)>): Option<int>
  {
    if units == [] then Some(0)
    else
      var c, rest := UnitCount(t, units[0].0), Total(t, units[1..]);
      if c.Some? && rest.Some? then Some(c.value * units[0].1 + rest.value) else None
  }

  /** The count is the token in front of the unit, read with `int()`. */
  lemma UnitCountOfToken(t: seq<string>, unit: string)
    ensures unit in t ==> UnitToken(t, unit).Some? && UnitCount(t, unit) == ParseInt(UnitToken(t, unit).value)
    ensures unit !in t ==> UnitToken(t, unit).None? && UnitCount(t, unit) == Some(0)
  {
  }

  /** Summing the dictionary's entries is summing the counts read from the
      tokens, when the dictionary holds the token in front of each unit. */
  lemma {:induction false} SumUnitsTotal(d: map<string, string>, units: seq<(string, int)>, t: seq<string>)
    requires forall k :: 0 <= k < |units| ==> (units[k].0 in d <==> units[k].0 in t)
    requires forall k :: 0 <= k < |units| && units[k].0 in d ==> Some(d[units[k].0]) == UnitToken(t, units[k].0)
    ensures SumUnits(d, units).Ok? <==> Total(t, units).Some?
    ensures SumUnits(d, units).Ok? ==> SumUnits(d, units).value == Total(t, units).value
  {
    if units != [] {
      var u, rest := units[0], units[1..];
      assert forall k :: 1 <= k < |units| ==> rest[k - 1] == units[k];
      SumUnitsTotal(d, rest, t);
      UnitCountOfToken(t, u.0);
      SumUnitsStep(d, units);
    }
  }

  /** One step of the loop: the first entry's count, when present, is added
      to the sum of the rest. */
  lemma SumUnitsStep(d: map<string, string>, units: seq<(string, int)>)
    requires units != []
    ensures var u, tail := units[0], SumUnits(d, units[1..]);
      && (u.0 !in d ==> SumUnits(d, units) == tail)
      && (u.0 in d ==> (SumUnits(d, units).Ok? <==> Int(d[u.0]).Ok? && tail.Ok?))
      && (u.0 in d && SumUnits(d, units).Ok? ==> SumUnits(d, units).value == Int(d[u.0]).value * u.1 + tail.value)
  {
  }

  /** `__facts_uptime(s)`: the uptime in seconds. It fails exactly when the
      count in front of some unit present in the text is not an integer,
      and otherwise adds up days, hours, minutes and seconds. */
  function FactsUptime(s: string): (r: Result<int>)
    ensures var t := Split(s);
      && (r.Ok? <==> (UnitCount(t, "day(s)").Some? && UnitCount(t, "hour(s)").Some?
                      && UnitCount(t, "minute(s)").Some? && UnitCount(t, "second(s)").Some?))
      && (r.Ok? ==>
            r.value == 86400 * UnitCount(t, "day(s)").value + 3600 * UnitCount(t, "hour(s)").value
                       + 60 * UnitCount(t, "minute(s)").value + UnitCount(t, "second(s)").value)
  {
    var t := Split(s);
    UptimeLookup(s);
    // `__find_words` neither fails nor returns None for these four units.
    var d := FindWords(s, UptimeUnits, [-1, -1, -1, -1]).value.value;
    SumUnitsTotal(d, UnitSeconds, t);
    UptimeTotal(t);
    SumUnits(d, UnitSeconds)
  }

  lemma UptimeUnitsDistinct()
    ensures forall i, j :: 0 <= i < j < |UptimeUnits| ==> UptimeUnits[i] != UptimeUnits[j]
  {
    forall i, j | 0 <= i < j < |UptimeUnits| ensures UptimeUnits[i] != UptimeUnits[j] {
      assert UptimeUnits[i][0] != UptimeUnits[j][0];
    }
  }

  lemma UnitSecondsNames()
    ensures |UnitSeconds| == |UptimeUnits|
    ensures forall k :: 0 <= k < |UnitSeconds| ==> UnitSeconds[k].0 == UptimeUnits[|UptimeUnits| - 1 - k]
  {
  }

  /** What `__find_words` returns for the four units: never an error, and
      an entry for each unit present, holding the token in front of it. */
  lemma UptimeLookup(s: string)
    ensures var t := Split(s); var r := FindWords(s, UptimeUnits, [-1, -1, -1, -1]);
      && r.Ok? && r.value.Some?
      && (forall k :: 0 <= k < |UnitSeconds| ==> (UnitSeconds[k].0 in r.value.value <==> UnitSeconds[k].0 in t))
      && (forall k :: 0 <= k < |UnitSeconds| && UnitSeconds[k].0 in r.value.value ==>
            Some(r.value.value[UnitSeconds[k].0]) == UnitToken(t, UnitSeconds[k].0))
  {
    var ps := [-1, -1, -1, -1];
    UptimeFound(s);
    UptimeUnitsDistinct();
    FindWordsDistinct(s, UptimeUnits, ps);
    assert forall k :: 0 <= k < |ps| ==> ps[k] == -1;
    UptimeEntries(Split(s), FindWords(s, UptimeUnits, ps).value.value);
  }

  /** A dictionary holding, for each unit present among the tokens, the
      token in front of it, read in the order of `UnitSeconds`. */
  lemma UptimeEntries(t: seq<string>, d: map<string, string>)
    requires forall k :: 0 <= k < |UptimeUnits| ==> (UptimeUnits[k] in d <==> UptimeUnits[k] in t)
    requires forall k :: 0 <= k < |UptimeUnits| && UptimeUnits[k] in t ==>
      d[UptimeUnits[k]] == LookupAt(t, UptimeUnits[k], -1).value
    ensures forall k :: 0 <= k < |UnitSeconds| ==> (UnitSeconds[k].0 in d <==> UnitSeconds[k].0 in t)
    ensures forall k :: 0 <= k < |UnitSeconds| && UnitSeconds[k].0 in d ==>
      Some(d[UnitSeconds[k].0]) == UnitToken(t, UnitSeconds[k].0)
  {
    UnitSecondsNames();
    forall k | 0 <= k < |UnitSeconds| ensures UnitSeconds[k].0 in d <==> UnitSeconds[k].0 in t {
      assert UnitSeconds[k].0 == UptimeUnits[3 - k];
    }
    forall k | 0 <= k < |UnitSeconds| && UnitSeconds[k].0 in d
      ensures Some(d[UnitSeconds[k].0]) == UnitToken(t, UnitSeconds[k].0)
    {
      var w := UptimeUnits[3 - k];
      assert UnitSeconds[k].0 == w;
      assert d[w] == LookupAt(t, w, -1).value;
    }
  }

  /** Looking up the four units one token back never fails. */
  lemma UptimeFound(s: string)
    ensures var r := FindWords(s, UptimeUnits, [-1, -1, -1, -1]); r.Ok? && r.value.Some?
  {
    var t := Split(s);
    var ps := [-1, -1, -1, -1];
    forall j | 0 <= j < |UptimeUnits| && UptimeUnits[j] in t ensures LookupAt(t, UptimeUnits[j], ps[j]).Ok? {
    }
  }

  /** The total over four units, unit by unit. */
  lemma TotalOfFour(t: seq<string>, a: (string, int), b: (string, int), c: (string, int), d: (string, int))
    ensures var ca, cb, cc, cd := UnitCount(t, a.0), UnitCount(t, b.0), UnitCount(t, c.0), UnitCount(t, d.0);
      && (Total(t, [a, b, c, d]).Some? <==> ca.Some? && cb.Some? && cc.Some? && cd.Some?)
      && (Total(t, [a, b, c, d]).Some? ==>
            Total(t, [a, b, c, d]).value == ca.value * a.1 + cb.value * b.1 + cc.value * c.1 + cd.value * d.1)
  {
    assert [a, b, c, d][1..] == [b, c, d];
    assert [b, c, d][1..] == [c, d];
    assert [c, d][1..] == [d];
    assert [d][1..] == [];
    assert Total(t, []) == Some(0);
    var td := Total(t, [d]);
    var tc := Total(t, [c, d]);
    var tb := Total(t, [b, c, d]);
    assert td.Some? <==> UnitCount(t, d.0).Some?;
    assert tc.Some? <==> UnitCount(t, c.0).Some? && td.Some?;
    assert tb.Some? <==> UnitCount(t, b.0).Some? && tc.Some?;
  }

  /** The loop's total written out for the four units. */
  lemma UptimeTotal(t: seq<string>)
    ensures var day, hour, min, sec := UnitCount(t, "day(s)"), UnitCount(t, "hour(s)"), UnitCount(t, "minute(s)"), UnitCount(t, "second(s)");
      && (Total(t, UnitSeconds).Some? <==> day.Some? && hour.Some? && min.Some? && sec.Some?)
      && (Total(t, UnitSeconds).Some? ==>
            Total(t, UnitSeconds).value == 86400 * day.value + 3600 * hour.value + 60 * min.value + sec.value)
  {
    TotalOfFour(t, ("second(s)", 1), ("minute(s)", 60), ("hour(s)", 3600), ("day(s)", 86400));
  }

  // ---------------------------------------------------------------------
  // Model, hostname, OS version, serial number

  /** `__facts_model(s)`: the token after the first `Stackable`. */
  function FactsModel(s: string): (r: Result<string>)
    ensures var t := Split(s);
      && (r.Ok? <==> "Stackable" in t && Followed(t, "Stackable", 0))
      && (r.Ok? ==> IndexOf(t, "Stackable") + 1 < |t| && r.value == t[IndexOf(t, "Stackable") + 1])
  {
    FirstLocationTokens(s, "Stackable", 0);
    FirstLocation(s, "Stackable", 0)
  }

  /** `__facts_hostname(s)`: `None` when the text nowhere contains the
      letters `hostname`; otherwise the token after the first `hostname`
      token, which fails when `hostname` only occurs inside a longer
      token. */
  function FactsHostname(s: string): (r: Result<Option<string>>)
    ensures !Contains(s, "hostname") ==> r == Ok(None)
    ensures Contains(s, "hostname") ==> var t := Split(s);
      && (r.Ok? <==> "hostname" in t && Followed(t, "hostname", 0))
      && (r.Ok? ==> IndexOf(t, "hostname") + 1 < |t| && r.value == Some(t[IndexOf(t, "hostname") + 1]))
  {
    if Contains(s, "hostname") then
      FirstLocationTokens(s, "hostname", 0);
      var h :- FirstLocation(s, "hostname", 0);
      Ok(Some(h))
    else Ok(None)
  }

  /** `__facts_os_version(s)`: the token two places after the first `SW:`
      (`SW: Version 08.0.30`). */
  function FactsOsVersion(s: string): (r: Result<string>)
    ensures var t := Split(s);
      && (r.Ok? <==> "SW:" in t && Followed(t, "SW:", 1))
      && (r.Ok? ==> IndexOf(t, "SW:") + 2 < |t| && r.value == t[IndexOf(t, "SW:") + 2])
  {
    FirstLocationTokens(s, "SW:", 1);
    FirstLocation(s, "SW:", 1)
  }

  /** `__facts_serial(s)`: the token after the first `Serial`, or the one
      after that when the next token is `#:` (`Serial #: X`), with every
      `#:` removed (`Serial #:X`). */
  function FactsSerial(s: string): (r: Result<string>)
    ensures var t := Split(s); var i := if "Serial" in t then IndexOf(t, "Serial") else 0;
      && (r.Ok? <==> "Serial" in t && Followed(t, "Serial", 0)
                     && (t[i + 1] == "#:" ==> Followed(t, "Serial", 1)))
      && (r.Ok? && t[i + 1] != "#:" ==> r.value == ReplaceAll(t[i + 1], "#:", ""))
      && (r.Ok? && t[i + 1] == "#:" ==> i + 2 < |t| && r.value == ReplaceAll(t[i + 2], "#:", ""))
  {
    FirstLocationTokens(s, "Serial", 0);
    FirstLocationTokens(s, "Serial", 1);
    var serial :- FirstLocation(s, "Serial", 0);
    var serial' :- if serial == "#:" then FirstLocation(s, "Serial", 1) else Ok(serial);
    Ok(ReplaceAll(serial', "#:", ""))
  }

  /** With the serial number written `Serial #: X`, the first lookup lands
      on `#:` and the second on `X`. */
  lemma SerialAfterMarker(s: string, pre: seq<string>, x: string, post: seq<string>)
    requires Split(s) == pre + ["Serial", "#:", x] + post
    requires "Serial" !in pre && "Serial" !in post && x != "Serial"
    ensures FirstLocation(s, "Serial", 0) == Ok("#:")
    ensures FactsSerial(s) == Ok(ReplaceAll(x, "#:", ""))
  {
    SerialOnce(Split(s), pre, x, post);
    FirstLocationTokens(s, "Serial", 0);
    FirstLocationTokens(s, "Serial", 1);
  }

  /** In `pre Serial #: x post` with a single `Serial`, the anchor is at
      `|pre|` and has two tokens after it. */
  lemma SerialOnce(t: seq<string>, pre: seq<string>, x: string, post: seq<string>)
    requires t == pre + ["Serial", "#:", x] + post
    requires "Serial" !in pre && "Serial" !in post && x != "Serial"
    ensures "Serial" in t && IndexOf(t, "Serial") == |pre|
    ensures t[|pre| + 1] == "#:" && t[|pre| + 2] == x
    ensures Followed(t, "Serial", 0) && Followed(t, "Serial", 1)
  {
    forall i | 0 <= i < |pre| ensures t[i] != "Serial" {
      assert t[i] == pre[i];
    }
    forall i | |pre| + 3 <= i < |t| ensures t[i] != "Serial" {
      assert t[i] == post[i - |pre| - 3];
    }
    assert t[|pre|] == "Serial" && t[|pre| + 1] == "#:" && t[|pre| + 2] == x;
  }

  // ---------------------------------------------------------------------
  // Port speed

  /** The port speeds `__get_interface_speed` knows, in Mbit/s. */
  const SpeedTable: map<string, int> := map[
    "auto" := 1000, "1Gbit" := 1000, "10Mbit" := 10, "100Mbit" := 100,
    "2.5Gbit" := 2500, "5Gbit" := 5000, "10Gbit" := 10000, "20G" := 20000,
    "40Gbit" := 40000, "100Gbit" := 100000]

  /** `__get_interface_speed(val)`: the speed in Mbit/s for a known speed
      string, as a float, PortSpeedException for any other. */
  function InterfaceSpeed(val: string): (r: Result<real>)
  {
    var speed :- SpeedValue(val);
    Ok(speed as real)
  }

  /** The chain of comparisons that sets `speed`. */
  function SpeedValue(val: string): Result<int>
  {
    if val == "auto" || val == "1Gbit" then Ok(1000)
    else if val == "10Mbit" then Ok(10)
    else if val == "100Mbit" then Ok(100)
    else if val == "2.5Gbit" then Ok(2500)
    else if val == "5Gbit" then Ok(5000)
    else if val == "10Gbit" then Ok(10000)
    else if val == "20G" then Ok(20000)
    else if val == "40Gbit" then Ok(40000)
    else if val == "100Gbit" then Ok(100000)
    else Err(UnknownSpeed(val))
  }

  /** The chain of comparisons is the table: a known string gives its
      entry, anything else raises with the string itself. */
  lemma InterfaceSpeedTable(val: string)
    ensures InterfaceSpeed(val).Ok? <==> val in SpeedTable
    ensures InterfaceSpeed(val).Ok? ==> InterfaceSpeed(val).value == SpeedTable[val] as real
    ensures InterfaceSpeed(val).Err? ==> InterfaceSpeed(val).error == UnknownSpeed(val)
  {
  }

  // ---------------------------------------------------------------------
  // Users

  /** The NAPALM privilege level for a FastIron privilege field: 0 (full
      access) is 15, 4 (port configuration) is 8, anything else is 3. */
  function PrivilegeLevel(priv: string): (r: Result<int>)
    ensures r.Ok? <==> ParseInt(priv).Some?
    ensures r.Ok? ==> 0 <= r.value <= 15
    ensures r.Ok? ==> (r.value == 15 <==> ParseInt(priv) == Some(0))
    ensures r.Ok? ==> (r.value == 8 <==> ParseInt(priv) == Some(4))
    ensures r.Ok? ==> (r.value == 3 <==> ParseInt(priv) != Some(0) && ParseInt(priv) != Some(4))
  {
    var n :- Int(priv);
    if n == 0 then Ok(15) else if n == 4 then Ok(8) else Ok(3)
  }

  /** A user's entry in the `get_users` dictionary. */
  datatype User = User(level: int, password: string, sshkeys: seq<string>)

  /** One user line: `user password encrypt priv status expires`. Any other
      number of fields is a ValueError from the unpacking. */
  function UserOf(line: string): (r: Result<(string, User)>)
    ensures var f := Split(line);
      && (r.Ok? <==> |f| == 6 && ParseInt(f[3]).Some?)
      && (r.Ok? ==> r.value.0 == f[0] && r.value.1.password == f[1] && r.value.1.sshkeys == []
                    && r.value.1.level == PrivilegeLevel(f[3]).value)
  {
    var f := Split(line);
    if |f| != 6 then Err(ValueError)
    else
      var lv :- PrivilegeLevel(f[3]);
      Ok((f[0], User(lv, f[1], [])))
  }

  /** The lines of the user table: everything after the last `=` of the
      header rule (the whole output when there is none). */
  function UserLines(output: string): seq<string>
  {
    Segment.CreatesListOfNLines(output[RFind(output, '=') + 1..])
  }

  /** `get_users(output)`: the lines are read in order and the first
      malformed one raises ValueError; otherwise one entry per user named
      in the table, taken from the last line naming it. */
  function GetUsers(output: string): (r: Result<map<string, User>>)
    ensures var lines := UserLines(output);
      r.Ok? <==> forall k :: 0 <= k < |lines| ==> UserOf(lines[k]).Ok?
    ensures r.Ok? ==> var es := MapResult(UserOf, UserLines(output)).value;
      && |es| == |UserLines(output)|
      && r.value.Keys == KeysOf(es)
      && forall k :: 0 <= k < |es| && LastFor(es, k) ==> r.value[es[k].0] == es[k].1
  {
    var es :- MapResult(UserOf, UserLines(output));
    UpdatesContents(es, map[]);
    Ok(Updates(es, map[]))
  }

  // ---------------------------------------------------------------------
  // Ports of a MAC table entry

  /** The ports of a MAC table entry: a TurboIron range `12-13` stands for
      every port number from the first to the last, rendered back with
      `str()`; anything else is a single port. Splitting into other than
      two pieces, or a bound that is no integer, raises ValueError. */
  function MacPorts(port: string): (r: Result<seq<string>>)
    ensures !Contains(port, "-") ==> r == Ok([port])
    ensures Contains(port, "-") ==> var p := SplitOn(port, "-");
      && (r.Ok? <==> |p| == 2 && ParseInt(p[0]).Some? && ParseInt(p[1]).Some?)
      && (r.Ok? ==> var a, b := ParseInt(p[0]).value, ParseInt(p[1]).value;
            r.value == Ranges.ExpandRange("", a, b))
  {
    if Contains(port, "-") then
      var p := SplitOn(port, "-");
      if |p| != 2 then Err(ValueError)
      else
        var a :- Int(p[0]);
        var b :- Int(p[1]);
        Ok(Ranges.ExpandRange("", a, b))
    else Ok([port])
  }

  /** The interface names of a MAC table entry: each port, standardized. */
  function MacInterfaces(port: string, pm: map<string, string>): (r: Result<seq<string>>)
    ensures r.Ok? <==> MacPorts(port).Ok? && StandardizeAll(MacPorts(port).value, pm).Ok?
    ensures r.Ok? ==> r == StandardizeAll(MacPorts(port).value, pm)
  {
    var ports :- MacPorts(port);
    StandardizeAll(ports, pm)
  }

  /** A TurboIron entry `a-b` of non-negative numbers names the ports
      `a` to `b`. */
  lemma MacRange(a: nat, b: nat)
    ensures MacPorts(IntToString(a) + "-" + IntToString(b)) == Ok(Ranges.ExpandRange("", a, b))
  {
    var x, y := IntToString(a), IntToString(b);
    assert '-' !in x && '-' !in y by {
      assert x == NatToString(a) && y == NatToString(b);
    }
    DashSplit(x, y);
    IntRoundTrip(a);
    IntRoundTrip(b);
  }

  /** Two dash-free pieces joined by `-` split back into those pieces. */
  lemma DashSplit(x: string, y: string)
    requires '-' !in x && '-' !in y
    ensures Contains(x + "-" + y, "-") && SplitOn(x + "-" + y, "-") == [x, y]
  {
    var p := x + "-" + y;
    assert p[|x|..|x| + 1] == "-";
    assert OccursAt(p, "-", |x|);
    Ranges.SplitAround(x, "-", y);
  }

  /** The TurboIron entry `12-13` names ports `12` and `13`. */
  lemma MacTurboIronRange()
    ensures MacPorts("12-13") == Ok(["12", "13"])
  {
    TwelveThirteenText();
    MacRange(12, 13);
    TwelveThirteenRange();
  }

  /** `str(12)` and `str(13)`. */
  lemma TwelveThirteenText()
    ensures IntToString(12) == "12" && IntToString(13) == "13"
    ensures IntToString(12) + "-" + IntToString(13) == "12-13"
  {
    assert NatToString(1) == ['1'];
    assert DigitChar(2) == '2' && DigitChar(3) == '3';
    assert NatToString(12) == NatToString(1) + [DigitChar(2)];
    assert NatToString(13) == NatToString(1) + [DigitChar(3)];
  }

  /** The numbers 12 and 13 written out. */
  lemma TwelveThirteenRange()
    ensures Ranges.ExpandRange("", 12, 13) == [IntToString(12), IntToString(13)]
  {
    var r := Ranges.ExpandRange("", 12, 13);
    assert |r| == 2 && r[0] == "" + IntToString(12) && r[1] == "" + IntToString(13);
    assert "" + IntToString(12) == IntToString(12) && "" + IntToString(13) == IntToString(13);
  }
}

=== FILE: ifname.dfy ===
/** Interface names in the form the rest of NAPALM expects.

    FastIron commands spell the same interface several ways: `lb1`,
    `Loopback 1` and `loopback1` all name `Loopback1`; `ve10` and `Ve 10`
    name `Ve10`; `tn3` is `Tunnel3`; `lg44` is `lag44`; four spellings of
    the management port become `Ethernetmgmt1`; and a bare port number such
    as `1/1/3` is looked up in a map built from `show interfaces brief`
    (the port map, a parameter here) to get its full name. */
module IfName {
  import opened Outcomes
  import opened PyStr

  /** One anchored substitution `re.sub(r"^<prefix>(\d+)$", "<to>\1", s)`:
      `s` is rewritten when it is `prefix` followed by one or more digits. */
  predicate PrefixDigits(s: string, prefix: string) {
    prefix <= s && |s| > |prefix| && AllDigits(s[|prefix|..])
  }

  function RewriteDigits(s: string, prefix: string, to: string): string
  {
    if PrefixDigits(s, prefix) then to + s[|prefix|..] else s
  }

  /** The substitutions `__standardize_interface_name` makes, in the order
      it makes them: `lbN`, `Loopback N` and `loopbackN` to `LoopbackN`,
      `tnN` to `TunnelN`, `Ve N` and `veN` to `VeN`, `lgN` to `lagN`. */
  const Rules: seq<(string, string)> := [
    ("lb", "Loopback"), ("Loopback ", "Loopback"), ("loopback", "Loopback"),
    ("tn", "Tunnel"), ("Ve ", "Ve"), ("ve", "Ve"), ("lg", "lag")]

  /** The spellings of the management port. */
  const MgmtAliases: seq<string> := ["mgmt1", "Eth mgmt1", "management1", "GigEthernetmgmt1"]

  const MgmtName: string := "Ethernetmgmt1"

  /** The substitutions from the `i`-th on, each applied to the result of
      the previous one. */
  function ApplyRules(x: string, i: nat): string
    requires i <= |Rules|
    decreases |Rules| - i
  {
    if i == |Rules| then x
    else ApplyRules(RewriteDigits(x, Rules[i].0, Rules[i].1), i + 1)
  }

  /** The rewrites applied to an already stripped name. */
  function Chain(x: string): string
  {
    var y := ApplyRules(x, 0);
    if y in MgmtAliases then MgmtName else y
  }

  /** The name `__standardize_interface_name` produces before the port-map
      lookup. */
  function Canonicalize(iface: string): string
  {
    Chain(Strip(iface))
  }

  /** What `re.match(r"^[\d|\/]+$", s)` accepts: a bare port number made of
      digits, slashes and (as the character class literally says) bars. */
  predicate IsPortNumber(s: string) {
    |s| > 0 && forall k :: 0 <= k < |s| ==> IsDigit(s[k]) || s[k] == '/' || s[k] == '|'
  }

  /** `__standardize_interface_name(iface)` with port map `pm`. The only
      failure is the KeyError of a bare port number missing from the map;
      every other name comes back as its canonical spelling. */
  function Standardize(iface: string, pm: map<string, string>): (r: Result<string>)
    ensures r.Err? <==> IsPortNumber(Canonicalize(iface)) && Canonicalize(iface) !in pm
    ensures r.Err? ==> r.error == KeyError(Canonicalize(iface))
    ensures r.Ok? && !IsPortNumber(Canonicalize(iface)) ==> r.value == Canonicalize(iface)
    ensures r.Ok? && IsPortNumber(Canonicalize(iface)) ==> r.value == pm[Canonicalize(iface)]
  {
    var x := Canonicalize(iface);
    if IsPortNumber(x) then
      if x in pm then Ok(pm[x]) else Err(KeyError(x))
    else Ok(x)
  }

  /** `Standardize` over a list, stopping at the first failure. */
  function StandardizeAll(ifaces: seq<string>, pm: map<string, string>): (r: Result<seq<string>>)
    ensures r.Ok? <==> forall k :: 0 <= k < |ifaces| ==> Standardize(ifaces[k], pm).Ok?
    ensures r.Ok? ==> |r.value| == |ifaces|
    ensures r.Ok? ==> forall k :: 0 <= k < |ifaces| ==> r.value[k] == Standardize(ifaces[k], pm).value
  {
    MapResult(x => Standardize(x, pm), ifaces)
  }

  // ---------------------------------------------------------------------
  // Stepping through the substitutions

  /** A non-empty run of decimal digits. */
  predicate IsNumber(d: string) {
    d != [] && AllDigits(d)
  }

  /** The substitutions from the `i`-th to the `k`-th skip a name none of
      them matches. */
  lemma {:induction false} ApplySkip(x: string, i: nat, k: nat)
    requires i <= k <= |Rules|
    requires forall j :: i <= j < k ==> !PrefixDigits(x, Rules[j].0)
    ensures ApplyRules(x, i) == ApplyRules(x, k)
    decreases k - i
  {
    if i < k {
      ApplySkip(x, i + 1, k);
    }
  }

  /** The `i`-th substitution rewrites a name it matches. */
  lemma ApplyHit(x: string, i: nat)
    requires i < |Rules| && PrefixDigits(x, Rules[i].0)
    ensures ApplyRules(x, i) == ApplyRules(Rules[i].1 + x[|Rules[i].0|..], i + 1)
  {
  }

  lemma StripNumberForm(prefix: string, d: string)
    requires IsNumber(d) && prefix != [] && !IsSpace(prefix[0])
    ensures Strip(prefix + d) == prefix + d
  {
    var s := prefix + d;
    assert s[|s| - 1] == d[|d| - 1];
  }

  /** The prefix `p` does not match `s` when the two differ at some index
      inside `p`. */
  lemma NoPrefixAt(s: string, p: string, k: nat)
    requires k < |p| && k < |s| && s[k] != p[k]
    ensures !PrefixDigits(s, p)
  {
  }

  lemma RewriteAt(prefix: string, d: string)
    requires IsNumber(d)
    ensures PrefixDigits(prefix + d, prefix)
  {
    assert (prefix + d)[|prefix|..] == d;
  }

  // ---------------------------------------------------------------------
  // Canonical spellings

  /** A name none of the substitutions matches. */
  predicate NoRule(x: string) {
    forall j :: 0 <= j < |Rules| ==> !PrefixDigits(x, Rules[j].0)
  }

  /** A name no substitution and no management alias applies to. */
  predicate Untouched(x: string) {
    NoRule(x) && x !in MgmtAliases
  }

  /** A canonical name: untouched and free of surrounding white space. */
  predicate Settled(x: string) {
    Untouched(x) && Strip(x) == x
  }

  /** The chain leaves an untouched name alone. */
  lemma UntouchedChain(x: string)
    requires Untouched(x)
    ensures Chain(x) == x
  {
    ApplySkip(x, 0, |Rules|);
  }

  /** A name that neither starts nor ends with white space is stripped. */
  lemma VisibleEnds(s: string)
    requires s != [] && !IsSpace(s[0]) && !IsSpace(s[|s| - 1])
    ensures Strip(s) == s
  {
  }

  lemma LoopbackNoRule(d: string)
    requires IsNumber(d)
    ensures NoRule("Loopback" + d)
  {
    var s := "Loopback" + d;
    assert s[0] == 'L' && s[1] == 'o' && s[8] == d[0];
    forall j | 0 <= j < |Rules| ensures !PrefixDigits(s, Rules[j].0) {
      if j == 1 {
        NoPrefixAt(s, Rules[j].0, 8);
      } else if j == 0 || j == 6 {
        NoPrefixAt(s, Rules[j].0, 1);
      } else {
        assert Rules[j].0[0] in "ltVv";
        NoPrefixAt(s, Rules[j].0, 0);
      }
    }
  }

  lemma TunnelNoRule(d: string)
    requires IsNumber(d)
    ensures NoRule("Tunnel" + d)
  {
    var s := "Tunnel" + d;
    assert s[0] == 'T';
    forall j | 0 <= j < |Rules| ensures !PrefixDigits(s, Rules[j].0) {
      assert Rules[j].0[0] in "lLtVv";
      NoPrefixAt(s, Rules[j].0, 0);
    }
  }

  lemma VeNoRule(d: string)
    requires IsNumber(d)
    ensures NoRule("Ve" + d)
  {
    var s := "Ve" + d;
    assert s[0] == 'V' && s[2] == d[0];
    forall j | 0 <= j < |Rules| ensures !PrefixDigits(s, Rules[j].0) {
      if j == 4 {
        NoPrefixAt(s, Rules[j].0, 2);
      } else {
        assert Rules[j].0[0] in "lLtv";
        NoPrefixAt(s, Rules[j].0, 0);
      }
    }
  }

  lemma LagNoRule(d: string)
    requires IsNumber(d)
    ensures NoRule("lag" + d)
  {
    var s := "lag" + d;
    assert s[0] == 'l' && s[1] == 'a';
    forall j | 0 <= j < |Rules| ensures !PrefixDigits(s, Rules[j].0) {
      if j == 0 || j == 2 || j == 6 {
        NoPrefixAt(s, Rules[j].0, 1);
      } else {
        assert Rules[j].0[0] in "LtVv";
        NoPrefixAt(s, Rules[j].0, 0);
      }
    }
  }

  /** The management aliases all start with m, E or G. */
  lemma NotAliasByFirst(s: string)
    requires s != [] && s[0] in "LTVl"
    ensures s !in MgmtAliases
  {
  }

  lemma MgmtNameSettled()
    ensures Settled(MgmtName)
  {
    var s := MgmtName;
    assert s[0] == 'E' && s[1] == 't' && s[|s| - 1] == '1';
    forall j | 0 <= j < |Rules| ensures !PrefixDigits(s, Rules[j].0) {
      assert Rules[j].0[0] in "lLtVv";
      NoPrefixAt(s, Rules[j].0, 0);
    }
    VisibleEnds(s);
  }

  /** What a substitution produces is canonical. */
  lemma RuleOutputSettled(i: nat, d: string)
    requires i < |Rules| && IsNumber(d)
    ensures Settled(Rules[i].1 + d)
  {
    if i <= 2 {
      assert Rules[i].1 == "Loopback";
      LoopbackNoRule(d);
      OutputSettled("Loopback", d);
    } else if i == 3 {
      assert Rules[i].1 == "Tunnel";
      TunnelNoRule(d);
      OutputSettled("Tunnel", d);
    } else if i <= 5 {
      assert Rules[i].1 == "Ve";
      VeNoRule(d);
      OutputSettled("Ve", d);
    } else {
      assert Rules[i].1 == "lag";
      LagNoRule(d);
      OutputSettled("lag", d);
    }
  }

  /** A canonical prefix followed by a number, which no substitution
      matches, is canonical. */
  lemma OutputSettled(p: string, d: string)
    requires p != [] && p[0] in "LTVl" && IsNumber(d) && NoRule(p + d)
    ensures Settled(p + d)
  {
    var s := p + d;
    assert s[0] == p[0] && s[|s| - 1] == d[|d| - 1];
    assert IsDigit(d[|d| - 1]);
    NotAliasByFirst(s);
    VisibleEnds(s);
  }

  /** From the `i`-th substitution on, a name is either left as it is or
      turned into a canonical one. */
  lemma {:induction false} ApplySettles(x: string, i: nat)
    requires i <= |Rules|
    ensures ApplyRules(x, i) == x || Settled(ApplyRules(x, i))
    decreases |Rules| - i
  {
    if i < |Rules| {
      if PrefixDigits(x, Rules[i].0) {
        var d := x[|Rules[i].0|..];
        var y := Rules[i].1 + d;
        RuleOutputSettled(i, d);
        ApplySkip(y, i + 1, |Rules|);
      } else {
        ApplySettles(x, i + 1);
      }
    }
  }

  /** The chain either leaves a name alone or makes it canonical, so a
      second pass has nothing left to do. */
  lemma ChainSettles(x: string)
    ensures Chain(x) == x || Settled(Chain(x))
  {
    ApplySettles(x, 0);
    var y := ApplyRules(x, 0);
    if y in MgmtAliases {
      MgmtNameSettled();
    }
  }

  /** Each spelling the driver rewrites becomes its canonical name, and each
      canonical name is left as it is. */
  lemma CanonicalSpellings(d: string)
    requires IsNumber(d)
    ensures Canonicalize("lb" + d) == "Loopback" + d
    ensures Canonicalize("Loopback " + d) == "Loopback" + d
    ensures Canonicalize("loopback" + d) == "Loopback" + d
    ensures Canonicalize("tn" + d) == "Tunnel" + d
    ensures Canonicalize("Ve " + d) == "Ve" + d
    ensures Canonicalize("ve" + d) == "Ve" + d
    ensures Canonicalize("lg" + d) == "lag" + d
  {
    forall i | 0 <= i < |Rules| ensures Canonicalize(Rules[i].0 + d) == Rules[i].1 + d {
      RuleSpelling(i, d);
    }
    assert Rules[0].0 == "lb" && Rules[1].0 == "Loopback " && Rules[2].0 == "loopback";
    assert Rules[3].0 == "tn" && Rules[4].0 == "Ve " && Rules[5].0 == "ve" && Rules[6].0 == "lg";
  }

  lemma RuleSpelling(i: nat, d: string)
    requires i < |Rules| && IsNumber(d)
    ensures Canonicalize(Rules[i].0 + d) == Rules[i].1 + d
  {
    var x := Rules[i].0 + d;
    StripNumberForm(Rules[i].0, d);
    forall j | 0 <= j < i ensures !PrefixDigits(x, Rules[j].0) {
      EarlierRuleMisses(i, j, d);
    }
    ApplySkip(x, 0, i);
    RewriteAt(Rules[i].0, d);
    assert x[|Rules[i].0|..] == d;
    var y := Rules[i].1 + d;
    RuleOutputSettled(i, d);
    ApplySkip(y, i + 1, |Rules|);
  }

  /** No substitution before the `i`-th matches a spelling of the `i`-th. */
  lemma EarlierRuleMisses(i: nat, j: nat, d: string)
    requires j < i < |Rules| && IsNumber(d)
    ensures !PrefixDigits(Rules[i].0 + d, Rules[j].0)
  {
    var x := Rules[i].0 + d;
    if i == 1 {
      NoPrefixAt(x, "lb", 0);
    } else if i == 2 {
      NoPrefixAt(x, "lb", 1);
      NoPrefixAt(x, "Loopback ", 0);
    } else if i == 3 {
      NoPrefixAt(x, Rules[j].0, 0);
    } else if i == 4 {
      NoPrefixAt(x, Rules[j].0, 0);
    } else if i == 5 {
      if j == 4 {
        NoPrefixAt(x, "Ve ", 0);
      } else {
        NoPrefixAt(x, Rules[j].0, 0);
      }
    } else {
      if j == 0 || j == 2 {
        NoPrefixAt(x, Rules[j].0, 1);
      } else {
        NoPrefixAt(x, Rules[j].0, 0);
      }
    }
  }

  /** The canonical names are fixed points. */
  lemma CanonicalNamesStay(d: string)
    requires IsNumber(d)
    ensures forall i :: 0 <= i < |Rules| ==> Canonicalize(Rules[i].1 + d) == Rules[i].1 + d
    ensures Canonicalize(MgmtName) == MgmtName
  {
    forall i | 0 <= i < |Rules| ensures Canonicalize(Rules[i].1 + d) == Rules[i].1 + d {
      SettledStays(i, d);
    }
    MgmtNameStays();
  }

  /** The management name is its own canonical form. */
  lemma MgmtNameStays()
    ensures Canonicalize(MgmtName) == MgmtName
  {
    MgmtNameSettled();
    UntouchedChain(MgmtName);
    ChainStripped(MgmtName);
  }

  /** The output form of one rule is its own canonical form. */
  lemma SettledStays(i: nat, d: string)
    requires i < |Rules| && IsNumber(d)
    ensures Canonicalize(Rules[i].1 + d) == Rules[i].1 + d
  {
    var x := Rules[i].1 + d;
    RuleOutputSettled(i, d);
    UntouchedChain(x);
    ChainStripped(x);
  }

  /** Every spelling of the management port becomes `Ethernetmgmt1`. */
  lemma MgmtSpellings()
    ensures forall k :: 0 <= k < |MgmtAliases| ==> Canonicalize(MgmtAliases[k]) == MgmtName
  {
    forall k | 0 <= k < |MgmtAliases| ensures Canonicalize(MgmtAliases[k]) == MgmtName {
      var a := MgmtAliases[k];
      assert a[0] in "mEG" && a[|a| - 1] == '1' by {
        if k == 0 {} else if k == 1 {} else if k == 2 {} else {}
      }
      MgmtSpelling(a);
    }
  }

  lemma MgmtSpelling(a: string)
    requires a in MgmtAliases && a[0] in "mEG" && a[|a| - 1] == '1'
    ensures Canonicalize(a) == MgmtName
  {
    VisibleEnds(a);
    forall j | 0 <= j < |Rules| ensures !PrefixDigits(a, Rules[j].0) {
      assert Rules[j].0[0] in "lLtVv";
      NoPrefixAt(a, Rules[j].0, 0);
    }
    ApplySkip(a, 0, |Rules|);
  }

  // ---------------------------------------------------------------------
  // Standardizing twice

  /** `c.lower()` for the ASCII letters. No other character lowers to one
      of the letters of "ethernet" or "mgmt", so for those two words this
      decides `word in s.lower()` exactly as Python does. */
  function LowerChar(c: char): char
  {
    if 'A' <= c <= 'Z' then (c as int + 32) as char else c
  }

  function Lower(s: string): (r: string)
    ensures |r| == |s| && forall k :: 0 <= k < |s| ==> r[k] == LowerChar(s[k])
  {
    seq(|s|, k requires 0 <= k < |s| => LowerChar(s[k]))
  }

  /** What `_get_interface_map` puts in the port map: names of ports whose
      lower-cased name mentions "ethernet" but not "mgmt". They are taken to
      carry no surrounding white space. */
  predicate IsPortMapName(v: string) {
    Contains(Lower(v), "ethernet") && !Contains(Lower(v), "mgmt") && Strip(v) == v
  }

  predicate IsPortMap(pm: map<string, string>) {
    forall k :: k in pm ==> IsPortMapName(pm[k])
  }

  predicate HasH(v: string) {
    exists k :: 0 <= k < |v| && (v[k] == 'h' || v[k] == 'H')
  }

  /** A prefix without the letter h never matches a name containing one. */
  lemma PrefixWithoutH(v: string, p: string)
    requires HasH(v)
    requires forall i :: 0 <= i < |p| ==> p[i] != 'h' && p[i] != 'H'
    ensures !PrefixDigits(v, p)
  {
    var k :| 0 <= k < |v| && (v[k] == 'h' || v[k] == 'H');
    if k < |p| {
      NoPrefixAt(v, p, k);
    } else {
      assert v[|p|..][k - |p|] == v[k];
    }
  }

  lemma EthernetHasH(v: string)
    requires Contains(Lower(v), "ethernet")
    ensures HasH(v)
  {
    var j :| OccursAt(Lower(v), "ethernet", j);
    assert "ethernet"[2] == 'h';
    assert Lower(v)[j + 2] == 'h';
  }

  lemma MgmtAt(a: string, j: nat)
    requires j + 4 <= |a| && Lower(a)[j..j + 4] == "mgmt"
    ensures Contains(Lower(a), "mgmt")
  {
    assert OccursAt(Lower(a), "mgmt", j);
  }

  /** Every management alias either mentions "mgmt" or has no letter h, so
      none is a port-map name. */
  lemma AliasesFlagged()
    ensures forall k :: 0 <= k < |MgmtAliases| ==> Contains(Lower(MgmtAliases[k]), "mgmt") || !HasH(MgmtAliases[k])
  {
    forall k | 0 <= k < |MgmtAliases| ensures Contains(Lower(MgmtAliases[k]), "mgmt") || !HasH(MgmtAliases[k]) {
      var a := MgmtAliases[k];
      if k == 0 {
        MgmtAt(a, 0);
      } else if k == 1 {
        MgmtAt(a, 4);
      } else if k == 2 {
        assert forall i :: 0 <= i < |a| ==> a[i] in "managemt1";
      } else {
        MgmtAt(a, 11);
      }
    }
  }

  lemma AliasesAreNotPortMapNames(v: string)
    requires IsPortMapName(v)
    ensures v !in MgmtAliases
  {
    EthernetHasH(v);
    AliasesFlagged();
  }

  lemma PortMapNameNoRule(v: string)
    requires HasH(v)
    ensures NoRule(v)
  {
    forall j | 0 <= j < |Rules| ensures !PrefixDigits(v, Rules[j].0) {
      var p := Rules[j].0;
      assert forall i :: 0 <= i < |p| ==> p[i] in "lbLopack tnVevg";
      PrefixWithoutH(v, p);
    }
  }

  lemma PortMapNameSettled(v: string)
    requires IsPortMapName(v)
    ensures Settled(v) && !IsPortNumber(v)
  {
    EthernetHasH(v);
    PortMapNameNoRule(v);
    AliasesAreNotPortMapNames(v);
    assert Untouched(v);
    var k :| 0 <= k < |v| && (v[k] == 'h' || v[k] == 'H');
    assert !IsDigit(v[k]) && v[k] != '/' && v[k] != '|';
  }

  /** Standardizing a standardized name changes nothing, provided the port
      map holds what `_get_interface_map` puts there. */
  lemma StandardizeIdempotent(iface: string, pm: map<string, string>)
    requires IsPortMap(pm)
    requires Standardize(iface, pm).Ok?
    ensures Standardize(Standardize(iface, pm).value, pm) == Standardize(iface, pm)
  {
    var c := Canonicalize(iface);
    var y := Standardize(iface, pm).value;
    if IsPortNumber(c) {
      PortMapNameSettled(y);
      UntouchedChain(y);
    } else {
      ChainSettles(Strip(iface));
      if c != Strip(iface) {
        UntouchedChain(c);
      } else {
        ChainStripped(Strip(iface));
      }
    }
  }

  /** A stripped name the chain leaves alone is its own canonical form. */
  lemma ChainStripped(x: string)
    requires Strip(x) == x && Chain(x) == x
    ensures Canonicalize(x) == x
  {
  }

  /** A bare port number passes the rewrites untouched, so standardizing
      it is exactly the port-map lookup. */
  lemma PortNumberLookup(d: string, pm: map<string, string>)
    requires IsPortNumber(d)
    ensures Canonicalize(d) == d
    ensures Standardize(d, pm) == if d in pm then Ok(pm[d]) else Err(KeyError(d))
  {
    PortNumberCanonical(d);
    var r := Standardize(d, pm);
    if d in pm {
      assert r.Ok? && r.value == pm[d];
    } else {
      assert r.Err? && r.error == KeyError(d);
    }
  }

  /** A bare port number is its own canonical form. */
  lemma PortNumberCanonical(d: string)
    requires IsPortNumber(d)
    ensures Canonicalize(d) == d
  {
    PortNumberSettled(d);
    UntouchedChain(d);
  }

  /** No rewrite and no alias applies to a bare port number, and it has no
      surrounding white space. */
  lemma PortNumberSettled(d: string)
    requires IsPortNumber(d)
    ensures Settled(d)
  {
    assert IsDigit(d[0]) || d[0] == '/' || d[0] == '|';
    assert IsDigit(d[|d| - 1]) || d[|d| - 1] == '/' || d[|d| - 1] == '|';
    VisibleEnds(d);
    PortNumberNoRule(d);
    PortNumberNotAlias(d);
  }

  lemma PortNumberNoRule(d: string)
    requires IsPortNumber(d)
    ensures NoRule(d)
  {
    RuleHeads();
    assert IsDigit(d[0]) || d[0] == '/' || d[0] == '|';
    forall j | 0 <= j < |Rules| ensures !PrefixDigits(d, Rules[j].0) {
      var p := Rules[j].0;
      assert p != [] && p[0] in "lLtVv";
      NoPrefixAt(d, p, 0);
    }
  }

  lemma PortNumberNotAlias(d: string)
    requires IsPortNumber(d)
    ensures d !in MgmtAliases
  {
    assert IsDigit(d[0]) || d[0] == '/' || d[0] == '|';
    forall a | a in MgmtAliases ensures a != d {
      assert a[0] in "mEG";
    }
  }

  /** Every substitution's pattern starts with one of `l`, `L`, `t`, `V`
      and `v`. */
  lemma RuleHeads()
    ensures forall j :: 0 <= j < |Rules| ==> Rules[j].0 != [] && Rules[j].0[0] in "lLtVv"
  {
  }

  /** A list of bare port numbers standardizes to their port-map entries. */
  lemma PortNumbersLookup(ps: seq<string>, pm: map<string, string>)
    requires forall k :: 0 <= k < |ps| ==> IsPortNumber(ps[k])
    ensures StandardizeAll(ps, pm).Ok? <==> forall k :: 0 <= k < |ps| ==> ps[k] in pm
    ensures StandardizeAll(ps, pm).Ok? ==> forall k :: 0 <= k < |ps| ==> StandardizeAll(ps, pm).value[k] == pm[ps[k]]
  {
    forall k | 0 <= k < |ps| ensures Standardize(ps[k], pm) == if ps[k] in pm then Ok(pm[ps[k]]) else Err(KeyError(ps[k])) {
      PortNumberLookup(ps[k], pm);
    }
  }
}

=== FILE: locate.dfy ===
/** Locating values next to anchor words in a command's output.

    Most of the driver's facts are read by splitting an output into white
    space separated tokens, finding an anchor word (such as `Stackable` or
    `Serial`) and taking the token a fixed distance after it. Two helpers do
    this: one collects the token for EVERY occurrence of the anchor, the
    other looks up several anchors at once and keeps, for each, the token
    next to its FIRST occurrence. Both index with Python's list semantics,
    so a negative position counts from the end of the token list. */
module Locate {
  import opened Outcomes
  import opened PyStr

  /** The positions, in ascending order, at which `word` occurs among the
      first `n` tokens. */
  function PositionsUpTo(toks: seq<string>, word: string, n: nat): (r: seq<nat>)
    requires n <= |toks|
    ensures forall k :: 0 <= k < |r| ==> r[k] < n && toks[r[k]] == word
  {
    if n == 0 then []
    else PositionsUpTo(toks, word, n - 1) + (if toks[n - 1] == word then [n - 1] else [])
  }

  /** The positions are listed in ascending order and miss none. */
  lemma {:induction false} PositionsComplete(toks: seq<string>, word: string, n: nat)
    requires n <= |toks|
    ensures var r := PositionsUpTo(toks, word, n);
      && (forall k, l :: 0 <= k < l < |r| ==> r[k] < r[l])
      && (forall i :: 0 <= i < n && toks[i] == word ==> i in r)
  {
    if n > 0 {
      PositionsComplete(toks, word, n - 1);
    }
  }

  /** The first listed position is the first occurrence (`list.index`),
      and the list is empty exactly when the word is absent. */
  lemma {:induction false} PositionsFirst(toks: seq<string>, word: string, n: nat)
    requires n <= |toks|
    ensures (word in toks && IndexOf(toks, word) < n) <==> PositionsUpTo(toks, word, n) != []
    ensures PositionsUpTo(toks, word, n) != [] ==> word in toks && PositionsUpTo(toks, word, n)[0] == IndexOf(toks, word)
  {
    if n > 0 {
      PositionsFirst(toks, word, n - 1);
      var p := PositionsUpTo(toks, word, n - 1);
      if toks[n - 1] == word {
        assert PositionsUpTo(toks, word, n) == p + [n - 1];
        var i := IndexOf(toks, word);
        assert i <= n - 1;
        if p != [] {
          assert (p + [n - 1])[0] == p[0];
        } else {
          assert i == n - 1;
        }
      } else {
        assert PositionsUpTo(toks, word, n) == p;
        if word in toks {
          var i := IndexOf(toks, word);
          assert i != n - 1;
        }
      }
    }
  }

  /** Every position of `word` among the tokens, ascending. */
  function Positions(toks: seq<string>, word: string): seq<nat>
  {
    PositionsUpTo(toks, word, |toks|)
  }

  /** True when the token `pos` places after each of the given anchors is a
      valid Python index into `toks`. */
  predicate AllInRange(toks: seq<string>, anchors: seq<nat>, pos: int) {
    forall k :: 0 <= k < |anchors| ==> -|toks| <= anchors[k] + 1 + pos < |toks|
  }

  /** The loop of `__retrieve_all_locations` run over the first `n` tokens:
      for each anchor at index `i`, the token at `i + 1 + pos`. The first
      anchor whose target index is out of range raises IndexError. */
  function RetrieveUpTo(toks: seq<string>, word: string, pos: int, n: nat): (r: Result<seq<string>>)
    requires n <= |toks|
    ensures r.Ok? <==> AllInRange(toks, PositionsUpTo(toks, word, n), pos)
    ensures r.Ok? ==> |r.value| == |PositionsUpTo(toks, word, n)|
    ensures r.Ok? ==> forall k :: 0 <= k < |r.value| ==>
      r.value[k] == PyAt(toks, PositionsUpTo(toks, word, n)[k] + 1 + pos).value
  {
    if n == 0 then Ok([])
    else
      var prev := RetrieveUpTo(toks, word, pos, n - 1);
      var r := if prev.Err? || toks[n - 1] != word then prev
               else if PyAt(toks, n + pos).Err? then Err(PyAt(toks, n + pos).error)
               else Ok(prev.value + [PyAt(toks, n + pos).value]);
      RetrieveStep(toks, word, pos, n, prev, r);
      r
  }

  /** The values read after the anchors `p`: IndexError when one target is
      outside the token list, else one value per anchor. */
  predicate ReadsAfter(toks: seq<string>, p: seq<nat>, pos: int, r: Result<seq<string>>)
  {
    && (r.Ok? <==> AllInRange(toks, p, pos))
    && (r.Ok? ==> |r.value| == |p|)
    && (r.Ok? ==> forall k :: 0 <= k < |r.value| ==> r.value[k] == PyAt(toks, p[k] + 1 + pos).value)
  }

  /** One iteration of the retrieval loop, for the token at `n - 1`. */
  lemma RetrieveStep(toks: seq<string>, word: string, pos: int, n: nat, prev: Result<seq<string>>, r: Result<seq<string>>)
    requires 0 < n <= |toks|
    requires ReadsAfter(toks, PositionsUpTo(toks, word, n - 1), pos, prev)
    requires r == if prev.Err? || toks[n - 1] != word then prev
                  else if PyAt(toks, n + pos).Err? then Err(PyAt(toks, n + pos).error)
                  else Ok(prev.value + [PyAt(toks, n + pos).value])
    ensures ReadsAfter(toks, PositionsUpTo(toks, word, n), pos, r)
  {
    var p := PositionsUpTo(toks, word, n - 1);
    var q: seq<nat> := if toks[n - 1] == word then [n - 1] else [];
    assert PositionsUpTo(toks, word, n) == p + q;
    AllInRangeAppend(toks, p, q, pos);
    if toks[n - 1] == word {
      assert AllInRange(toks, q, pos) <==> -|toks| <= n + pos < |toks| by {
        assert q[0] == n - 1;
      }
      if r.Ok? {
        forall k | 0 <= k < |r.value| ensures r.value[k] == PyAt(toks, (p + q)[k] + 1 + pos).value {
          if k < |p| {
            assert (p + q)[k] == p[k];
          }
        }
      }
    }
  }

  lemma AllInRangeAppend(toks: seq<string>, p: seq<nat>, q: seq<nat>, pos: int)
    ensures AllInRange(toks, p + q, pos) <==> AllInRange(toks, p, pos) && AllInRange(toks, q, pos)
  {
    if AllInRange(toks, p, pos) && AllInRange(toks, q, pos) {
      forall k | 0 <= k < |p + q| ensures -|toks| <= (p + q)[k] + 1 + pos < |toks| {
        if k >= |p| {
          assert (p + q)[k] == q[k - |p|];
        }
      }
    }
    if AllInRange(toks, p + q, pos) {
      forall k | 0 <= k < |p| ensures -|toks| <= p[k] + 1 + pos < |toks| {
        assert (p + q)[k] == p[k];
      }
      forall k | 0 <= k < |q| ensures -|toks| <= q[k] + 1 + pos < |toks| {
        assert (p + q)[k + |p|] == q[k];
      }
    }
  }

  /** `__retrieve_all_locations(s, word, pos)`: for every occurrence of
      `word` among the tokens of `s`, in order, the token `pos` places after
      it. The call fails with IndexError as soon as one target index is out
      of range, even when the caller only uses the first value. */
  function RetrieveAllLocations(s: string, word: string, pos: int): (r: Result<seq<string>>)
    ensures var t := Split(s); var p := Positions(t, word);
      && (r.Ok? <==> AllInRange(t, p, pos))
      && (r.Ok? ==> |r.value| == |p|)
      && (r.Ok? ==> forall k :: 0 <= k < |p| ==> r.value[k] == PyAt(t, p[k] + 1 + pos).value)
  {
    var t := Split(s);
    RetrieveUpTo(t, word, pos, |t|)
  }

  /** What `RetrieveAllLocations` promises about its result `r`, read on
      the token list `t`. */
  predicate RetrieveMeets(t: seq<string>, w: string, pos: int, r: Result<seq<string>>)
  {
    var p := Positions(t, w);
    && (r.Ok? <==> AllInRange(t, p, pos))
    && (r.Ok? ==> |r.value| == |p|)
    && (r.Ok? ==> forall k :: 0 <= k < |p| ==> r.value[k] == PyAt(t, p[k] + 1 + pos).value)
  }

  /** When every target lies inside the token list, the values are plainly
      the tokens `pos + 1` places after each occurrence of the anchor. */
  lemma RetrieveInBounds(s: string, word: string, pos: int)
    requires var t := Split(s); var p := Positions(t, word);
      forall k :: 0 <= k < |p| ==> 0 <= p[k] + 1 + pos < |t|
    ensures var t := Split(s); var p := Positions(t, word);
      && RetrieveAllLocations(s, word, pos).Ok?
      && forall k :: 0 <= k < |p| ==> RetrieveAllLocations(s, word, pos).value[k] == t[p[k] + 1 + pos]
  {
  }

  /** The first value `__retrieve_all_locations` gives for an anchor, as the
      fact extractors use it (`...[0]`): IndexError when the anchor is
      absent. */
  function FirstLocation(s: string, word: string, pos: int): (r: Result<string>)
    ensures FirstMeets(Split(s), word, pos, r)
  {
    var t := Split(s);
    var rr := RetrieveAllLocations(s, word, pos);
    assert RetrieveMeets(t, word, pos, rr);
    var r := if rr.Err? then Err(rr.error) else PyAt(rr.value, 0);
    FirstOfRetrieved(t, word, pos, rr, r);
    r
  }

  /** The first value read after the anchor `word` of the token list `t`:
      there is one exactly when the anchor occurs and every occurrence has
      its target inside the list, and it is the token `pos + 1` places
      after the first occurrence. */
  predicate FirstMeets(t: seq<string>, word: string, pos: int, r: Result<string>)
  {
    && (r.Ok? <==> word in t && AllInRange(t, Positions(t, word), pos))
    && (r.Ok? ==> r == PyAt(t, IndexOf(t, word) + 1 + pos))
  }

  /** The first value of a retrieval that meets its contract is the one
      read after the first occurrence of the anchor, and there is none
      exactly when the anchor is absent. */
  lemma FirstOfRetrieved(t: seq<string>, word: string, pos: int, rr: Result<seq<string>>, r: Result<string>)
    requires RetrieveMeets(t, word, pos, rr)
    requires r == if rr.Err? then Err(rr.error) else PyAt(rr.value, 0)
    ensures FirstMeets(t, word, pos, r)
  {
    var p := Positions(t, word);
    PositionsFirst(t, word, |t|);
    if rr.Ok? && word in t {
      assert p[0] == IndexOf(t, word);
      assert -|t| <= p[0] + 1 + pos < |t|;
    }
  }

  // ---------------------------------------------------------------------
  // `__find_words`

  /** One iteration of the `__find_words` loop for the pair (`word`, `pos`):
      when the word is among the tokens, record the token `pos` places after
      its FIRST occurrence, replacing any earlier entry for that word. */
  function FindStep(sentence: seq<string>, word: string, pos: int, d: map<string, string>): Result<map<string, string>>
  {
    if word in sentence then
      var v :- PyAt(sentence, IndexOf(sentence, word) + pos);
      Ok(d[word := v])
    else Ok(d)
  }

  /** The value `__find_words` records for `word` when it is present. */
  function LookupAt(sentence: seq<string>, word: string, pos: int): Result<string>
    requires word in sentence
  {
    PyAt(sentence, IndexOf(sentence, word) + pos)
  }

  /** The index of the first pair naming `word`. */
  predicate FirstPair(words: seq<string>, j: nat)
    requires j < |words|
  {
    forall i :: 0 <= i < j ==> words[i] != words[j]
  }

  /** The words of the pairs whose word occurs among the tokens. */
  function Present(sentence: seq<string>, words: seq<string>): set<string>
  {
    set j | 0 <= j < |words| && words[j] in sentence :: words[j]
  }

  /** The loop of `__find_words`: pairs are popped from the END of both
      lists, so they are processed last to first, and the first pair
      naming a word has the last say. It fails exactly when some pair
      whose word is present has an out-of-range target. */
  function FindLoop(sentence: seq<string>, words: seq<string>, poss: seq<int>, d: map<string, string>): (r: Result<map<string, string>>)
    requires |words| == |poss|
    ensures r.Ok? <==> forall j :: 0 <= j < |words| && words[j] in sentence ==> LookupAt(sentence, words[j], poss[j]).Ok?
    decreases |words|
  {
    if words == [] then Ok(d)
    else
      var n := |words| - 1;
      assert forall j :: 0 <= j < n ==> words[..n][j] == words[j] && poss[..n][j] == poss[j];
      var d' :- FindStep(sentence, words[n], poss[n], d);
      FindLoop(sentence, words[..n], poss[..n], d')
  }

  /** Starting from dictionary `d`, the present words gain an entry each,
      the first pair naming a word decides its value, and entries for
      words not in the list keep their value. */
  lemma {:induction false} FindLoopContents(sentence: seq<string>, words: seq<string>, poss: seq<int>, d: map<string, string>)
    requires |words| == |poss|
    requires FindLoop(sentence, words, poss, d).Ok?
    ensures var m := FindLoop(sentence, words, poss, d).value;
      && m.Keys == d.Keys + Present(sentence, words)
      && (forall j :: 0 <= j < |words| && words[j] in sentence && FirstPair(words, j) ==>
            m[words[j]] == LookupAt(sentence, words[j], poss[j]).value)
      && (forall w :: w in d && w !in words ==> m[w] == d[w])
    decreases |words|
  {
    if words != [] {
      var n := |words| - 1;
      var ws, ps := words[..n], poss[..n];
      assert forall j :: 0 <= j < n ==> ws[j] == words[j] && ps[j] == poss[j];
      var d' := FindStep(sentence, words[n], poss[n], d).value;
      FindLoopContents(sentence, ws, ps, d');
      var m := FindLoop(sentence, words, poss, d).value;
      assert m == FindLoop(sentence, ws, ps, d').value;
      assert Present(sentence, words) == Present(sentence, ws) + (if words[n] in sentence then {words[n]} else {}) by {
        assert words == ws + [words[n]];
      }
      forall j | 0 <= j < |words| && words[j] in sentence && FirstPair(words, j)
        ensures m[words[j]] == LookupAt(sentence, words[j], poss[j]).value
      {
        if j == n {
          assert words[j] !in ws;
        } else {
          assert FirstPair(ws, j);
        }
      }
      forall w | w in d && w !in words ensures m[w] == d[w] {
        assert w !in ws;
      }
    }
  }

  /** `__find_words(output, words, poss)`: `None` when the two lists differ
      in length or are empty; otherwise the dictionary built by `FindLoop`
      from an empty start. */
  function FindWords(output: string, words: seq<string>, poss: seq<int>): (r: Result<Option<map<string, string>>>)
    ensures (|words| != |poss| || words == []) ==> r == Ok(None)
    ensures |words| == |poss| && words != [] ==> var sentence := Split(output);
      && (r.Ok? <==> forall j :: 0 <= j < |words| && words[j] in sentence ==> LookupAt(sentence, words[j], poss[j]).Ok?)
      && (r.Ok? ==> r.value.Some?)
      && (r.Ok? ==> r.value.value.Keys == Present(sentence, words))
      && (r.Ok? ==> forall j :: 0 <= j < |words| && words[j] in sentence && FirstPair(words, j) ==>
            r.value.value[words[j]] == LookupAt(sentence, words[j], poss[j]).value)
  {
    if |words| != |poss| then Ok(None)
    else if |words| == 0 || |poss| == 0 then Ok(None)
    else
      var m :- FindLoop(Split(output), words, poss, map[]);
      FindLoopContents(Split(output), words, poss, map[]);
      Ok(Some(m))
  }

  /** For a list of distinct words: the dictionary has an entry for exactly
      the words present among the tokens, holding the token `pos` places
      after the word's first occurrence. */
  lemma FindWordsDistinct(output: string, words: seq<string>, poss: seq<int>)
    requires |words| == |poss| && words != []
    requires forall i, j :: 0 <= i < j < |words| ==> words[i] != words[j]
    ensures var r := FindWords(output, words, poss); var t := Split(output);
      r.Ok? ==> && r.value.Some?
                && (forall u :: u in r.value.value ==> u in words)
                && (forall k :: 0 <= k < |words| ==> (words[k] in r.value.value <==> words[k] in t))
                && (forall k :: 0 <= k < |words| && words[k] in t ==>
                      r.value.value[words[k]] == LookupAt(t, words[k], poss[k]).value)
  {
    var r := FindWords(output, words, poss);
    var t := Split(output);
    if r.Ok? {
      var d := r.value.value;
      forall k | 0 <= k < |words| && words[k] in t ensures words[k] in d {
        assert words[k] in Present(t, words);
      }
      forall k | 0 <= k < |words| && words[k] in t ensures FirstPair(words, k) {
      }
    }
  }
}

=== FILE: outcomes.dfy ===
/** Failure-carrying results.

    The driver signals trouble in two ways: by raising a Python exception
    (an out-of-range index, an `int()` of a malformed literal, a missing
    dictionary key, a local variable read before it was ever assigned) and,
    in a few places, by returning a sentinel such as `None` or `-1`.
    Exceptions become the `Err` arm of `Result`; sentinels stay ordinary
    values of the result type (usually an `Option`). */
module Outcomes {

  datatype Option<+T> = None | Some(value: T)

  /** The Python exception a computation stops with. */
  datatype PyError =
    | IndexError                   // list index out of range
    | ValueError                   // int()/float() of a malformed literal, or unpacking the wrong number of pieces
    | KeyError(key: string)        // dictionary lookup of a missing key
    | UnboundLocal(name: string)   // a local variable read before any assignment reached it
    | UnknownSpeed(speed: string)  // PortSpeedException: a port speed outside the known table

  /** Either the value a Python computation returns or the exception it raises.
      Usable with `:-`, so a sequence of steps stops at the first exception,
      exactly as the Python code does. */
  datatype Result<+T> = Ok(value: T) | Err(error: PyError) {

    predicate IsFailure() {
      Err?
    }

    function PropagateFailure<U>(): Result<U>
      requires Err?
    {
      Err(error)
    }

    function Extract(): T
      requires Ok?
    {
      value
    }
  }

  /** `[f(x) for x in xs]` where each call may raise: the first exception
      stops the list. */
  function MapResult<A, B>(f: A -> Result<B>, xs: seq<A>): (r: Result<seq<B>>)
    ensures r.Ok? <==> forall k :: 0 <= k < |xs| ==> f(xs[k]).Ok?
    ensures r.Ok? ==> |r.value| == |xs|
    ensures r.Ok? ==> forall k :: 0 <= k < |xs| ==> r.value[k] == f(xs[k]).value
  {
    if xs == [] then Ok([])
    else
      var y :- f(xs[0]);
      var ys :- MapResult(f, xs[1..]);
      assert forall k :: 1 <= k < |xs| ==> xs[1..][k - 1] == xs[k];
      Ok([y] + ys)
  }

  /** Mapping over two elements that both succeed. */
  lemma MapPair<A, B>(f: A -> Result<B>, a: A, b: A, x: B, y: B)
    requires f(a) == Ok(x) && f(b) == Ok(y)
    ensures MapResult(f, [a, b]) == Ok([x, y])
  {
    var r := MapResult(f, [a, b]);
    assert r.Ok? && |r.value| == 2;
    assert [a, b][0] == a && [a, b][1] == b;
    assert r.value[0] == x && r.value[1] == y;
    assert r.value == [x, y];
  }

  /** `h + (p + q)` read as `(h + p) + q`. */
  lemma Reassoc<T>(h: seq<T>, p: seq<T>, q: seq<T>, x: seq<T>, y: seq<T>, z: seq<T>)
    requires x == h + z && z == p + q && y == h + p
    ensures x == y + q
  {
  }

  /** Concatenation groups either way. */
  lemma AppendAssoc<T>(a: seq<T>, b: seq<T>, c: seq<T>)
    ensures a + b + c == a + (b + c)
  {
  }

  /** The lists one after another. */
  function Concat<T>(xss: seq<seq<T>>): seq<T>
  {
    if xss == [] then [] else xss[0] + Concat(xss[1..])
  }

  /** A loop that extends one output list with the items each input gives,
      stopping at the first exception. */
  function FlatMapResult<A, B>(f: A -> Result<seq<B>>, xs: seq<A>): (r: Result<seq<B>>)
    ensures r.Ok? <==> MapResult(f, xs).Ok?
    ensures r.Ok? ==> r.value == Concat(MapResult(f, xs).value)
  {
    if xs == [] then Ok([])
    else
      var y :- f(xs[0]);
      var ys :- FlatMapResult(f, xs[1..]);
      assert MapResult(f, xs).value == [y] + MapResult(f, xs[1..]).value;
      Ok(y + ys)
  }
}

=== FILE: pystr.dfy ===
/** The Python string and list primitives the driver leans on, given the
    meaning CPython gives them: `sub in s`, `s.find`, `s.replace`,
    `s.split(sep)`, `s.split()`, `s.strip()`, `int(s)`, `str(n)`, `max`
    over strings and `list.index`. Every other module is written in terms
    of these, so each carries a contract that pins its meaning down. */
module PyStr {
  import opened Outcomes

  // ---------------------------------------------------------------------
  // Characters

  /** The characters `str.isspace()` accepts: what `split()` and `strip()`
      with no argument treat as white space. */
  predicate IsSpace(c: char) {
    || c == ' '
    || '\t' <= c <= '\r'
    || '\U{1c}' <= c <= '\U{1f}'
    || c == '\U{85}' || c == '\U{a0}' || c == '\U{1680}'
    || '\U{2000}' <= c <= '\U{200a}'
    || c == '\U{2028}' || c == '\U{2029}' || c == '\U{202f}' || c == '\U{205f}' || c == '\U{3000}'
  }

  predicate IsDigit(c: char) {
    '0' <= c <= '9'
  }

  predicate AllDigits(s: string) {
    forall k :: 0 <= k < |s| ==> IsDigit(s[k])
  }

  // ---------------------------------------------------------------------
  // Substrings: `sub in s`, `s.find(sub)`, `s.rfind(c)`

  predicate OccursAt(s: string, sub: string, j: int) {
    0 <= j && j + |sub| <= |s| && s[j..j + |sub|] == sub
  }

  /** `s.find(sub)`, with `None` for Python's -1: the first position at which
      `sub` occurs. */
  function Find(s: string, sub: string): (r: Option<nat>)
    ensures r.Some? ==> OccursAt(s, sub, r.value)
    ensures r.Some? ==> forall j :: 0 <= j < r.value ==> !OccursAt(s, sub, j)
    ensures r.None? ==> forall j :: !OccursAt(s, sub, j)
    decreases |s|
  {
    if sub <= s then Some(0)
    else if s == [] then None
    else
      var rest := Find(s[1..], sub);
      OccursShift(s, sub);
      match rest
      case None => None
      case Some(k) => Some(k + 1)
  }

  /** An occurrence past the first position of `s` is an occurrence in
      `s[1..]`, one place earlier, and the other way round. */
  lemma OccursShift(s: string, sub: string)
    requires s != []
    ensures forall j :: 0 < j ==> (OccursAt(s, sub, j) <==> OccursAt(s[1..], sub, j - 1))
  {
    forall j | 0 < j ensures OccursAt(s, sub, j) <==> OccursAt(s[1..], sub, j - 1) {
      if j + |sub| <= |s| {
        assert s[1..][j - 1..j - 1 + |sub|] == s[j..j + |sub|];
      }
    }
  }

  /** Python's `sub in s` on strings. */
  predicate Contains(s: string, sub: string)
    ensures Contains(s, sub) <==> exists j :: OccursAt(s, sub, j)
  {
    Find(s, sub).Some?
  }

  /** `s.rfind(c)`: the last position holding `c`, or -1. */
  function RFind(s: string, c: char): (r: int)
    ensures -1 <= r < |s|
    ensures r >= 0 ==> s[r] == c
    ensures forall k :: r < k < |s| ==> s[k] != c
    decreases |s|
  {
    if s == [] then -1
    else if s[|s| - 1] == c then |s| - 1
    else RFind(s[..|s| - 1], c)
  }

  // ---------------------------------------------------------------------
  // `s.replace(pat, rep)`

  /** `s.replace(pat, rep)`: every non-overlapping occurrence of `pat`,
      scanning left to right, replaced by `rep`. */
  function ReplaceAll(s: string, pat: string, rep: string): (r: string)
    requires pat != []
    ensures !Contains(s, pat) ==> r == s
    ensures rep == [] ==> |r| <= |s|
    decreases |s|
  {
    if |s| < |pat| then s
    else if pat <= s then
      assert OccursAt(s, pat, 0);
      rep + ReplaceAll(s[|pat|..], pat, rep)
    else
      assert forall j :: OccursAt(s[1..], pat, j) ==> OccursAt(s, pat, j + 1) by {
        forall j | OccursAt(s[1..], pat, j) ensures OccursAt(s, pat, j + 1) {
          assert s[1..][j..j + |pat|] == s[j + 1..j + 1 + |pat|];
        }
      }
      [s[0]] + ReplaceAll(s[1..], pat, rep)
  }

  // ---------------------------------------------------------------------
  // `sep.join(xs)` and `s.split(sep)`

  /** `sep.join(xs)`. */
  function Join(sep: string, xs: seq<string>): string
  {
    if xs == [] then []
    else if |xs| == 1 then xs[0]
    else xs[0] + sep + Join(sep, xs[1..])
  }

  /** `s.split(sep)` for a non-empty separator: the pieces between
      successive non-overlapping occurrences of `sep`, scanning left to
      right. There is always at least one piece, and no piece holds `sep`. */
  function SplitOn(s: string, sep: string): (r: seq<string>)
    requires sep != []
    ensures |r| >= 1
    ensures forall k :: 0 <= k < |r| ==> !Contains(r[k], sep)
    decreases |s|
  {
    match Find(s, sep)
    case None => [s]
    case Some(i) =>
      assert !Contains(s[..i], sep) by {
        forall j | OccursAt(s[..i], sep, j) ensures false {
          assert s[..i][j..j + |sep|] == s[j..j + |sep|];
          assert OccursAt(s, sep, j);
        }
      }
      [s[..i]] + SplitOn(s[i + |sep|..], sep)
  }

  /** Splitting on `sep` and joining the pieces back with `sep` gives the
      original string: nothing is lost or invented by `SplitOn`. */
  lemma {:induction false} JoinSplitOn(s: string, sep: string)
    requires sep != []
    ensures Join(sep, SplitOn(s, sep)) == s
    decreases |s|
  {
    match Find(s, sep)
    case None =>
    case Some(i) =>
      var rest := s[i + |sep|..];
      var p := SplitOn(rest, sep);
      JoinSplitOn(rest, sep);
      var q := [s[..i]] + p;
      assert SplitOn(s, sep) == q;
      assert q[0] == s[..i] && q[1..] == p && |q| >= 2;
      assert Join(sep, q) == s[..i] + sep + Join(sep, p);
      assert s[i..i + |sep|] == sep;
      assert s == s[..i] + sep + rest;
  }

  /** A one-character separator occurs exactly where that character stands. */
  lemma CharAt(s: string, c: char, j: int)
    ensures OccursAt(s, [c], j) <==> 0 <= j < |s| && s[j] == c
  {
    if 0 <= j < |s| {
      assert s[j..j + 1] == [s[j]];
    }
  }

  lemma SplitNoChar(b: string, c: char)
    requires c !in b
    ensures SplitOn(b, [c]) == [b]
  {
    forall j ensures !OccursAt(b, [c], j) {
      CharAt(b, c, j);
    }
  }

  lemma SplitAtFirstChar(b: string, c: char, r: string)
    requires c !in b
    ensures SplitOn(b + [c] + r, [c]) == [b] + SplitOn(r, [c])
  {
    var s := b + [c] + r;
    CharAt(s, c, |b|);
    var i := Find(s, [c]).value;
    CharAt(s, c, i);
    assert forall k :: 0 <= k < |b| ==> s[k] == b[k];
    assert s[..i] == b;
    assert s[i + 1..] == r;
  }

  /** Splitting on a one-character separator distributes over that
      character. */
  lemma {:induction false} SplitOnCharAppend(x: string, c: char, y: string)
    ensures SplitOn(x + [c] + y, [c]) == SplitOn(x, [c]) + SplitOn(y, [c])
    decreases |x|, 1
  {
    if c in x {
      SplitAppendAt(x, c, y, IndexOf(x, c));
    } else {
      SplitAppendNoChar(x, c, y);
    }
  }

  /** The case where `x` holds the separator, first at `j`. */
  lemma {:induction false} SplitAppendAt(x: string, c: char, y: string, j: nat)
    requires j < |x| && x[j] == c && c !in x[..j]
    ensures SplitOn(x + [c] + y, [c]) == SplitOn(x, [c]) + SplitOn(y, [c])
    decreases |x|, 0
  {
    var x1, x2 := x[..j], x[j + 1..];
    var tail := x2 + [c] + y;
    assert SplitOn(x, [c]) == [x1] + SplitOn(x2, [c]) by {
      assert x == x1 + [c] + x2;
      SplitAtFirstChar(x1, c, x2);
    }
    assert SplitOn(x + [c] + y, [c]) == [x1] + SplitOn(tail, [c]) by {
      assert x + [c] + y == x1 + [c] + tail;
      SplitAtFirstChar(x1, c, tail);
    }
    SplitOnCharAppend(x2, c, y);
    Regroup(x1, SplitOn(x2, [c]), SplitOn(y, [c]), SplitOn(x + [c] + y, [c]), SplitOn(x, [c]), SplitOn(tail, [c]));
  }

  /** `[h] + (a + b)` read as `([h] + a) + b`. */
  lemma Regroup<T>(h: T, a: seq<T>, b: seq<T>, u: seq<T>, v: seq<T>, w: seq<T>)
    requires u == [h] + w && w == a + b && v == [h] + a
    ensures u == v + b
  {
  }

  lemma SplitAppendNoChar(x: string, c: char, y: string)
    requires c !in x
    ensures SplitOn(x + [c] + y, [c]) == SplitOn(x, [c]) + SplitOn(y, [c])
  {
    SplitNoChar(x, c);
    SplitAtFirstChar(x, c, y);
  }

  // ---------------------------------------------------------------------
  // `s.split()`: white-space separated tokens

  /** A token `s.split()` can return: non-empty, free of white space. */
  predicate IsToken(w: string) {
    w != [] && forall k :: 0 <= k < |w| ==> !IsSpace(w[k])
  }

  /** Length of the longest prefix of `s` free of white space. */
  function WordLen(s: string): (n: nat)
    ensures n <= |s|
    ensures forall k :: 0 <= k < n ==> !IsSpace(s[k])
    ensures n < |s| ==> IsSpace(s[n])
  {
    if s == [] || IsSpace(s[0]) then 0 else 1 + WordLen(s[1..])
  }

  /** `s.split()`: the maximal runs of non-white-space characters, in order. */
  function Split(s: string): (r: seq<string>)
    ensures forall k :: 0 <= k < |r| ==> IsToken(r[k])
    decreases |s|
  {
    if s == [] then []
    else if IsSpace(s[0]) then Split(s[1..])
    else
      var n := WordLen(s);
      [s[..n]] + Split(s[n..])
  }

  lemma {:induction false} WordLenOfToken(t: string, u: string)
    requires IsToken(t) || t == []
    requires u == [] || IsSpace(u[0])
    ensures WordLen(t + u) == |t|
    decreases |t|
  {
    if t != [] {
      assert (t + u)[1..] == t[1..] + u;
      WordLenOfToken(t[1..], u);
    }
  }

  /** Joining tokens with single spaces and splitting again gives the tokens
      back: `Split` recovers exactly what white space separates. */
  lemma {:induction false} SplitJoin(ts: seq<string>)
    requires forall k :: 0 <= k < |ts| ==> IsToken(ts[k])
    ensures Split(Join(" ", ts)) == ts
    decreases |ts|
  {
    if |ts| == 1 {
      WordLenOfToken(ts[0], []);
      assert ts[0] + [] == ts[0];
      assert ts[0][|ts[0]|..] == [];
    } else if |ts| > 1 {
      assert Join(" ", ts) == ts[0] + " " + Join(" ", ts[1..]);
      SplitTokenSpace(ts[0], Join(" ", ts[1..]));
      SplitJoin(ts[1..]);
      assert ts == [ts[0]] + ts[1..];
    }
  }

  /** A token followed by a space splits off as the first token. */
  lemma SplitTokenSpace(t: string, rest: string)
    requires IsToken(t)
    ensures Split(t + " " + rest) == [t] + Split(rest)
  {
    var s := t + " " + rest;
    WordLenOfToken(t, " " + rest);
    assert s == t + (" " + rest);
    assert s[..|t|] == t;
    assert s[|t|..] == " " + rest;
    assert (" " + rest)[1..] == rest;
  }

  // ---------------------------------------------------------------------
  // `s.strip()`

  function LStrip(s: string): (r: string)
    ensures |r| <= |s| && r == s[|s| - |r|..]
    ensures forall k :: 0 <= k < |s| - |r| ==> IsSpace(s[k])
    ensures r == [] || !IsSpace(r[0])
    decreases |s|
  {
    if s != [] && IsSpace(s[0]) then LStrip(s[1..]) else s
  }

  function RStrip(s: string): (r: string)
    ensures |r| <= |s| && r == s[..|r|]
    ensures forall k :: |r| <= k < |s| ==> IsSpace(s[k])
    ensures r == [] || !IsSpace(r[|r| - 1])
    decreases |s|
  {
    if s != [] && IsSpace(s[|s| - 1]) then RStrip(s[..|s| - 1]) else s
  }

  /** Where `s.strip()` starts: the number of leading white-space characters. */
  function StripStart(s: string): nat
  {
    |s| - |LStrip(s)|
  }

  /** `s.strip()`: `s` without its leading and trailing white space. The
      result is the slice of `s` starting after the leading white space,
      everything cut off on either side is white space, and the result
      neither starts nor ends with white space. */
  function Strip(s: string): (r: string)
    ensures StripStart(s) + |r| <= |s| && r == s[StripStart(s)..StripStart(s) + |r|]
    ensures forall k :: 0 <= k < StripStart(s) ==> IsSpace(s[k])
    ensures forall k :: StripStart(s) + |r| <= k < |s| ==> IsSpace(s[k])
    ensures r == [] || (!IsSpace(r[0]) && !IsSpace(r[|r| - 1]))
    ensures (s == [] || (!IsSpace(s[0]) && !IsSpace(s[|s| - 1]))) ==> r == s
  {
    var l := LStrip(s);
    var r := RStrip(l);
    StripSlices(s, l, r);
    r
  }

  /** The contract of `Strip`, for any `l` and `r` that meet the contracts
      of `LStrip(s)` and `RStrip(l)`. */
  lemma StripSlices(s: string, l: string, r: string)
    requires |l| <= |s| && l == s[|s| - |l|..]
    requires forall k :: 0 <= k < |s| - |l| ==> IsSpace(s[k])
    requires l == [] || !IsSpace(l[0])
    requires |r| <= |l| && r == l[..|r|]
    requires forall k :: |r| <= k < |l| ==> IsSpace(l[k])
    requires r == [] || !IsSpace(r[|r| - 1])
    ensures var i := |s| - |l|;
      && i + |r| <= |s| && r == s[i..i + |r|]
      && (forall k :: i + |r| <= k < |s| ==> IsSpace(s[k]))
      && (r == [] || (!IsSpace(r[0]) && !IsSpace(r[|r| - 1])))
      && ((s == [] || (!IsSpace(s[0]) && !IsSpace(s[|s| - 1]))) ==> r == s)
  {
    var i := |s| - |l|;
    forall k | i + |r| <= k < |s| ensures IsSpace(s[k]) {
      assert s[k] == l[k - i];
    }
    if r != [] {
      assert r[0] == l[0];
    }
    if s != [] && !IsSpace(s[0]) && !IsSpace(s[|s| - 1]) {
      assert i == 0;
      assert l == s;
      assert l[|l| - 1] == s[|s| - 1];
    }
  }

  // ---------------------------------------------------------------------
  // `int(s)` and `str(n)`

  function DigitValue(c: char): nat
    requires IsDigit(c)
  {
    c as int - '0' as int
  }

  function DigitChar(d: nat): (c: char)
    requires d < 10
    ensures IsDigit(c) && DigitValue(c) == d
  {
    ('0' as int + d) as char
  }

  /** The value of a string of decimal digits, most significant first. */
  function DigitsValue(d: string): nat
    requires AllDigits(d)
  {
    if d == [] then 0 else DigitsValue(d[..|d| - 1]) * 10 + DigitValue(d[|d| - 1])
  }

  /** The digit groups `int()` accepts after the sign: digits, with single
      underscores allowed between two digits. */
  predicate IsDigitGroups(t: string) {
    && |t| > 0
    && IsDigit(t[0])
    && forall k {:trigger t[k]} :: 0 <= k < |t| ==> IsDigit(t[k]) || (t[k] == '_' && k + 1 < |t| && IsDigit(t[k + 1]))
  }

  function DropUnderscores(t: string): (r: string)
    ensures |r| <= |t|
    ensures (forall k :: 0 <= k < |t| ==> IsDigit(t[k]) || t[k] == '_') ==> AllDigits(r)
    ensures AllDigits(t) ==> r == t
  {
    if t == [] then []
    else (if t[0] == '_' then [] else [t[0]]) + DropUnderscores(t[1..])
  }

  function ParseNat(t: string): (r: Option<nat>)
    ensures r.Some? <==> IsDigitGroups(t)
  {
    if IsDigitGroups(t) then
      assert forall k :: 0 <= k < |t| ==> IsDigit(t[k]) || t[k] == '_' by {
        forall k | 0 <= k < |t| ensures IsDigit(t[k]) || t[k] == '_' {
          assert IsDigit(t[k]) || (t[k] == '_' && k + 1 < |t| && IsDigit(t[k + 1]));
        }
      }
      var d := DropUnderscores(t);
      Some(DigitsValue(d))
    else None
  }

  /** `int(s)` on a string: surrounding white space, then an optional sign,
      then digit groups; `None` where Python raises ValueError. A string of
      plain digits is read as its decimal value. */
  function ParseInt(s: string): (r: Option<int>)
    ensures s != [] && AllDigits(s) ==> r == Some(DigitsValue(s))
    ensures r.Some? ==> Strip(s) != []
  {
    PlainDigits(s);
    DigitsNat(s);
    var t := Strip(s);
    if t != [] && (t[0] == '-' || t[0] == '+') then
      match ParseNat(t[1..])
      case None => None
      case Some(v) =>
        var n: int := v;
        Some(if t[0] == '-' then -n else n)
    else
      match ParseNat(t)
      case None => None
      case Some(v) => Some(v)
  }

  /** A non-empty string of digits has nothing to strip, no sign and no
      decimal point. */
  lemma PlainDigits(s: string)
    ensures s != [] && AllDigits(s) ==> Strip(s) == s && s[0] != '-' && s[0] != '+' && '.' !in s
  {
    if s != [] && AllDigits(s) {
      assert IsDigit(s[0]) && IsDigit(s[|s| - 1]);
      assert !IsSpace(s[0]) && !IsSpace(s[|s| - 1]);
      forall k | 0 <= k < |s| ensures s[k] != '.' {
        assert IsDigit(s[k]);
      }
    }
  }

  /** Plain digits are a single digit group and read as their value. */
  lemma DigitsNat(s: string)
    ensures s != [] && AllDigits(s) ==> ParseNat(s) == Some(DigitsValue(s))
  {
    if s != [] && AllDigits(s) {
      assert IsDigitGroups(s);
      assert DropUnderscores(s) == s;
    }
  }

  /** `int(s)` with Python's ValueError for a malformed literal. */
  function Int(s: string): (r: Result<int>)
    ensures r.Ok? <==> ParseInt(s).Some?
    ensures r.Ok? ==> r.value == ParseInt(s).value
  {
    match ParseInt(s)
    case None => Err(ValueError)
    case Some(v) => Ok(v)
  }

  function NatToString(n: nat): (r: string)
    ensures r != [] && AllDigits(r)
    decreases n
  {
    if n < 10 then [DigitChar(n)] else NatToString(n / 10) + [DigitChar(n % 10)]
  }

  /** `str(n)` for an integer. */
  function IntToString(n: int): (r: string)
    ensures r != [] && !IsSpace(r[0]) && !IsSpace(r[|r| - 1])
  {
    if n < 0 then "-" + NatToString(-n) else NatToString(n)
  }

  lemma {:induction false} DigitsValueOfNat(n: nat)
    ensures DigitsValue(NatToString(n)) == n
    decreases n
  {
    if n >= 10 {
      DigitsValueOfNat(n / 10);
      var d := NatToString(n);
      assert d[..|d| - 1] == NatToString(n / 10);
    }
  }

  /** `int(str(n)) == n`: reading back the decimal rendering of an integer
      gives the integer. */
  lemma IntRoundTrip(n: int)
    ensures ParseInt(IntToString(n)) == Some(n)
  {
    var s := IntToString(n);
    var m := if n < 0 then -n else n;
    var d := NatToString(m);
    DigitsValueOfNat(m);
    DigitsNat(d);
    PlainDigits(d);
    assert Strip(s) == s;
    if n < 0 {
      assert s[0] == '-' && s[1..] == d;
    } else {
      assert s == d;
    }
  }

  // ---------------------------------------------------------------------
  // String order and `max`

  /** Python's `a <= b` on strings: lexicographic by code point. */
  predicate StrLe(a: string, b: string)
    decreases |a|
  {
    if a == [] then true
    else if b == [] then false
    else if a[0] != b[0] then a[0] < b[0]
    else StrLe(a[1..], b[1..])
  }

  lemma {:induction false} StrLeRefl(a: string)
    ensures StrLe(a, a)
    decreases |a|
  {
    if a != [] {
      StrLeRefl(a[1..]);
    }
  }

  lemma {:induction false} StrLeTotal(a: string, b: string)
    ensures StrLe(a, b) || StrLe(b, a)
    decreases |a|
  {
    if a != [] && b != [] && a[0] == b[0] {
      StrLeTotal(a[1..], b[1..]);
    }
  }

  lemma {:induction false} StrLeTrans(a: string, b: string, c: string)
    requires StrLe(a, b) && StrLe(b, c)
    ensures StrLe(a, c)
    decreases |a|
  {
    if a != [] && b != [] && c != [] && a[0] == b[0] && b[0] == c[0] {
      StrLeTrans(a[1..], b[1..], c[1..]);
    }
  }

  /** `max(xs)` over strings: the first element no later element exceeds.
      Python raises ValueError on an empty list. */
  function MaxStr(xs: seq<string>): (r: Result<string>)
    ensures xs == [] <==> r.Err?
    ensures r.Ok? ==> r.value in xs
    ensures r.Ok? ==> forall k :: 0 <= k < |xs| ==> StrLe(xs[k], r.value)
    decreases |xs|
  {
    if xs == [] then Err(ValueError)
    else if |xs| == 1 then
      StrLeRefl(xs[0]);
      Ok(xs[0])
    else
      var m := MaxStr(xs[..|xs| - 1]).value;
      var x := xs[|xs| - 1];
      StrLeTotal(m, x);
      assert forall k :: 0 <= k < |xs| - 1 ==> xs[k] == xs[..|xs| - 1][k];
      if StrLe(x, m) then
        Ok(m)
      else
        assert forall k :: 0 <= k < |xs| - 1 ==> StrLe(xs[k], x) by {
          forall k | 0 <= k < |xs| - 1 ensures StrLe(xs[k], x) {
            StrLeTrans(xs[k], m, x);
          }
        }
        StrLeRefl(x);
        Ok(x)
  }

  // ---------------------------------------------------------------------
  // Lists

  /** `xs.index(x)`: the first position holding `x`. */
  function IndexOf<T(==)>(xs: seq<T>, x: T): (r: nat)
    requires x in xs
    ensures r < |xs| && xs[r] == x
    ensures forall j :: 0 <= j < r ==> xs[j] != x
  {
    if xs[0] == x then 0 else 1 + IndexOf(xs[1..], x)
  }

  /** Python's `xs[k]` on a list: a negative `k` counts from the end, and an
      index outside `-|xs| .. |xs|-1` raises IndexError. */
  function PyAt<T>(xs: seq<T>, k: int): (r: Result<T>)
    ensures r.Ok? <==> -|xs| <= k < |xs|
    ensures 0 <= k < |xs| ==> r == Ok(xs[k])
    ensures -|xs| <= k < 0 ==> r == Ok(xs[|xs| + k])
  {
    if 0 <= k < |xs| then Ok(xs[k])
    else if -|xs| <= k < 0 then Ok(xs[|xs| + k])
    else Err(IndexError)
  }
}

=== FILE: ranges.dfy ===
/** Port lists as FastIron writes them in VLAN configuration, expanded into
    interface names: `ethe 2/1 ethe 2/4 to 2/6 lag 3 to 5` names `2/1`,
    `2/4`, `2/5`, `2/6` (each looked up in the port map) and `lag3`,
    `lag4`, `lag5`. */
module Ranges {
  import opened Outcomes
  import opened PyStr
  import opened IfName

  // ---------------------------------------------------------------------
  // Counting loops

  /** The loop `while num <= end_num: names.append(prefix + str(num));
      num += 1`. */
  function ExpandRange(prefix: string, a: int, b: int): (r: seq<string>)
    ensures |r| == if b < a then 0 else b - a + 1
    ensures forall k :: 0 <= k < |r| ==> r[k] == prefix + IntToString(a + k)
    decreases b - a
  {
    if a > b then []
    else
      var rest := ExpandRange(prefix, a + 1, b);
      ExpandCons(prefix, a, b, rest, [prefix + IntToString(a)] + rest);
      [prefix + IntToString(a)] + rest
  }

  /** One step of the loop: the name for `a` in front of the names from
      `a + 1` on are the names from `a` on. */
  lemma ExpandCons(prefix: string, a: int, b: int, rest: seq<string>, r: seq<string>)
    requires a <= b && |rest| == b - a && r == [prefix + IntToString(a)] + rest
    requires forall k :: 0 <= k < |rest| ==> rest[k] == prefix + IntToString(a + 1 + k)
    ensures |r| == b - a + 1 && forall k :: 0 <= k < |r| ==> r[k] == prefix + IntToString(a + k)
  {
    forall k | 0 <= k < |r| ensures r[k] == prefix + IntToString(a + k) {
      if k > 0 {
        assert r[k] == rest[k - 1];
      }
    }
  }

  /** The numbers of a range read back: ascending from the start, one apart. */
  lemma ExpandRangeNumbers(prefix: string, a: int, b: int)
    ensures var r := ExpandRange(prefix, a, b);
      forall k :: 0 <= k < |r| ==> prefix <= r[k] && ParseInt(r[k][|prefix|..]) == Some(a + k)
  {
    var r := ExpandRange(prefix, a, b);
    forall k | 0 <= k < |r| ensures prefix <= r[k] && ParseInt(r[k][|prefix|..]) == Some(a + k) {
      assert r[k][|prefix|..] == IntToString(a + k);
      IntRoundTrip(a + k);
    }
  }

  /** A range of non-negative port numbers standardizes to the port map's
      entries for them; a number missing from the map is a KeyError. */
  lemma RangeLookup(a: int, b: int, pm: map<string, string>)
    requires a >= 0
    ensures var ps := ExpandRange("", a, b);
      && (StandardizeAll(ps, pm).Ok? <==> forall k :: 0 <= k < |ps| ==> ps[k] in pm)
      && (StandardizeAll(ps, pm).Ok? ==> forall k :: 0 <= k < |ps| ==> StandardizeAll(ps, pm).value[k] == pm[ps[k]])
  {
    var ps := ExpandRange("", a, b);
    forall k | 0 <= k < |ps| ensures IsPortNumber(ps[k]) {
      assert ps[k] == NatToString(a + k);
    }
    PortNumbersLookup(ps, pm);
  }

  /** A range of non-negative lag numbers names the lags themselves: the
      rewrites leave `lagN` alone and it is no bare port number. */
  lemma LagRangeNames(a: int, b: int, pm: map<string, string>)
    requires a >= 0
    ensures StandardizeAll(ExpandRange("lag", a, b), pm) == Ok(ExpandRange("lag", a, b))
  {
    var ps := ExpandRange("lag", a, b);
    forall k | 0 <= k < |ps| ensures Standardize(ps[k], pm) == Ok(ps[k]) {
      LagName(a + k, pm);
    }
    var r := StandardizeAll(ps, pm);
    assert r.Ok? && |r.value| == |ps|;
    assert r.value == ps;
  }

  /** `lagN` is already canonical. */
  lemma LagName(n: nat, pm: map<string, string>)
    ensures Standardize("lag" + IntToString(n), pm) == Ok("lag" + IntToString(n))
  {
    var d := NatToString(n);
    assert IntToString(n) == d;
    assert Rules[6].1 == "lag";
    SettledStays(6, d);
    assert ("lag" + d)[0] == 'l';
  }

  // ---------------------------------------------------------------------
  // Sections

  /** `"start to end"` split at ` to `: anything but two pieces is a
      ValueError from the unpacking. */
  function Bounds(section: string): (r: Result<(string, string)>)
    ensures var p := SplitOn(section, " to ");
      && (r.Ok? <==> |p| == 2)
      && (r.Ok? ==> r.value == (p[0], p[1]))
      && (r.Err? ==> r.error == ValueError)
  {
    var p := SplitOn(section, " to ");
    if |p| != 2 then Err(ValueError) else Ok((p[0], p[1]))
  }

  /** The slot and first number of a slash range's start `S/a`: the slot
      is everything but the last `/` component, which is the number. */
  function SlotAndNumber(start: string): (r: Result<(string, int)>)
  {
    var sp := SplitOn(start, "/");
    var num :- Int(sp[|sp| - 1]);
    Ok((Join("/", sp[..|sp| - 1]), num))
  }

  /** The last number of a slash range: the last `/` component of its end. */
  function EndNumber(end: string): (r: Result<int>)
  {
    var ep := SplitOn(end, "/");
    Int(ep[|ep| - 1])
  }

  /** A slash range `S/a to .../b`: `S/a`, `S/a+1`, ..., `S/b`, each
      standardized. */
  function SlashRange(start: string, end: string, pm: map<string, string>): (r: Result<seq<string>>)
  {
    var (slot, num) :- SlotAndNumber(start);
    var endNum :- EndNumber(end);
    StandardizeAll(ExpandRange(slot + "/", num, endNum), pm)
  }

  /** A stripped section of the ethernet part: a slash range, a bare range
      of numbers, or a single port. */
  function StrippedSection(sec: string, pm: map<string, string>): (r: Result<seq<string>>)
    ensures !Contains(sec, "to") ==> var n := Standardize(sec, pm);
      && (r.Ok? <==> n.Ok?)
      && (r.Ok? ==> r.value == [n.value])
  {
    if Contains(sec, "to") then
      var (start, end) :- Bounds(sec);
      if Contains(start, "/") then SlashRange(start, end, pm)
      else
        var num :- Int(start);
        var endNum :- Int(end);
        StandardizeAll(ExpandRange("", num, endNum), pm)
    else
      var n :- Standardize(sec, pm);
      Ok([n])
  }

  /** One section of the ethernet part, spaces around it ignored. */
  function EthernetSection(section: string, pm: map<string, string>): Result<seq<string>>
  {
    StrippedSection(Strip(section), pm)
  }

  /** A stripped section after a `lag` keyword: a range of lag numbers or a
      single lag. */
  function StrippedLag(l: string, pm: map<string, string>): (r: Result<seq<string>>)
    ensures !Contains(l, "to") ==> var n := Standardize("lag" + l, pm);
      && (r.Ok? <==> n.Ok?)
      && (r.Ok? ==> r.value == [n.value])
  {
    if Contains(l, "to") then
      var (start, end) :- Bounds(l);
      var num :- Int(start);
      var endNum :- Int(end);
      StandardizeAll(ExpandRange("lag", num, endNum), pm)
    else
      var n :- Standardize("lag" + l, pm);
      Ok([n])
  }

  /** One section after a `lag` keyword, spaces around it ignored. */
  function LagSection(lag: string, pm: map<string, string>): Result<seq<string>>
  {
    StrippedLag(Strip(lag), pm)
  }

  // ---------------------------------------------------------------------
  // Reading sections off a range written out in full

  /** A separator whose first character occurs in neither neighbour splits
      the text into exactly those two neighbours. */
  lemma SplitAround(x: string, sep: string, y: string)
    requires sep != [] && sep[0] !in x && sep[0] !in y
    ensures SplitOn(x + sep + y, sep) == [x, y]
  {
    var s := x + sep + y;
    assert OccursAt(s, sep, |x|) by {
      assert s[|x|..|x| + |sep|] == sep;
    }
    forall j | 0 <= j < |x| ensures !OccursAt(s, sep, j) {
      assert s[j] == x[j] != sep[0];
    }
    var i := Find(s, sep).value;
    assert i == |x|;
    assert s[..i] == x;
    assert s[i + |sep|..] == y;
    forall j | 0 <= j < |y| ensures !OccursAt(y, sep, j) {
      assert y[j] != sep[0];
    }
  }

  /** `x to y` with no space in either bound: the section is a range and
      its bounds are `x` and `y`. */
  lemma RangeBounds(x: string, y: string)
    requires ' ' !in x && ' ' !in y
    ensures Contains(x + " to " + y, "to")
    ensures Bounds(x + " to " + y) == Ok((x, y))
  {
    var s := x + " to " + y;
    assert s[|x| + 1..|x| + 3] == "to";
    assert OccursAt(s, "to", |x| + 1);
    SplitAround(x, " to ", y);
  }

  /** The slot of `S/A`, with no slash in `A`, is `S`, and `A` is the last
      component. */
  lemma SlotOf(slot: string, a: string)
    requires '/' !in a
    ensures var sp := SplitOn(slot + "/" + a, "/");
      sp[|sp| - 1] == a && Join("/", sp[..|sp| - 1]) == slot
  {
    SplitOnCharAppend(slot, '/', a);
    SplitNoChar(a, '/');
    var sp := SplitOn(slot + "/" + a, "/");
    assert sp == SplitOn(slot, "/") + [a];
    assert sp[..|sp| - 1] == SplitOn(slot, "/");
    JoinSplitOn(slot, "/");
  }

  /** `S/a to S/b` (as `2/4 to 2/6`) names `S/a`, `S/a+1`, ..., `S/b`, each
      standardized: nothing when `b < a`. */
  lemma SlashRangeSection(slot: string, a: int, b: int, pm: map<string, string>)
    requires ' ' !in slot
    ensures var x, y := slot + "/" + IntToString(a), slot + "/" + IntToString(b);
      StrippedSection(x + " to " + y, pm) == StandardizeAll(ExpandRange(slot + "/", a, b), pm)
  {
    var x, y := slot + "/" + IntToString(a), slot + "/" + IntToString(b);
    NumberPart(slot, a);
    NumberPart(slot, b);
    assert Contains(x, "/") by {
      assert x[|slot|..|slot| + 1] == "/";
      assert OccursAt(x, "/", |slot|);
    }
    SlashBounds(x, y, slot, a, b, pm);
  }

  /** A range whose start reads as slot and number and whose end reads as a
      number expands between the two. */
  lemma SlashBounds(x: string, y: string, slot: string, a: int, b: int, pm: map<string, string>)
    requires ' ' !in x && ' ' !in y && Contains(x, "/")
    requires SlotAndNumber(x) == Ok((slot, a)) && EndNumber(y) == Ok(b)
    ensures StrippedSection(x + " to " + y, pm) == StandardizeAll(ExpandRange(slot + "/", a, b), pm)
  {
    RangeBounds(x, y);
  }

  /** `S/n`, with no space in `S`, holds no space, and reads as slot `S`
      and number `n`. */
  lemma NumberPart(slot: string, n: int)
    requires ' ' !in slot
    ensures ' ' !in slot + "/" + IntToString(n)
    ensures SlotAndNumber(slot + "/" + IntToString(n)) == Ok((slot, n))
    ensures EndNumber(slot + "/" + IntToString(n)) == Ok(n)
  {
    NoSpaceInNumber(n);
    SlotOf(slot, IntToString(n));
    IntRoundTrip(n);
  }

  /** `a to b` (as `1 to 5`) names the port numbers `a` to `b`, each looked
      up in the port map. */
  lemma BareRangeSection(a: int, b: int, pm: map<string, string>)
    ensures StrippedSection(IntToString(a) + " to " + IntToString(b), pm)
      == StandardizeAll(ExpandRange("", a, b), pm)
  {
    var x, y := IntToString(a), IntToString(b);
    NoSpaceInNumber(a);
    NoSpaceInNumber(b);
    NoSlash(x);
    IntRoundTrip(a);
    IntRoundTrip(b);
    BareBounds(x, y, a, b, pm);
  }

  /** A range whose slash-free start and whose end read as numbers expands
      between the two. */
  lemma BareBounds(x: string, y: string, a: int, b: int, pm: map<string, string>)
    requires ' ' !in x && ' ' !in y && !Contains(x, "/")
    requires Int(x) == Ok(a) && Int(y) == Ok(b)
    ensures StrippedSection(x + " to " + y, pm) == StandardizeAll(ExpandRange("", a, b), pm)
  {
    RangeBounds(x, y);
  }

  /** A string without a slash does not contain `/`. */
  lemma NoSlash(x: string)
    requires '/' !in x
    ensures !Contains(x, "/")
  {
    forall j | 0 <= j < |x| ensures !OccursAt(x, "/", j) {
      assert x[j] != '/';
    }
  }

  /** `lag a to b` names `laga` to `lagb`. */
  lemma LagRangeSection(a: int, b: int, pm: map<string, string>)
    ensures StrippedLag(IntToString(a) + " to " + IntToString(b), pm)
      == StandardizeAll(ExpandRange("lag", a, b), pm)
  {
    NoSpaceInNumber(a);
    NoSpaceInNumber(b);
    RangeBounds(IntToString(a), IntToString(b));
    IntRoundTrip(a);
    IntRoundTrip(b);
  }

  /** Decimal renderings hold neither spaces nor slashes. */
  lemma NoSpaceInNumber(n: int)
    ensures ' ' !in IntToString(n) && '/' !in IntToString(n)
  {
    var s := IntToString(n);
    var d := if n < 0 then NatToString(-n) else NatToString(n);
    assert forall k :: 0 <= k < |d| ==> IsDigit(d[k]);
    if n < 0 {
      assert s == "-" + d;
      assert forall k :: 1 <= k < |s| ==> s[k] == d[k - 1];
    }
  }

  // ---------------------------------------------------------------------
  // `interfaces_to_list`

  /** The text before the first `lag` and the sections after each `lag`. */
  function LagSplit(s: string): (r: (string, seq<string>))
    ensures !Contains(s, "lag") ==> r == (s, [])
    ensures Contains(s, "lag") ==> [r.0] + r.1 == SplitOn(s, "lag")
  {
    if Contains(s, "lag") then
      var p := SplitOn(s, "lag");
      (p[0], p[1..])
    else (s, [])
  }

  /** The keyword the ethernet part is split on: the longest of `ethernet`,
      `ethe` and `e` that occurs. */
  function SplitWord(s: string): (w: string)
    ensures w != []
    ensures Contains(s, "ethernet") ==> w == "ethernet"
  {
    if Contains(s, "ethernet") then "ethernet"
    else if Contains(s, "ethe") then "ethe"
    else "e"
  }

  /** `xs.remove(x)` guarded by `x in xs`: drops the FIRST `x` only. */
  function RemoveFirst<T(==)>(xs: seq<T>, x: T): (r: seq<T>)
    ensures x !in xs ==> r == xs
    ensures x in xs ==> |r| == |xs| - 1 && multiset(r) == multiset(xs) - multiset{x}
    ensures x in xs ==> exists i :: 0 <= i < |xs| && xs[i] == x && x !in xs[..i] && r == xs[..i] + xs[i + 1..]
  {
    if x in xs then
      var i := IndexOf(xs, x);
      assert xs == xs[..i] + [x] + xs[i + 1..];
      assert x !in xs[..i] by {
        forall k | 0 <= k < i ensures xs[..i][k] != x { assert xs[..i][k] == xs[k]; }
      }
      xs[..i] + xs[i + 1..]
    else xs
  }

  /** The ethernet sections, in order. */
  function EthernetSections(eth: string): seq<string>
  {
    RemoveFirst(SplitOn(eth, SplitWord(eth)), "")
  }

  /** `interfaces_to_list(s)`: the names of the ethernet sections in order,
      then those of the lag sections in order; the first failing section
      stops the whole list. */
  function InterfacesToList(s: string, pm: map<string, string>): (r: Result<seq<string>>)
    ensures var eth, lags := LagSplit(s).0, LagSplit(s).1;
      var es := MapResult(x => EthernetSection(x, pm), EthernetSections(eth));
      var ls := MapResult(x => LagSection(x, pm), lags);
      && (r.Ok? <==> es.Ok? && ls.Ok?)
      && (r.Ok? ==> r.value == Concat(es.value) + Concat(ls.value))
  {
    var (eth, lags) := LagSplit(s);
    var a :- FlatMapResult(x => EthernetSection(x, pm), EthernetSections(eth));
    var b :- FlatMapResult(x => LagSection(x, pm), lags);
    Ok(a + b)
  }

  /** `interface_list_conversion(ve, tagged, untagged)`: the virtual
      interface first (when given), then the tagged ports, then the
      untagged ports. */
  function InterfaceListConversion(ve: string, tagged: string, untagged: string, pm: map<string, string>): (r: Result<seq<string>>)
    ensures var t := if tagged == "" then Ok([]) else InterfacesToList(tagged, pm);
      var u := if untagged == "" then Ok([]) else InterfacesToList(untagged, pm);
      var v := if ve == "" then [] else ["Ve" + ve];
      && (r.Ok? <==> t.Ok? && u.Ok?)
      && (r.Ok? ==> r.value == v + t.value + u.value)
  {
    var v := if ve == "" then [] else ["Ve" + ve];
    var t :- if tagged == "" then Ok([]) else InterfacesToList(tagged, pm);
    var u :- if untagged == "" then Ok([]) else InterfacesToList(untagged, pm);
    Ok(v + t + u)
  }
}

=== FILE: segment.dfy ===
/** Text segmentation: the driver's own helpers that cut raw device output
    into lines and token rows (napalm_fastiron/FastIron.py). */
module Segment {
  import opened Outcomes
  import opened PyStr

  // ---------------------------------------------------------------------
  // __creates_list_of_nlines

  /** The loop of `__creates_list_of_nlines`, from the remaining input `rest`
      and the characters `buf` gathered since the last flush. A newline met
      with an empty buffer is skipped; a newline, or the LAST input character,
      flushes the buffer — and the last character itself is never added. */
  function LinesLoop(rest: string, buf: string): seq<string>
    decreases |rest|
  {
    if rest == [] then []
    else if rest[0] == '\n' && buf == [] then LinesLoop(rest[1..], buf)
    else if rest[0] == '\n' || |rest| == 1 then [buf] + LinesLoop(rest[1..], [])
    else LinesLoop(rest[1..], buf + [rest[0]])
  }

  /** `__creates_list_of_nlines(s)`. */
  function CreatesListOfNLines(s: string): seq<string>
  {
    LinesLoop(s, [])
  }

  /** The non-empty strings of `xs`, in order. */
  function NonEmpty(xs: seq<string>): (r: seq<string>)
    ensures |r| <= |xs|
    ensures forall x :: x in r ==> x in xs && x != []
  {
    if xs == [] then []
    else (if xs[0] == [] then [] else [xs[0]]) + NonEmpty(xs[1..])
  }

  lemma {:induction false} NonEmptyAppend(xs: seq<string>, ys: seq<string>)
    ensures NonEmpty(xs + ys) == NonEmpty(xs) + NonEmpty(ys)
    decreases |xs|
  {
    if xs != [] {
      assert (xs + ys)[0] == xs[0];
      assert (xs + ys)[1..] == xs[1..] + ys;
      assert NonEmpty(xs + ys) == (if xs[0] == [] then [] else [xs[0]]) + NonEmpty(xs[1..] + ys);
      NonEmptyAppend(xs[1..], ys);
    } else {
      assert xs + ys == ys;
    }
  }

  /** An independent description of the line splitter in terms of Python's
      `s.split("\n")`: every piece before the last newline becomes a line
      unless it is empty, and the piece after the last newline, when there is
      one, becomes a line without its final character. */
  function LinesReference(s: string): seq<string>
  {
    LinesOfPieces(SplitOn(s, "\n"))
  }

  /** The lines made from the pieces of a text split at its newlines. */
  function LinesOfPieces(p: seq<string>): seq<string>
    requires |p| >= 1
  {
    var last := p[|p| - 1];
    NonEmpty(p[..|p| - 1]) + (if last == [] then [] else [last[..|last| - 1]])
  }

  lemma LinesOfPiecesAppend(a: seq<string>, b: seq<string>)
    requires |b| >= 1
    ensures LinesOfPieces(a + b) == NonEmpty(a) + LinesOfPieces(b)
  {
    assert (a + b)[..|a| + |b| - 1] == a + b[..|b| - 1];
    assert (a + b)[|a| + |b| - 1] == b[|b| - 1];
    NonEmptyAppend(a, b[..|b| - 1]);
  }

  /** The reference description, one line at a time: a first line that
      ends in a newline is kept when it is not empty. */
  lemma ReferenceAtNewline(b: string, r: string)
    requires '\n' !in b
    ensures LinesReference(b + "\n" + r) == NonEmpty([b]) + LinesReference(r)
  {
    SplitAtFirstChar(b, '\n', r);
    LinesOfPiecesAppend([b], SplitOn(r, "\n"));
  }

  /** The reference description of a text without newlines: one line, the
      text without its last character. */
  lemma ReferenceOfLastLine(b: string, c: char)
    requires '\n' !in b && c != '\n'
    ensures LinesReference(b + [c]) == [b]
  {
    SplitNoChar(b + [c], '\n');
    assert (b + [c])[..|b|] == b;
  }

  lemma {:induction false} LinesLoopMatchesReference(rest: string, buf: string)
    requires '\n' !in buf
    requires rest == [] ==> buf == []
    ensures LinesLoop(rest, buf) == LinesReference(buf + rest)
    decreases |rest|
  {
    if rest == [] {
      assert buf + rest == [];
      SplitNoChar([], '\n');
    } else {
      var c, r := rest[0], rest[1..];
      assert buf + rest == buf + [c] + r;
      if c == '\n' {
        LinesLoopMatchesReference(r, []);
        ReferenceAtNewline(buf, r);
        assert [] + r == r;
        assert [buf][1..] == [];
        if buf == [] {
          assert NonEmpty([buf]) == [];
          assert LinesLoop(rest, buf) == LinesLoop(r, []);
        } else {
          assert NonEmpty([buf]) == [buf];
          assert LinesLoop(rest, buf) == [buf] + LinesLoop(r, []);
        }
      } else if r == [] {
        assert rest == [c];
        assert LinesLoop(rest, buf) == [buf] + LinesLoop([], []);
        ReferenceOfLastLine(buf, c);
      } else {
        LinesLoopMatchesReference(r, buf + [c]);
      }
    }
  }

  /** The line splitter agrees with its reference description on every input. */
  lemma LinesMatchReference(s: string)
    ensures CreatesListOfNLines(s) == LinesReference(s)
  {
    LinesLoopMatchesReference(s, []);
    assert [] + s == s;
  }

  /** No line holds a newline character. */
  lemma LinesHaveNoNewline(s: string)
    ensures forall k :: 0 <= k < |CreatesListOfNLines(s)| ==> '\n' !in CreatesListOfNLines(s)[k]
  {
    LinesMatchReference(s);
    var p := SplitOn(s, "\n");
    forall k | 0 <= k < |p| ensures '\n' !in p[k] {
      forall j | 0 <= j < |p[k]| ensures p[k][j] != '\n' {
        CharAt(p[k], '\n', j);
      }
    }
    var last := p[|p| - 1];
    forall x | x in NonEmpty(p[..|p| - 1]) ensures '\n' !in x {
      assert x in p[..|p| - 1];
    }
    if last != [] {
      assert forall i :: 0 <= i < |last| - 1 ==> last[..|last| - 1][i] == last[i];
    }
  }

  /** The reference description of two texts joined by a newline: the
      non-empty pieces of the first, then the lines of the second. */
  lemma ReferenceAppend(x: string, y: string)
    ensures LinesReference(x + "\n" + y) == NonEmpty(SplitOn(x, "\n")) + LinesReference(y)
  {
    SplitOnCharAppend(x, '\n', y);
    LinesOfPiecesAppend(SplitOn(x, "\n"), SplitOn(y, "\n"));
  }

  /** Blank lines vanish: two newlines in a row split the text exactly as one
      newline does, and a leading newline adds nothing. */
  lemma LinesCollapseBlankLines(a: string, b: string)
    ensures CreatesListOfNLines(a + "\n\n" + b) == CreatesListOfNLines(a + "\n" + b)
    ensures CreatesListOfNLines("\n" + b) == CreatesListOfNLines(b)
  {
    LeadingNewline(b);
    LinesMatchReference(a + "\n\n" + b);
    LinesMatchReference(a + "\n" + b);
    assert a + "\n\n" + b == a + "\n" + ("\n" + b);
    ReferenceAppend(a, "\n" + b);
    ReferenceAppend(a, b);
  }

  /** A leading newline adds no line. */
  lemma LeadingNewline(b: string)
    ensures LinesReference("\n" + b) == LinesReference(b)
    ensures CreatesListOfNLines("\n" + b) == CreatesListOfNLines(b)
  {
    LinesMatchReference("\n" + b);
    LinesMatchReference(b);
    assert [] + "\n" + b == "\n" + b;
    ReferenceAtNewline([], b);
    assert NonEmpty([[]]) == [];
  }

  /** The characters of `s` other than newlines. */
  function DropNewlines(s: string): (r: string)
    ensures '\n' !in r
  {
    if s == [] then [] else (if s[0] == '\n' then [] else [s[0]]) + DropNewlines(s[1..])
  }

  lemma {:induction false} LinesLoopContent(rest: string, buf: string)
    requires rest != []
    ensures Concat(LinesLoop(rest, buf)) == buf + DropNewlines(rest[..|rest| - 1])
    decreases |rest|
  {
    var c, r := rest[0], rest[1..];
    if r == [] {
      assert rest[..0] == [];
      if c == '\n' && buf == [] {
      } else {
        assert Concat([buf]) == buf + Concat([]);
      }
    } else {
      assert rest[..|rest| - 1] == [c] + r[..|r| - 1];
      assert DropNewlines(rest[..|rest| - 1]) == (if c == '\n' then [] else [c]) + DropNewlines(r[..|r| - 1]);
      if c == '\n' && buf == [] {
        LinesLoopContent(r, buf);
      } else if c == '\n' {
        LinesLoopContent(r, []);
        assert Concat([buf] + LinesLoop(r, [])) == buf + Concat(LinesLoop(r, []));
      } else {
        LinesLoopContent(r, buf + [c]);
      }
    }
  }

  /** What the lines hold, put back together, is the input without its
      newlines and without its final character: when the text does not end
      in a newline, its last character is lost. */
  lemma LinesContent(s: string)
    requires s != []
    ensures Concat(CreatesListOfNLines(s)) == DropNewlines(s[..|s| - 1])
  {
    LinesLoopContent(s, []);
  }

  // ---------------------------------------------------------------------
  // __delete_if_contains and __matrix_format

  /** `__delete_if_contains(lines, word)`: the token rows of the lines that do
      not contain `word`. */
  function DeleteIfContains(lines: seq<string>, word: string): (r: seq<seq<string>>)
    ensures |r| <= |lines|
    ensures (forall j :: 0 <= j < |lines| ==> !Contains(lines[j], word)) ==>
      |r| == |lines| && forall k :: 0 <= k < |r| ==> r[k] == Split(lines[k])
    ensures (forall j :: 0 <= j < |lines| ==> Contains(lines[j], word)) ==> r == []
  {
    if lines == [] then []
    else
      var rest := DeleteIfContains(lines[1..], word);
      if Contains(lines[0], word) then rest else [Split(lines[0])] + rest
  }

  /** `row` is the token row of a line of `lines` that does not contain
      `word`. */
  predicate KeptRow(lines: seq<string>, word: string, row: seq<string>)
  {
    exists j :: 0 <= j < |lines| && !Contains(lines[j], word) && row == Split(lines[j])
  }

  /** Every row `__delete_if_contains` returns is the token row of some line
      that does not contain the word. */
  lemma {:induction false} DeleteIfContainsRows(lines: seq<string>, word: string)
    ensures forall k :: 0 <= k < |DeleteIfContains(lines, word)| ==> KeptRow(lines, word, DeleteIfContains(lines, word)[k])
    decreases |lines|
  {
    if lines != [] {
      DeleteIfContainsRows(lines[1..], word);
      var rest := DeleteIfContains(lines[1..], word);
      if Contains(lines[0], word) {
        RowsFromTail(lines, word, rest, rest, 0);
      } else {
        RowsFromTail(lines, word, rest, [Split(lines[0])] + rest, 1);
      }
    } else {
      assert DeleteIfContains(lines, word) == [];
    }
  }

  /** One step of `DeleteIfContainsRows`: `r` is the rows of the tail `rest`
      with the first line's row in front of it when `d` is 1. */
  lemma RowsFromTail(lines: seq<string>, word: string, rest: seq<seq<string>>, r: seq<seq<string>>, d: nat)
    requires lines != [] && d <= 1
    requires d == 1 ==> !Contains(lines[0], word) && r == [Split(lines[0])] + rest
    requires d == 0 ==> r == rest
    requires forall k :: 0 <= k < |rest| ==> KeptRow(lines[1..], word, rest[k])
    ensures forall k :: 0 <= k < |r| ==> KeptRow(lines, word, r[k])
  {
    forall k | 0 <= k < |r| ensures KeptRow(lines, word, r[k]) {
      if k < d {
        assert 0 <= 0 < |lines| && !Contains(lines[0], word) && r[k] == Split(lines[0]);
      } else {
        assert r[k] == rest[k - d] && KeptRow(lines[1..], word, rest[k - d]);
        var j :| 0 <= j < |lines[1..]| && !Contains(lines[1..][j], word) && rest[k - d] == Split(lines[1..][j]);
        assert lines[1..][j] == lines[j + 1];
        assert 0 <= j + 1 < |lines| && !Contains(lines[j + 1], word) && r[k] == Split(lines[j + 1]);
      }
    }
  }

  /** Deleting line by line: the rows of two stretches of text are the rows of
      the first followed by the rows of the second, so order is kept. */
  lemma {:induction false} DeleteIfContainsAppend(a: seq<string>, b: seq<string>, word: string)
    ensures DeleteIfContains(a + b, word) == DeleteIfContains(a, word) + DeleteIfContains(b, word)
    decreases |a|
  {
    if a != [] {
      assert (a + b)[0] == a[0];
      assert (a + b)[1..] == a[1..] + b;
      DeleteIfContainsAppend(a[1..], b, word);
      var h := if Contains(a[0], word) then [] else [Split(a[0])];
      assert DeleteIfContains(a + b, word) == h + DeleteIfContains(a[1..] + b, word);
      assert DeleteIfContains(a, word) == h + DeleteIfContains(a[1..], word);
      Reassoc(h, DeleteIfContains(a[1..], word), DeleteIfContains(b, word),
              DeleteIfContains(a + b, word), DeleteIfContains(a, word), DeleteIfContains(a[1..] + b, word));
    } else {
      assert a + b == b;
    }
  }

  /** Every line of `lines` holds at least one token. */
  predicate NoBlankLine(lines: seq<string>)
  {
    forall j :: 0 <= j < |lines| ==> Split(lines[j]) != []
  }

  /** `r` could be the token rows of `lines`: no more rows than lines,
      every row the non-empty tokens of some line, and row k the tokens of
      line k when no line is blank. */
  predicate RowsOf(lines: seq<string>, r: seq<seq<string>>)
  {
    && |r| <= |lines|
    && (forall k :: 0 <= k < |r| ==> r[k] != [] && exists j :: 0 <= j < |lines| && r[k] == Split(lines[j]))
    && (NoBlankLine(lines) ==> |r| == |lines| && forall k :: 0 <= k < |r| ==> r[k] == Split(lines[k]))
  }

  /** The token rows of the lines of `lines`, blank rows skipped. */
  function TokenRows(lines: seq<string>): (r: seq<seq<string>>)
    ensures |r| <= |lines|
    ensures forall k :: 0 <= k < |r| ==> r[k] != [] && exists j :: 0 <= j < |lines| && r[k] == Split(lines[j])
    ensures NoBlankLine(lines) ==> |r| == |lines| && forall k :: 0 <= k < |r| ==> r[k] == Split(lines[k])
  {
    if lines == [] then []
    else
      var rest := TokenRows(lines[1..]);
      var r := (if Split(lines[0]) == [] then [] else [Split(lines[0])]) + rest;
      RowsStep(lines, rest, r);
      r
  }

  /** One step of `TokenRows`: the first line's row, if any, in front of the
      rows of the other lines. */
  lemma RowsStep(lines: seq<string>, rest: seq<seq<string>>, r: seq<seq<string>>)
    requires lines != [] && RowsOf(lines[1..], rest)
    requires r == (if Split(lines[0]) == [] then [] else [Split(lines[0])]) + rest
    ensures RowsOf(lines, r)
  {
    assert forall j :: 0 <= j < |lines[1..]| ==> lines[1..][j] == lines[j + 1];
    assert forall k :: 0 <= k < |rest| ==> exists j :: 0 <= j < |lines| && rest[k] == Split(lines[j]) by {
      forall k | 0 <= k < |rest| ensures exists j :: 0 <= j < |lines| && rest[k] == Split(lines[j]) {
        var j :| 0 <= j < |lines[1..]| && rest[k] == Split(lines[1..][j]);
        assert lines[1..][j] == lines[j + 1];
      }
    }
    assert NoBlankLine(lines) ==> NoBlankLine(lines[1..]);
  }

  /** A single line gives its token row, or nothing when it is blank. */
  lemma TokenRowsOne(l: string)
    ensures TokenRows([l]) == if Split(l) == [] then [] else [Split(l)]
  {
    assert [l][1..] == [];
  }

  /** Row by row: the rows of two stretches of lines are the rows of the
      first followed by the rows of the second, so order is kept. */
  lemma {:induction false} TokenRowsAppend(a: seq<string>, b: seq<string>)
    ensures TokenRows(a + b) == TokenRows(a) + TokenRows(b)
    decreases |a|
  {
    if a != [] {
      assert (a + b)[0] == a[0];
      assert (a + b)[1..] == a[1..] + b;
      TokenRowsAppend(a[1..], b);
      var h := if Split(a[0]) == [] then [] else [Split(a[0])];
      assert TokenRows(a + b) == h + TokenRows(a[1..] + b);
      assert TokenRows(a) == h + TokenRows(a[1..]);
      Reassoc(h, TokenRows(a[1..]), TokenRows(b), TokenRows(a + b), TokenRows(a), TokenRows(a[1..] + b));
    } else {
      assert a + b == b;
    }
  }

  /** `__matrix_format(text)`: one row of tokens per line of `text` that holds
      at least one token. */
  function MatrixFormat(text: string): (r: seq<seq<string>>)
    ensures forall k :: 0 <= k < |r| ==> r[k] != [] && forall t :: t in r[k] ==> IsToken(t)
    ensures |r| <= |CreatesListOfNLines(text)|
    ensures NoBlankLine(CreatesListOfNLines(text)) ==>
      |r| == |CreatesListOfNLines(text)| && forall k :: 0 <= k < |r| ==> r[k] == Split(CreatesListOfNLines(text)[k])
  {
    var rows := TokenRows(CreatesListOfNLines(text));
    assert forall k :: 0 <= k < |rows| ==> forall t :: t in rows[k] ==> IsToken(t) by {
      forall k, t | 0 <= k < |rows| && t in rows[k] ensures IsToken(t) {
        var j :| 0 <= j < |CreatesListOfNLines(text)| && rows[k] == Split(CreatesListOfNLines(text)[j]);
      }
    }
    rows
  }

  // ---------------------------------------------------------------------
  // __unite_strings

  /** `__unite_strings(s)`: newlines and spaces are dropped, except that a
      space directly followed by a character other than a space (and not at
      the very end) is kept as one space. */
  function UniteStrings(s: string): (r: string)
    ensures '\n' !in r
    ensures s != [] && s[0] != ' ' && s[0] != '\n' ==> r != [] && r[0] == s[0]
  {
    if s == [] then []
    else
      (if s[0] != '\n' && s[0] != ' ' then [s[0]] else [])
      + (if |s| > 1 && s[0] == ' ' && s[1] != ' ' then " " else [])
      + UniteStrings(s[1..])
  }

  /** The characters of `s` other than spaces and newlines. */
  function Squeeze(s: string): string
  {
    if s == [] then [] else (if s[0] == ' ' || s[0] == '\n' then [] else [s[0]]) + Squeeze(s[1..])
  }

  lemma {:induction false} SqueezeAppend(a: string, b: string)
    ensures Squeeze(a + b) == Squeeze(a) + Squeeze(b)
    decreases |a|
  {
    if a != [] {
      assert (a + b)[0] == a[0];
      assert (a + b)[1..] == a[1..] + b;
      assert Squeeze(a + b) == (if a[0] == ' ' || a[0] == '\n' then [] else [a[0]]) + Squeeze(a[1..] + b);
      SqueezeAppend(a[1..], b);
    } else {
      assert a + b == b;
    }
  }

  /** Uniting keeps every visible character, in order: only spaces and
      newlines are ever dropped or added. */
  lemma {:induction false} UniteKeepsVisibleText(s: string)
    ensures Squeeze(UniteStrings(s)) == Squeeze(s)
    decreases |s|
  {
    if s != [] {
      UniteKeepsVisibleText(s[1..]);
      var head := if s[0] != '\n' && s[0] != ' ' then [s[0]] else [];
      var gap := if |s| > 1 && s[0] == ' ' && s[1] != ' ' then " " else [];
      SqueezeAppend(head + gap, UniteStrings(s[1..]));
      SqueezeAppend(head, gap);
      assert Squeeze(gap) == [];
      assert Squeeze(head) == (if s[0] == ' ' || s[0] == '\n' then [] else [s[0]]);
    }
  }

  /** No two spaces in a row and no space at the end. */
  predicate SingleSpaced(r: string)
  {
    && (forall k :: 0 <= k < |r| - 1 ==> !(r[k] == ' ' && r[k + 1] == ' '))
    && (r == [] || r[|r| - 1] != ' ')
  }

  /** On one line of text (no newline), uniting leaves no two spaces in a row
      and no space at the end. */
  lemma {:induction false} UniteSingleSpaces(s: string)
    requires '\n' !in s
    ensures SingleSpaced(UniteStrings(s))
    decreases |s|
  {
    if s != [] {
      var tail := UniteStrings(s[1..]);
      assert '\n' !in s[1..];
      UniteSingleSpaces(s[1..]);
      var r := UniteStrings(s);
      if |s| > 1 && s[0] == ' ' && s[1] != ' ' {
        assert tail != [] && tail[0] == s[1];
        assert r == " " + tail;
        SpacedCons(" ", tail);
      } else if s[0] != ' ' {
        assert r == [s[0]] + tail;
        SpacedCons([s[0]], tail);
      } else {
        assert r == tail;
      }
    }
  }

  /** A non-space, or a single space before a non-space, in front of a
      single-spaced string keeps it single-spaced. */
  lemma SpacedCons(h: string, tail: string)
    requires SingleSpaced(tail) && |h| == 1
    requires h[0] == ' ' ==> tail != [] && tail[0] != ' '
    ensures SingleSpaced(h + tail)
  {
    var r := h + tail;
    forall k | 0 <= k < |r| - 1 ensures !(r[k] == ' ' && r[k + 1] == ' ') {
      if k == 0 {
        assert r[0] == h[0];
        if tail != [] { assert r[1] == tail[0]; }
      } else {
        assert r[k] == tail[k - 1] && r[k + 1] == tail[k];
      }
    }
    if tail != [] {
      assert r[|r| - 1] == tail[|tail| - 1];
    }
  }

  /** `n` spaces. */
  function Spaces(n: nat): (r: string)
    ensures |r| == n && forall k :: 0 <= k < n ==> r[k] == ' '
  {
    if n == 0 then [] else " " + Spaces(n - 1)
  }

  /** A piece of text that does not end in a space is united on its own:
      whatever follows it cannot change what it contributes. */
  lemma {:induction false} UniteAppend(x: string, z: string)
    requires x == [] || x[|x| - 1] != ' '
    ensures UniteStrings(x + z) == UniteStrings(x) + UniteStrings(z)
    decreases |x|
  {
    if x != [] {
      assert (x + z)[0] == x[0];
      assert (x + z)[1..] == x[1..] + z;
      if |x| > 1 { assert (x + z)[1] == x[1]; }
      UniteAppend(x[1..], z);
      var h := (if x[0] != '\n' && x[0] != ' ' then [x[0]] else [])
        + (if |x| > 1 && x[0] == ' ' && x[1] != ' ' then " " else []);
      assert UniteStrings(x + z) == h + UniteStrings(x[1..] + z);
      assert UniteStrings(x) == h + UniteStrings(x[1..]);
      Reassoc(h, UniteStrings(x[1..]), UniteStrings(z), UniteStrings(x + z), UniteStrings(x), UniteStrings(x[1..] + z));
    } else {
      assert x + z == z;
    }
  }

  /** A run of spaces in front of a visible character becomes one space. */
  lemma {:induction false} SpacesThenVisible(n: nat, y: string)
    requires n >= 1 && y != [] && y[0] != ' '
    ensures UniteStrings(Spaces(n) + y) == " " + UniteStrings(y)
    decreases n
  {
    var s := Spaces(n) + y;
    assert s[0] == ' ';
    if n == 1 {
      assert s[1] == y[0] && s[1..] == y;
    } else {
      assert s[1] == ' ';
      assert s[1..] == Spaces(n - 1) + y;
      SpacesThenVisible(n - 1, y);
    }
  }

  /** A run of spaces at the very end disappears. */
  lemma {:induction false} TrailingSpaces(n: nat)
    ensures UniteStrings(Spaces(n)) == []
    decreases n
  {
    if n > 0 {
      var s := Spaces(n);
      assert s[1..] == Spaces(n - 1);
      TrailingSpaces(n - 1);
    }
  }

  /** Between two words, a run of spaces of any length becomes exactly one
      space. */
  lemma UniteGap(x: string, n: nat, y: string)
    requires x == [] || x[|x| - 1] != ' '
    requires n >= 1 && y != [] && y[0] != ' '
    ensures UniteStrings(x + Spaces(n) + y) == UniteStrings(x) + " " + UniteStrings(y)
  {
    var t := Spaces(n) + y;
    AppendAssoc(x, Spaces(n), y);
    UniteAppend(x, t);
    SpacesThenVisible(n, y);
    AppendAssoc(UniteStrings(x), " ", UniteStrings(y));
  }

  /** A run of spaces at the end of the text is dropped. */
  lemma UniteTrailingSpaces(x: string, n: nat)
    requires x == [] || x[|x| - 1] != ' '
    ensures UniteStrings(x + Spaces(n)) == UniteStrings(x)
  {
    UniteAppend(x, Spaces(n));
    TrailingSpaces(n);
  }

  /** A newline not preceded by a space is dropped, joining the lines with
      nothing between them. */
  lemma UniteNewline(x: string, y: string)
    requires x == [] || x[|x| - 1] != ' '
    ensures UniteStrings(x + "\n" + y) == UniteStrings(x) + UniteStrings(y)
  {
    AppendAssoc(x, "\n", y);
    UniteAppend(x, "\n" + y);
    NewlineThen(y);
  }

  /** A leading newline contributes nothing. */
  lemma NewlineThen(y: string)
    ensures UniteStrings("\n" + y) == UniteStrings(y)
  {
    assert ("\n" + y)[1..] == y;
  }

  /** A space directly before a newline is kept as one space: only a
      following space suppresses it. */
  lemma SpaceBeforeNewline(x: string, y: string)
    requires x == [] || x[|x| - 1] != ' '
    ensures UniteStrings(x + " \n" + y) == UniteStrings(x) + " " + UniteStrings(y)
  {
    AppendAssoc(x, " \n", y);
    UniteAppend(x, " \n" + y);
    SpaceNewlineThen(y);
    AppendAssoc(UniteStrings(x), " ", UniteStrings(y));
  }

  /** The space of `" \n"` is followed by a non-space, so it is kept. */
  lemma SpaceNewlineThen(y: string)
    ensures UniteStrings(" \n" + y) == " " + UniteStrings(y)
  {
    var t := " \n" + y;
    assert t[0] == ' ' && t[1] == '\n';
    assert t[1..] == "\n" + y;
    assert t[1..][1..] == y;
  }

  // ---------------------------------------------------------------------
  // Padding helpers

  /** One line of `show interface ... name` output, as `__get_interface_name`
      reads it: an unnamed port gives the empty string, otherwise the
      "Port name is" label is cut out. */
  function PortNameOf(line: string): string
  {
    if Contains(line, "No port name") then "" else ReplaceAll(line, "Port name is", "")
  }

  function MapPortNames(lines: seq<string>): (r: seq<string>)
    ensures |r| == |lines|
    ensures forall k :: 0 <= k < |r| ==> r[k] == PortNameOf(lines[k])
  {
    if lines == [] then [] else [PortNameOf(lines[0])] + MapPortNames(lines[1..])
  }

  function Repeat<T>(x: T, n: nat): (r: seq<T>)
    ensures |r| == n && forall k :: 0 <= k < n ==> r[k] == x
  {
    if n == 0 then [] else [x] + Repeat(x, n - 1)
  }

  /** `__get_interface_name(text, size)`: one name per line, then empty names
      up to `size` entries; never truncated. */
  function GetInterfaceName(text: string, size: int): (r: seq<string>)
    ensures var lines := CreatesListOfNLines(text);
      && |r| == (if size > |lines| then size else |lines|)
      && (forall k :: 0 <= k < |lines| ==> r[k] == PortNameOf(lines[k]))
      && (forall k :: |lines| <= k < |r| ==> r[k] == "")
  {
    var names := MapPortNames(CreatesListOfNLines(text));
    names + Repeat("", if size > |names| then size - |names| else 0)
  }

  /** An entry of `__get_interfaces_speed`: a speed string, or the integer 0
      used as filler. */
  datatype SpeedCell = Speed(text: string) | NoSpeed

  /** `__get_interfaces_speed(speeds, size)`: exactly `size` entries (none
      for a negative size), the given speeds first, then filler. */
  function GetInterfacesSpeed(speeds: seq<string>, size: int): (r: seq<SpeedCell>)
    ensures |r| == (if size > 0 then size else 0)
    ensures forall k :: 0 <= k < |r| ==> r[k] == (if k < |speeds| then Speed(speeds[k]) else NoSpeed)
    decreases if size > 0 then size else 0
  {
    if size <= 0 then []
    else GetInterfacesSpeed(speeds, size - 1) + [if size - 1 < |speeds| then Speed(speeds[size - 1]) else NoSpeed]
  }
}

=== FILE: vlans.dfy ===
/** The last step of `get_vlans` (napalm_fastiron/FastIron.py): a port that
    carries tagged VLANs and also has an untagged (access) VLAN is a trunk
    whose untagged VLAN is its native VLAN. */
module Vlans {
  import opened Outcomes

  /** The VLAN fields of one port: the access VLAN (`-1`, here `None`, when
      unset), the tagged VLANs, and the native VLAN (`-1` when unset). */
  datatype PortVlans = PortVlans(access: Option<string>, trunk: seq<string>, native: Option<string>)

  /** The native-VLAN correction for one port: with tagged VLANs and an
      access VLAN, the access VLAN moves to the native VLAN. */
  function SetNative(p: PortVlans): (r: PortVlans)
    ensures !(r.trunk != [] && r.access.Some?)
    ensures r.trunk == p.trunk
    ensures p.trunk != [] && p.access.Some? ==> r.native == p.access && r.access.None?
    ensures !(p.trunk != [] && p.access.Some?) ==> r == p
  {
    if p.trunk != [] && p.access.Some? then p.(native := p.access, access := None) else p
  }

  /** Correcting twice changes nothing more than correcting once. */
  lemma SetNativeIdempotent(p: PortVlans)
    ensures SetNative(SetNative(p)) == SetNative(p)
  {
  }

  /** No VLAN is lost: the access and native VLANs together are the same
      before and after, and only a port with tagged VLANs changes. */
  lemma SetNativeKeepsVlans(p: PortVlans)
    requires p.native.None?
    ensures var r := SetNative(p);
      (if r.access.Some? then {r.access.value} else {}) + (if r.native.Some? then {r.native.value} else {})
        == (if p.access.Some? then {p.access.value} else {})
  {
  }

  /** The correction applied to every port of the result. */
  function SetNativeAll(ports: map<string, PortVlans>): (r: map<string, PortVlans>)
    ensures r.Keys == ports.Keys
    ensures forall k :: k in r ==> !(r[k].trunk != [] && r[k].access.Some?)
    ensures forall k :: k in r ==> r[k].trunk == ports[k].trunk
    ensures forall k :: k in r ==> r[k] == SetNative(ports[k])
  {
    map k | k in ports :: SetNative(ports[k])
  }
}
